=== FILE: README.md ===
# MetaSSH core, modelled in Dafny

MetaSSH is an Electron client that keeps a list of SSH servers, opens
terminal sessions and SFTP file-transfer sessions on them, and stores each
server's password or key passphrase encrypted on disk. This project models
the logic at the core of that application. Each part is written as pure functions over immutable values:

- **Credential envelope** (`Encryption`, `Hex`). `encrypt` writes `hex(iv) + ':' + hex(ct)` with a
  16-byte IV. `decrypt` splits the text at its first `:`. The cipher is a pair
  of functions supplied by the caller, and `InversePair` states that one
  undoes the other.
- **Server store** (`ServerStore`, `Servers`). The `servers.json` file is a
  sequence of raw records. The model covers reading (decrypting secrets),
  writing (encrypting anything that does not look like an envelope), create,
  get, the partial-merge update with its secret-preservation rules, and
  delete.
- **Session registry** (`Registry`). This is the insertion-ordered `Map` both
  connection managers keep, modelled as a sequence of entries with distinct ids.
- **Shell sessions** (`SessionAuth`, `ShellSessions`, `ShellConnect`). This part covers:
  - the shell manager's `createSession`, with reuse per server, registration
    before the credential check, and the recorded error messages;
  - the guarded write and resize, idempotent close, and the client's
    `ready`/`error`/`close` listeners;
  - the main process's connect handler as an event-driven state machine with
    its single "settled" flag (`timeoutCleared`);
  - the status and data notices, and the fan-out of every notice to every
    window (`Broadcast`).
- **SFTP sessions** (`SftpSessions`, `SftpOps`). This part covers:
  - the SFTP manager's creation with per-server reuse, and the
    `~`/`.`/`/` initial-path fallback;
  - the timer and the client and channel callbacks, which have no settled flag;
  - the listing transform, the ready guard of every operation, and the
    stat-then-rmdir/unlink dispatch of delete.
- **File-transfer page paths** (`RemotePaths`). This covers `getParentPath`
  for local paths (both `/` and `\`), the remote ".." target and the child
  paths built for uploads, new folders and renames.
- **Server form and list** (`ServerForm`, `ServerList`). This covers the
  form's validation and the input it submits, and the search filter of the
  server list.

The ssh2 library, the file system, the cipher, timers and id generation are
never called. What they would return enters as a parameter:
- `lookup` is the result of `getServer`;
- `keyFile` is what the file system says about the private key;
- `connectThrows` is set when `client.connect` throws;
- the server's replies (`readdir`, `stat` and the error of each request) are parameters;
- a `suffix` makes a fresh id;
- an `IvSource` gives the IV each encryption draws.

Asynchronous callbacks are events. Each `Step` applies one event.

## Model

| member | source | states |
|---|---|---|
| Hex.FromHexToHex | electron/utils/encryption.ts:30-33 | Decoding the hex text of any byte string gives the bytes back. |
| Encryption.Encrypt | electron/utils/encryption.ts:25-34 | The envelope is 32 hex digits of the IV, one `:`, then the hex ciphertext. It contains exactly one `:`, and its two halves are the IV and ciphertext encodings. |
| Encryption.EnvelopeIv | electron/utils/encryption.ts:38-39 | The IV text is everything before the first `:`, or the whole text when there is none. |
| Encryption.EnvelopeCiphertext | electron/utils/encryption.ts:38-40 | The ciphertext text is everything after the first `:`, rejoined. IV text, `:` and ciphertext text concatenate back to the envelope. |
| Encryption.Decrypt | electron/utils/encryption.ts:36-47 | A successful decryption implies the text starts with 32 hex digits. |
| Encryption.DecryptEncrypt | electron/utils/encryption.ts:25-47 | When the cipher is an inverse pair, decrypting an envelope gives back any plaintext, including empty ones and ones containing `:`. |
| ServerStore.SealOnWrite | electron/utils/serverStore.ts:49-61 | A falsy secret becomes absent. A secret with exactly one `:` is kept as is. Any other secret is encrypted so that it decrypts back to itself. The result always has at most one `:`. |
| ServerStore.SealRecord | electron/utils/serverStore.ts:49-61 | Writing changes only the two secrets. A record already at rest is left unchanged. |
| ServerStore.WriteServers | electron/utils/serverStore.ts:44-67 | The same number of records, in the same order. Only secrets change, every record ends at rest, and records already at rest are untouched. |
| ServerStore.WriteServersIdempotent | electron/utils/serverStore.ts:49-61 | Re-writing a written file changes nothing, whatever IVs are drawn. |
| ServerStore.OpenSecret | electron/utils/serverStore.ts:38-39 | Only a truthy secret is decrypted. A falsy one reads as absent. |
| ServerStore.OpenRecord | electron/utils/serverStore.ts:36-40 | A record reads successfully iff both secrets decrypt. Only the secrets change, and they are replaced by their decryptions. |
| ServerStore.ReadServers | electron/utils/serverStore.ts:33-41 | Reading gives one record per stored record, each opened in place. A failure points to a record that does not decrypt. |
| ServerStore.ReadServersOnlyOpensSecrets | electron/utils/serverStore.ts:33-41 | Every field of every record except the truthy secrets is returned unchanged, and those secrets are returned decrypted. |
| ServerStore.FindIndex | electron/utils/serverStore.ts:106 | The index found is the first record with the id. None means that no record has it. |
| ServerStore.GetServer | electron/utils/serverStore.ts:80-83 | The first record with the id, decrypted. Absent means no record has the id; a failure is a decryption failure. |
| ServerStore.CreateServer | electron/utils/serverStore.ts:86-100 | Exactly one record is appended, with the new id, `createdAt == updatedAt == now` and the input's fields. Every earlier record keeps its position and every field except its secrets. |
| ServerStore.CreateReencryptsEarlier | electron/utils/serverStore.ts:86-98 | Because the decrypted records are written back, each earlier secret is encrypted again under the IV drawn for this write, unless its plaintext has exactly one `:`. So the earlier envelopes in the file change although the secrets they hold do not. |
| ServerStore.ReadAfterWrite | electron/utils/serverStore.ts:33-67 | Records whose secrets do not look like envelopes, once written and read back, are themselves, with falsy secrets turned absent. |
| ServerStore.CreateThenRead | electron/utils/serverStore.ts:86-100 | After a create, a read gives the earlier records in order, followed by the new one. |
| ServerStore.OneColonPlaintextStoredVerbatim | electron/utils/serverStore.ts:52-53 | The plaintext secret `a:b` passes the envelope test and is stored unencrypted. |
| ServerStore.SealOnUpdate | electron/utils/serverStore.ts:159-164 | The update's own test keeps any value containing `:`, encrypts any other truthy value, and drops falsy ones. |
| ServerStore.UpdateServer | electron/utils/serverStore.ts:103-180 | An unknown id fails with "Server with id … not found" and writes nothing. Otherwise the `UpdateWrites` conditions hold (see the `UpdateWritesHolds` row). |
| ServerStore.UpdateReplyMatchesFixed | electron/utils/serverStore.ts:146-177 | When the stored and requested secrets all read as envelopes (falsy, or exactly one `:`), the reply as written equals the corrected reply. It is then the record a later `getServer` returns. |
| ServerStore.UpdateWritesHolds | electron/utils/serverStore.ts:115-170 | Details of what an update writes:<br>- only the matched record changes;<br>- its id and creation time stay, and the request's members replace the stored ones;<br>- an omitted or blank secret keeps the stored value whenever its mode is involved, and an omitted one keeps it whenever no switch is requested: byte for byte for an envelope, re-encrypted for a legacy plaintext;<br>- a stored secret is cleared exactly when the request switches a record that does not use it to the other mode, or sends it as `""` where its mode is not involved;<br>- where nothing is stored, the secret stays absent exactly on such a switch or when the request's value is falsy;<br>- any other non-empty request value, blank ones included, is stored so that it reads back as sent. |
| ServerStore.UpdateKeepsPasswordEnvelope | electron/utils/serverStore.ts:118-150 | The stored password envelope is left byte for byte by an update that involves the password mode but carries no real password. It is also left by one that keeps the mode of a key-mode record and omits the password, so a leftover envelope survives an unrelated edit. |
| ServerStore.SwitchToKeyKeepsPassword | electron/utils/serverStore.ts:118-129 | Switching a password server to key mode keeps its password envelope, because the stored mode alone makes the guard true. |
| ServerStore.DeleteServer | electron/utils/serverStore.ts:183-192 | Fails with "not found", writing nothing, iff no record has the id. Otherwise the file shrinks by the number of records with the id. What is written is the records without the id, in their order, each as often as it was stored. Only their secrets may change, and only if they were not at rest; an all-at-rest file keeps them byte for byte. |
| ServerStore.CreateReadBlankUpdate | electron/utils/serverStore.ts:86-180 | Create a password server, read it, then update it with an empty password: the envelope on disk is unchanged. |
| ServerStore.UpdateWithNewPasswordThrows | electron/utils/serverStore.ts:159-177 | As written, an update that supplies a new short password writes it encrypted, then fails decrypting its own reply. |
| ServerStore.UpdateServerFixed | electron/utils/serverStore.ts:103-180 | The corrected update writes the same file and replies with what a later `getServer` returns. |
| ServerStore.UpdateFixedReturnsNewPassword | electron/utils/serverStore.ts:170-179 | The corrected update replies with the newly supplied password in plaintext. |
| Registry.Get | electron/utils/sshSessionManager.ts:16 | The lookup succeeds iff an entry has the id, and with distinct ids it is that entry's session. |
| Registry.Add | electron/utils/sshSessionManager.ts:45 | Registering a fresh id makes it map to the session, leaves every other id unchanged, keeps ids distinct and appends at the end. |
| Registry.Remove | electron/utils/sshSessionManager.ts:169 | The id is gone and no other id comes or goes. With distinct ids the other lookups are unchanged; an absent id changes nothing. |
| Registry.FirstLive | electron/utils/sshSessionManager.ts:24-28 | The reuse scan returns the first entry, in insertion order, of the server in a live status. None means that no such entry exists. |
| Registry.ModifyGet | electron/utils/sshSessionManager.ts:68-69 | Mutating a session object changes only its own lookup, and only if it is still registered. |
| SessionAuth.CheckAuth | electron/utils/sshSessionManager.ts:66-99 | The configuration is accepted iff password mode has a non-empty password, or key mode has a non-empty path to a readable file. A refusal records a non-empty message; a missing file records "Private key file not found: " and the path. |
| ShellSessions.CreateSession | electron/utils/sshSessionManager.ts:22-131 | Outcomes of `createSession`:<br>- a live session of the server is reused and nothing changes;<br>- an unknown server fails with the table unchanged;<br>- otherwise a fresh `session-` id is registered before the check;<br>- a refusal leaves that entry in `error` with a message;<br>- a success is a `connecting` session that passed the check. |
| ShellSessions.Dial | electron/utils/sshSessionManager.ts:35-131 | A new session succeeds iff the credentials pass and connect does not throw. On failure the entry stays registered in `error`. |
| ShellSessions.MarkError | electron/utils/sshSessionManager.ts:107-111 | Only the named session becomes `error` with the message, and only if it is registered. |
| ShellSessions.WriteToSession | electron/utils/sshSessionManager.ts:133-144 | Succeeds iff the session is `connected` with a stream, and forwards the data unchanged. Otherwise the not-found or not-connected message. |
| ShellSessions.ResizeSession | electron/utils/sshSessionManager.ts:146-157 | Fails iff the session is unknown. A known session that cannot be written to is a silent no-op; otherwise the window takes the given size. |
| ShellSessions.CloseSession | electron/utils/sshSessionManager.ts:159-170 | An absent id is a no-op. Otherwise the client is ended and exactly that entry is removed. |
| ShellSessions.OnClientReady | electron/utils/sshSessionManager.ts:102-105 | The manager's `ready` listener marks the session `connected`, whether or not it has a stream. |
| ShellSessions.OnClientClose | electron/utils/sshSessionManager.ts:113-117 | A client close removes exactly that session. |
| ShellSessions.OnClientError | electron/utils/sshSessionManager.ts:107-111 | The manager's `error` listener marks only that session `error` with the raw message; every other lookup is unchanged. |
| ShellSessions.ReuseIgnoresEverythingElse | electron/utils/sshSessionManager.ts:24-28 | With a live session for the server, the call succeeds and leaves the table unchanged, whatever the lookup, key file or connect would do. |
| ShellSessions.ReadyBeforeShellRefusesWrites | electron/utils/sshSessionManager.ts:102-105 | After `ready` the session is `connected` (and reusable), yet writes are refused until a shell stream arrives. |
| ShellConnect.OnOpen | electron/main.ts:178-200 | The handler fails iff `createSession` does. Otherwise one new attempt is armed, even on a reused session, and the session it awaits is registered. |
| ShellConnect.OnTimeout | electron/main.ts:192-200 | A cleared timer does nothing. Otherwise it sets the flag, marks the session `error` with the 45-second message, sends one error notice, ends the client and rejects. |
| ShellConnect.OnReady | electron/main.ts:203-210 | Every attempt still waiting on the session clears its flag and asks for a shell. The others are unchanged. The client is recorded as having emitted `ready`. |
| ShellConnect.OnError | electron/main.ts:246-255 | Every waiting attempt settles as rejected with `message` or 'Connection failed', and sends one error notice. No client is ended. |
| ShellConnect.OnShell | electron/main.ts:211-242 | A shell error records 'Failed to create shell: …', notifies, ends the client and rejects. A shell stream attaches, marks `connected`, notifies and resolves with the id. |
| ShellConnect.Attach | electron/main.ts:221-222 | The shell stream is attached: only that session changes, and it becomes `connected` with a stream. |
| ShellConnect.OnData | electron/main.ts:226-232 | A chunk from stdout or stderr is forwarded unchanged, tagged with its session. |
| ShellConnect.OnStreamClose | electron/main.ts:234-238 | A stream close always sends `closed`, then removes the session and ends its client if it is still registered. |
| ShellConnect.OnClose | electron/utils/sshSessionManager.ts:113-117 | The manager's `close` listener, as run by the event loop: the session is gone and nothing but the table changes. |
| ShellConnect.HandleWrite | electron/main.ts:267-274 | The write handler passes the manager's result and error on to the caller. |
| ShellConnect.HandleResize | electron/main.ts:276-283 | The resize handler never fails, and resizes exactly when a write would be accepted. |
| ShellConnect.HandleClose | electron/main.ts:285-291 | The close handler never fails: it removes the session and ends a registered client. |
| ShellConnect.StepKeepsValid | electron/main.ts:178-265 | Every event keeps the session ids distinct, and every settled attempt has its flag set and points at its own session. |
| ShellConnect.OutcomeIsFinal | electron/main.ts:190-206 | Once an attempt is settled, no event changes its outcome or its session. |
| ShellConnect.LateEventsIgnored | electron/main.ts:190-255 | With the flag set, the timer, `ready` and `error` leave the attempt untouched. |
| ShellConnect.TimeoutThenLateReadyOrError | electron/main.ts:190-206 | After the timer fired, a late `ready` asks for no shell and a late `error` sends no notice. |
| ShellConnect.ConnectThenShell | electron/main.ts:203-241 | Open, `ready`, then a shell: the call resolves to the new session, one `connected` notice is sent, writes reach the stream, and a later timer changes nothing. |
| ShellConnect.ReadyFiresOnce | electron/main.ts:258 | Once a client has emitted `ready`, no later event lets it emit `ready` again. |
| ShellConnect.ReopenTimesOutWorkingSession | electron/main.ts:180-258 | Reopening a working session arms a new attempt that no `ready` can clear: its client already emitted `ready`, and every `ready` still possible leaves the attempt waiting. The timer later marks the session `error`, ends its client and refuses writes. |
| ShellConnect.StreamCloseAfterRemovalStillNotifies | electron/main.ts:234-238 | The stream of a session already removed still sends `closed`; nothing else changes. |
| Broadcast.Send | electron/main.ts:294-299 | One delivery per window, in window order, each carrying the message. |
| Broadcast.EveryWindowGetsEveryMessage | electron/main.ts:294-306 | Every open window receives every message exactly once and in order. A window that is not open receives nothing. |
| SftpSessions.InitialPath | electron/utils/sftpManager.ts:128-143 | The initial path is the home path if non-empty, else the working directory if non-empty, else `/`. It is never empty. |
| SftpSessions.ReusedPath | electron/utils/sftpManager.ts:24-40 | A reused ready session answers `realpath('~')`, or `/` when that fails. A reused connecting session answers `~`. |
| SftpSessions.CreateSftpSession | electron/utils/sftpManager.ts:22-167 | Outcomes of `createSftpSession`:<br>- a live session of the server is reused with nothing changed;<br>- otherwise a fresh `sftp-` id is registered before the check;<br>- a waiting call has passed the check and armed the timer;<br>- a synchronous rejection leaves the new entry in `error`. |
| SftpSessions.Dial | electron/utils/sftpManager.ts:47-166 | The call waits iff the credentials pass and connect does not throw. If connect throws, no timer stays armed, `message` or 'Failed to connect' is recorded, and the call rejects. |
| SftpSessions.OnTimer | electron/utils/sftpManager.ts:107-111 | A cleared timer does nothing. Otherwise 'Connection timeout' is recorded and a pending call rejects. |
| SftpSessions.OnChannel | electron/utils/sftpManager.ts:113-127 | The channel callback clears the timer. An error marks `error` and rejects; a channel marks `ready` and starts the path lookup. |
| SftpSessions.OnInitialPath | electron/utils/sftpManager.ts:128-143 | The call resolves with the new session and its initial path, unless it has already settled. |
| SftpSessions.OnReady | electron/utils/sftpManager.ts:113-114 | The `ready` listener only requests the channel: the table, the timer and the outcome are untouched, even after the timer fired. |
| SftpSessions.OnClientError | electron/utils/sftpManager.ts:147-152 | The error clears the timer, records the raw message and rejects a pending call. |
| SftpSessions.CloseSftpSession | electron/utils/sftpManager.ts:321-332 | An unknown id is a no-op. Otherwise the client is ended and exactly that entry is removed. |
| SftpSessions.OnClientClose | electron/utils/sftpManager.ts:154-157 | A client close removes exactly that session. |
| SftpSessions.StepKeepsValid | electron/utils/sftpManager.ts:22-167 | Every event keeps ids distinct, and every resolved call names its own session. |
| SftpSessions.OutcomeIsFinal | electron/utils/sftpManager.ts:105-166 | Once a call has settled, no event changes its outcome. |
| SftpSessions.ErrorThenReady | electron/utils/sftpManager.ts:107-127 | Timer first, then `ready` and a channel: the session goes from `error` to `ready`, while the caller's answer stays 'Connection timeout'. |
| SftpSessions.ReuseWhileConnecting | electron/utils/sftpManager.ts:24-39 | A second call for a server whose session is still connecting returns that id with the path `~`. |
| SftpOps.ToEntry | electron/utils/sftpManager.ts:197-206 | The entry's fields:<br>- the path is the child of the listed directory;<br>- it is a directory iff the long name starts with `d`;<br>- the size is 0 when absent or zero;<br>- `modified` is `mtime * 1000` exactly when `mtime` is truthy. |
| SftpOps.ListRemote | electron/utils/sftpManager.ts:178-211 | An unknown id is "not found". A session without a ready channel is "not ready (status: …)", and a read error is "Failed to list directory: …". Otherwise there is one entry per item, in order. |
| SftpOps.DownloadFile | electron/utils/sftpManager.ts:213-228 | A session that is not ready gets no request. Otherwise exactly one `fastGet` is sent, and it succeeds iff the server reports no error. |
| SftpOps.UploadFile | electron/utils/sftpManager.ts:230-250 | The ready check comes first, then the local-file check. Only then is one `fastPut` sent, with the server's error prefixed 'Upload failed: '. |
| SftpOps.MkdirRemote | electron/utils/sftpManager.ts:252-267 | A ready session gets exactly one `mkdir`. Failures carry 'Failed to create directory: '. |
| SftpOps.RenameRemote | electron/utils/sftpManager.ts:269-284 | A ready session gets exactly one `rename`. Failures carry 'Failed to rename: '. |
| SftpOps.DeleteRemote | electron/utils/sftpManager.ts:286-319 | The request sequence:<br>- `stat` is sent first, and a stat error stops there;<br>- a directory then gets only `rmdir`, anything else only `unlink`;<br>- success iff both replies succeed. |
| SftpOps.NotReadySendsNothing | electron/utils/sftpManager.ts:178-319 | No operation sends any request to a session that is not ready. |
| SftpOps.ListedPathsAreChildren | electron/utils/sftpManager.ts:198 | The ".." target of every listed path is the listed directory. |
| SftpOps.ModifiedKeepsSeconds | electron/utils/sftpManager.ts:204 | `modified` is a whole number of seconds in milliseconds, and dividing by 1000 gives back the server's `mtime`. |
| SftpOps.TimedOutSessionServes | electron/utils/sftpManager.ts:107-127 | A session whose caller got 'Connection timeout' is listed successfully once its channel arrives. |
| SftpOps.ConnectingSessionCannotList | electron/utils/sftpManager.ts:183-185 | Listing a connecting session fails with "is not ready (status: connecting)". |
| RemotePaths.RemoteParent | src/pages/SftpPage.tsx:544-546 | The ".." target starts with `/`, and a path with at most one segment maps to `/`. |
| RemotePaths.ParentRowGoesUp | src/pages/SftpPage.tsx:541-546 | On a canonical path the ".." row is shown exactly when its target differs from the path. Its target then has one segment fewer. |
| RemotePaths.RemoteParentDropsLast | src/pages/SftpPage.tsx:544-546 | The ".." target has exactly the segments of the path minus the last, and is in canonical form. |
| RemotePaths.ChildPath | src/pages/SftpPage.tsx:234-236 | The child path is `/name` under the root and `dir/name` elsewhere: it ends with `/` and the name. |
| RemotePaths.ParentOfChild | src/pages/SftpPage.tsx:234-236 | For a canonical directory and a name without `/`, the child has one more segment, and its ".." target is the directory again. |
| RemotePaths.NewFolderPath | src/pages/SftpPage.tsx:269-275 | No folder is created for a cancelled or blank prompt. Otherwise the child path of the trimmed name. |
| RemotePaths.RenamePath | src/pages/SftpPage.tsx:289-295 | No rename for a cancelled or blank prompt or the unchanged (untrimmed) name. Otherwise the child path of the trimmed name. |
| RemotePaths.RenameOntoItself | src/pages/SftpPage.tsx:290-295 | An answer that differs from the old name only by a leading blank passes the unchanged-name test, yet targets the same path. |
| RemotePaths.LocalSegments | src/pages/SftpPage.tsx:14-15 | Both `\` and `/` separate segments, and no segment is empty or contains either separator. |
| RemotePaths.ParentPath | src/pages/SftpPage.tsx:12-45 | The cases of `getParentPath`:<br>- no segments gives the home directory;<br>- one segment gives `<drive>\` on a drive path, or `/` on a rooted path;<br>- on a drive path with more segments, the drive, `\`, then all but the last segment joined with `\`. |
| RemotePaths.ParentPathDropsLast | src/pages/SftpPage.tsx:42-44 | A non-drive path with two or more segments yields `/` plus all but the last segment joined with `/`. |
| RemotePaths.DriveSegmentRepeated | src/pages/SftpPage.tsx:39-41 | On a drive path the drive segment is kept among the segments, so `X:\a\b` has parent `X:\X:\a`. |
| RemotePaths.HomeParent | src/pages/SftpPage.tsx:34 | The fallback for a one-segment relative path is never empty. |
| ServerForm.SecretField | src/components/ServerForm.tsx:74-87 | A secret is sent iff it is not blank, and then exactly as typed. |
| ServerForm.SubmitForm | src/components/ServerForm.tsx:45-95 | Validation, then what is sent:<br>- rejected iff name, host or username is blank;<br>- password mode with an empty password is rejected only on create, and key mode with an empty key path always;<br>- otherwise name, host, username and notes are sent trimmed;<br>- only the chosen mode's credentials are sent, and only secrets actually typed. |
| ServerForm.FormFor | src/components/ServerForm.tsx:29-43 | Editing shows the server's identity fields and mode, its key path or "" when it has none, and its notes or "" when it has none; password and passphrase start empty. |
| ServerForm.EditUnchangedRoundTrip | src/components/ServerForm.tsx:29-89 | Opening a server for editing and saving it untouched submits its own fields back, without secrets. |
| ServerForm.EditUnchangedKeepsStoredPassword | src/components/ServerForm.tsx:74-79 | An untouched edit of a password server leaves its stored envelope unchanged. |
| ServerForm.BlankPasswordPassesButIsDropped | src/components/ServerForm.tsx:56-79 | A whitespace-only password passes validation on create but is not sent, so connecting to the saved server is refused with "Password is required". |
| ServerList.FilterServers | src/pages/ServerList.tsx:25-39 | A blank query returns the whole list. Otherwise a server is kept iff the lower-cased query occurs in its lower-cased name, host or username. The result is an order-preserving subsequence. |
| ServerList.QueryCaseIgnored | src/pages/ServerList.tsx:29 | A query and its lower-cased form select the same servers. |
| ServerList.SpacedQueryMissesUnspacedServer | src/pages/ServerList.tsx:29-36 | The query is not trimmed: one containing a space never matches a server whose fields contain none. |

## Left out

- The ssh2 library: `connect`, `shell`, `sftp`, `realpath`, `readdir`, `fastGet`, `fastPut`, `mkdir`, `rename`, `stat`, `rmdir` and `unlink`. These are foreign calls; their outcomes are parameters or events.
- AES-256-CBC and the key file (`getEncryptionKey`). This is cryptography and disk I/O; the cipher is an abstract pair of functions, with `InversePair` as a requirement where needed.
- Reading and writing `servers.json`, and `ensureDataDir`. This is disk I/O; the file is the `stored` sequence. A file that cannot be parsed (read as an empty list) is not modelled.
- `path.resolve` of the key path. Its result depends on the process's working directory, so the path is taken as given.
- `setTimeout` delays, `Date.now()`/`Math.random()` ids and ISO timestamps. Ids are built from a fresh `suffix`, and times are opaque strings.
- Interleaving inside `createSession`/`createSftpSession`. None can occur: `getServer` reads the file synchronously, so the reuse scan, the lookup and the registration run before any other IPC message is handled. The model runs each call up to its first event as one step.
- Exceptions thrown by a shell or SFTP channel after settlement, and keepalives. These are ssh2 internals.
- The SSH client library itself. The model assumes one of its guarantees: a client emits `ready` at most once. `ShellConnect.Enabled` encodes this through the `readied` set.
- `toLowerCase` beyond ASCII. `Text.ToLower` lower-cases `A`-`Z` only.
- Window and app lifecycle, IPC registration, the preload bridge, and the React rendering of the pages and form. The page, form and list logic is extracted as functions.
- The SFTP IPC handlers in `electron/main.ts`. They only forward to the SFTP manager.
- `localFsManager` and the local-file listing, `formatSize` and `formatDate`. These are file-system I/O, floating point and locale formatting.
- The `servers:*` IPC handlers and `onSubmit` error wrapping (`err.message` or 'Failed to save server'). They only forward or relabel.
- `Encryption.Decrypt` models the IV and ciphertext checks of Node's `createDecipheriv`/`Buffer.from` only as far as the envelope shape goes. Padding and key-length errors are folded into `BadDecrypt`.
- The download target `${localPath}/${name}` (`SftpPage.tsx:255`). It is plain concatenation with nothing to prove beyond itself, and `SftpOps.DownloadFile` takes the local path as a parameter.
- The `!session` check after `createSession` (`main.ts:183-185`). It can never fire, because a resolved `createSession` has registered its session; `ShellConnect.OnOpen` states this.
- `RemotePaths.HomeParent` does not model the drive-letter alternative inside the one-segment fallback. A drive path never reaches that branch, because it is handled just before.

Three behaviours of the code that are easy to miss, modelled as written:
- Status notices for a session already removed are still sent (`main.ts:234-238`).
- Switching from password to key mode keeps the old password (`serverStore.ts:118`).
- `updateServer` treats any secret containing `:` as encrypted (`serverStore.ts:160`), while `writeServers` requires exactly one `:` (`serverStore.ts:52`).

## Findings

| source | as written | input that shows it | evidently intended | confidence | as-written member | corrected member |
|---|---|---|---|---|---|---|
| electron/utils/serverStore.ts:173-177 | The reply decrypts `updatedServerRaw.password`. When a new password is supplied, that value is still the plaintext, because only `serversToWrite` holds the encrypted copy. | An update of an existing password server with `password: "pw"`: the file is written, then `decrypt("pw")` finds no 16-byte IV and throws, so the caller sees an error for an update that took effect. | Reply with the record as written, decrypted: the new password in plaintext. | not executed | ServerStore.UpdateWithNewPasswordThrows | ServerStore.UpdateServerFixed, ServerStore.UpdateFixedReturnsNewPassword |

=== FILE: broadcast.dfy ===
/** `notifyData` and `notifyStatus`: every message is sent to every open
    window, in the order the windows are listed. Windows are told apart by an
    id; which windows are open is a parameter. */
module Broadcast {

  type WindowId = nat

  datatype Delivery<M> = Delivery(window: WindowId, message: M)

  predicate Distinct(windows: seq<WindowId>) {
    forall i, j :: 0 <= i < j < |windows| ==> windows[i] != windows[j]
  }

  /** One message to each window. */
  function Send<M>(windows: seq<WindowId>, m: M): (r: seq<Delivery<M>>)
    ensures |r| == |windows|
    ensures forall i :: 0 <= i < |r| ==> r[i].window == windows[i] && r[i].message == m
  {
    if windows == [] then [] else [Delivery(windows[0], m)] + Send(windows[1..], m)
  }

  /** A sequence of messages, each sent to the same set of windows. */
  function SendAll<M>(windows: seq<WindowId>, ms: seq<M>): (r: seq<Delivery<M>>)
    ensures |r| == |windows| * |ms|
  {
    if ms == [] then [] else Send(windows, ms[0]) + SendAll(windows, ms[1..])
  }

  /** What window `w` received, in order of arrival. */
  function ReceivedBy<M>(ds: seq<Delivery<M>>, w: WindowId): (r: seq<M>)
    ensures |r| <= |ds|
  {
    if ds == [] then []
    else
      var rest := ReceivedBy(ds[1..], w);
      if ds[0].window == w then [ds[0].message] + rest else rest
  }

  lemma {:induction false} ReceivedByConcat<M>(a: seq<Delivery<M>>, b: seq<Delivery<M>>, w: WindowId)
    ensures ReceivedBy(a + b, w) == ReceivedBy(a, w) + ReceivedBy(b, w)
  {
    if a == [] {
      assert a + b == b;
    } else {
      assert (a + b)[0] == a[0];
      assert (a + b)[1..] == a[1..] + b;
      ReceivedByConcat(a[1..], b, w);
    }
  }

  /** A listed window gets the message once; any other window gets nothing. */
  lemma {:induction false} ReceivedOne<M>(windows: seq<WindowId>, m: M, w: WindowId)
    requires Distinct(windows)
    ensures ReceivedBy(Send(windows, m), w) == if w in windows then [m] else []
  {
    if windows != [] {
      var r := Send(windows, m);
      assert r[1..] == Send(windows[1..], m);
      assert Distinct(windows[1..]);
      ReceivedOne(windows[1..], m, w);
      if windows[0] == w {
        assert forall j :: 0 <= j < |windows[1..]| ==> windows[1..][j] != w by {
          forall j | 0 <= j < |windows[1..]| ensures windows[1..][j] != w {
            assert windows[1..][j] == windows[j + 1];
          }
        }
      } else {
        assert (w in windows) == (w in windows[1..]);
      }
    }
  }

  /** Every open window receives every message, in the order it was sent, and
      exactly once; a window that is not open receives nothing. */
  lemma {:induction false} EveryWindowGetsEveryMessage<M>(windows: seq<WindowId>, ms: seq<M>, w: WindowId)
    requires Distinct(windows)
    ensures w in windows ==> ReceivedBy(SendAll(windows, ms), w) == ms
    ensures w !in windows ==> ReceivedBy(SendAll(windows, ms), w) == []
  {
    if ms != [] {
      ReceivedByConcat(Send(windows, ms[0]), SendAll(windows, ms[1..]), w);
      ReceivedOne(windows, ms[0], w);
      EveryWindowGetsEveryMessage(windows, ms[1..], w);
      if w in windows {
        assert ms == [ms[0]] + ms[1..];
      }
    }
  }
}

=== FILE: encryption.dfy ===
/** The credential envelope: `encrypt` writes `hex(iv) + ':' + hex(ciphertext)`
    with a fresh 16-byte IV, `decrypt` splits the envelope at its first `:`.
    AES-256-CBC and the machine-bound key are not modelled: the cipher is a
    pair of functions supplied by the caller, and `InversePair` is the one
    property of it the proofs use. */
module Encryption {
  import opened Wrappers
  import opened Text
  import opened Hex

  /** `IV_LENGTH` of the source: every IV is 16 random bytes. */
  const IV_LENGTH: nat := 16

  type Iv = s: seq<byte> | |s| == IV_LENGTH witness seq(16, _ => 0 as byte)

  /** The 32-byte key read from (or first written to) the key file. */
  type Key = seq<byte>

  /** A symmetric cipher: `seal` turns a plaintext into ciphertext bytes,
      `open` turns ciphertext bytes back into a plaintext or fails (wrong key,
      bad padding). */
  datatype Cipher = Cipher(
    seal: (Key, Iv, string) -> seq<byte>,
    open: (Key, Iv, seq<byte>) -> Option<string>)

  /** Opening what was sealed with the same key and IV gives the plaintext back. */
  ghost predicate InversePair(c: Cipher) {
    forall key: Key, iv: Iv, text: string :: c.open(key, iv, c.seal(key, iv, text)) == Some(text)
  }

  datatype DecryptError =
    | InvalidIv          // the text before the first ':' does not decode to 16 bytes
    | OddHexLength       // the ciphertext text has an odd number of characters
    | BadDecrypt         // the cipher rejected the ciphertext

  /** `encrypt(text)` for the IV `randomBytes` drew. */
  function Encrypt(c: Cipher, key: Key, iv: Iv, text: string): (env: string)
    ensures Count(env, ':') == 1
    ensures |env| > 2 * IV_LENGTH && env[2 * IV_LENGTH] == ':'
    ensures AllHex(env[..2 * IV_LENGTH])
    ensures EnvelopeIv(env) == ToHex(iv)
    ensures EnvelopeCiphertext(env) == ToHex(c.seal(key, iv, text))
  {
    var ivHex := ToHex(iv);
    var ctHex := ToHex(c.seal(key, iv, text));
    var env := ivHex + [':'] + ctHex;
    CountConcat(ivHex + [':'], ctHex, ':');
    CountConcat(ivHex, [':'], ':');
    CountAbsent(ivHex, ':');
    CountAbsent(ctHex, ':');
    assert env[..2 * IV_LENGTH] == ivHex;
    SplitJoin([ivHex, ctHex], ':');
    env
  }

  /** `parts.shift()` after `split(':')`: the text before the first `:`. */
  function EnvelopeIv(env: string): (ivText: string)
    ensures ':' in env ==> ivText == env[..IndexOf(env, ':')]
    ensures ':' !in env ==> ivText == env
  {
    SplitAtFirst(env, ':');
    Split(env, ':')[0]
  }

  /** `parts.join(':')` after the shift: everything after the first `:`. */
  function EnvelopeCiphertext(env: string): (ctText: string)
    ensures ctText == AfterFirst(env, ':')
    ensures ':' in env ==> env == EnvelopeIv(env) + [':'] + ctText
  {
    SplitAtFirst(env, ':');
    Join(Split(env, ':')[1..], ':')
  }

  /** `decrypt(env)` */
  function Decrypt(c: Cipher, key: Key, env: string): (r: Result<string, DecryptError>)
    ensures r.Success? ==> |env| >= 2 * IV_LENGTH && AllHex(env[..2 * IV_LENGTH])
  {
    var ivText := EnvelopeIv(env);
    var ctText := EnvelopeCiphertext(env);
    var iv := FromHex(ivText);
    if |iv| != IV_LENGTH then Failure(InvalidIv)
    else if |ctText| % 2 != 0 then Failure(OddHexLength)
    else
      assert ivText[..2 * IV_LENGTH] == env[..2 * IV_LENGTH];
      match c.open(key, iv, FromHex(ctText))
      case Some(text) => Success(text)
      case None => Failure(BadDecrypt)
  }

  /** With the cipher an inverse pair, every plaintext survives the envelope,
      including the empty one and ones that contain `:`. */
  lemma DecryptEncrypt(c: Cipher, key: Key, iv: Iv, text: string)
    requires InversePair(c)
    ensures Decrypt(c, key, Encrypt(c, key, iv, text)) == Success(text)
  {
    var ct := c.seal(key, iv, text);
    FromHexToHex(iv);
    FromHexToHex(ct);
  }
}

=== FILE: hex.dfy ===
/** Bytes and their hexadecimal text form, as Node's `Buffer` produces and
    parses it: `buf.toString('hex')` writes two lower-case digits per byte;
    `Buffer.from(s, 'hex')` reads digit pairs from the front and silently stops
    at the first pair that is not two hex digits (an odd trailing digit is
    dropped too). */
module Hex {

  newtype byte = x: int | 0 <= x < 256

  predicate IsHexDigit(c: char) {
    ('0' <= c <= '9') || ('a' <= c <= 'f') || ('A' <= c <= 'F')
  }

  predicate AllHex(s: string) {
    forall i :: 0 <= i < |s| ==> IsHexDigit(s[i])
  }

  /** The value of one hex digit, either case. */
  function DigitValue(c: char): (v: int)
    requires IsHexDigit(c)
    ensures 0 <= v < 16
  {
    if '0' <= c <= '9' then c as int - '0' as int
    else if 'a' <= c <= 'f' then c as int - 'a' as int + 10
    else c as int - 'A' as int + 10
  }

  /** The lower-case digit for a value below 16. */
  function DigitChar(v: int): (c: char)
    requires 0 <= v < 16
    ensures IsHexDigit(c) && DigitValue(c) == v
    ensures c != ':'
  {
    if v < 10 then ('0' as int + v) as char else ('a' as int + v - 10) as char
  }

  /** `buf.toString('hex')` */
  function ToHex(bs: seq<byte>): (s: string)
    ensures |s| == 2 * |bs|
    ensures AllHex(s)
    ensures ':' !in s
  {
    if bs == [] then ""
    else
      var b := bs[0] as int;
      [DigitChar(b / 16), DigitChar(b % 16)] + ToHex(bs[1..])
  }

  /** `Buffer.from(s, 'hex')`: decodes digit pairs up to the first bad pair. */
  function FromHex(s: string): (bs: seq<byte>)
    ensures |bs| <= |s| / 2
    ensures AllHex(s) ==> |bs| == |s| / 2
    ensures AllHex(s[..2 * |bs|])
  {
    if |s| < 2 || !IsHexDigit(s[0]) || !IsHexDigit(s[1]) then []
    else
      var rest := FromHex(s[2..]);
      assert s[..2 * (|rest| + 1)] == s[..2] + s[2..][..2 * |rest|];
      [(DigitValue(s[0]) * 16 + DigitValue(s[1])) as byte] + rest
  }

  /** Hex encoding followed by decoding is the identity on bytes. */
  lemma {:induction false} FromHexToHex(bs: seq<byte>)
    ensures FromHex(ToHex(bs)) == bs
  {
    if bs != [] {
      var s := ToHex(bs);
      assert s[2..] == ToHex(bs[1..]);
      FromHexToHex(bs[1..]);
    }
  }
}

=== FILE: registry.dfy ===
/** The in-memory session table both managers keep (`new Map<string, Session>()`).
    A JavaScript `Map` iterates in insertion order, so the table is a sequence of
    entries: `set` of a new id appends, mutating a session keeps its place,
    `delete` removes it. The connection handle itself is not modelled; a session
    records whether its stream (shell) or channel (SFTP) is attached. */
module Registry {
  import opened Wrappers

  datatype Session<S> = Session(
    serverId: string,
    status: S,
    hasChannel: bool,
    errorMessage: Option<string>)

  datatype Entry<S> = Entry(id: string, session: Session<S>)

  type Table<S> = seq<Entry<S>>

  /** No id is registered twice. */
  predicate DistinctIds<S>(t: Table<S>) {
    forall i, j :: 0 <= i < j < |t| ==> t[i].id != t[j].id
  }

  predicate Has<S>(t: Table<S>, id: string) {
    exists i :: 0 <= i < |t| && t[i].id == id
  }

  /** `sessions.get(id)` */
  function Get<S>(t: Table<S>, id: string): (r: Option<Session<S>>)
    ensures r.Some? <==> Has(t, id)
    ensures r.Some? ==> exists i :: 0 <= i < |t| && t[i] == Entry(id, r.value)
    ensures DistinctIds(t) ==> forall i :: 0 <= i < |t| && t[i].id == id ==> r == Some(t[i].session)
  {
    if t == [] then None
    else if t[0].id == id then Some(t[0].session)
    else
      var r := Get(t[1..], id);
      assert r.Some? ==> Has(t, id) by {
        if r.Some? {
          var i :| 0 <= i < |t[1..]| && t[1..][i].id == id;
          assert t[i + 1].id == id;
        }
      }
      assert Has(t, id) ==> r.Some? by {
        if Has(t, id) {
          var i :| 0 <= i < |t| && t[i].id == id;
          assert t[1..][i - 1].id == id;
        }
      }
      r
  }

  /** `sessions.set(id, s)` for an id that is not registered yet: appended at the end. */
  function Add<S>(t: Table<S>, id: string, s: Session<S>): (r: Table<S>)
    requires !Has(t, id)
    ensures Get(r, id) == Some(s)
    ensures forall x :: x != id ==> Get(r, x) == Get(t, x)
    ensures DistinctIds(t) ==> DistinctIds(r)
    ensures |r| == |t| + 1 && r[..|t|] == t
  {
    var r := t + [Entry(id, s)];
    assert forall x :: x != id ==> Get(r, x) == Get(t, x) by {
      forall x | x != id ensures Get(r, x) == Get(t, x) {
        GetAppend(t, Entry(id, s), x);
      }
    }
    GetAppend(t, Entry(id, s), id);
    r
  }

  lemma {:induction false} GetAppend<S>(t: Table<S>, e: Entry<S>, x: string)
    ensures Get(t + [e], x) == if Has(t, x) then Get(t, x) else if e.id == x then Some(e.session) else None
  {
    if t != [] {
      assert (t + [e])[1..] == t[1..] + [e];
      GetAppend(t[1..], e, x);
    }
  }

  /** Mutating the session object registered under `id`; a session already
      removed from the table is a detached object, so nothing changes. */
  function Modify<S>(t: Table<S>, id: string, f: Session<S> -> Session<S>): (r: Table<S>)
    ensures |r| == |t|
    ensures forall i :: 0 <= i < |t| ==> r[i].id == t[i].id
    ensures forall i :: 0 <= i < |t| ==> r[i].session == (if t[i].id == id then f(t[i].session) else t[i].session)
    ensures forall x :: Has(r, x) <==> Has(t, x)
    ensures DistinctIds(t) ==> DistinctIds(r)
  {
    var r := seq(|t|, i requires 0 <= i < |t| => if t[i].id == id then Entry(id, f(t[i].session)) else t[i]);
    assert forall x :: Has(r, x) ==> Has(t, x) by {
      forall x | Has(r, x) ensures Has(t, x) {
        var i :| 0 <= i < |r| && r[i].id == x;
        assert t[i].id == x;
      }
    }
    assert forall x :: Has(t, x) ==> Has(r, x) by {
      forall x | Has(t, x) ensures Has(r, x) {
        var i :| 0 <= i < |t| && t[i].id == x;
        assert r[i].id == x;
      }
    }
    r
  }

  /** `sessions.delete(id)` */
  function Remove<S>(t: Table<S>, id: string): (r: Table<S>)
    ensures !Has(r, id)
    ensures forall x :: x != id ==> (Has(r, x) <==> Has(t, x))
    ensures DistinctIds(t) ==> DistinctIds(r) && forall x :: x != id ==> Get(r, x) == Get(t, x)
    ensures !Has(t, id) ==> r == t
    ensures |r| <= |t|
  {
    if t == [] then []
    else
      var rest := Remove(t[1..], id);
      if t[0].id == id then
        assert forall x :: x != id ==> (Has(rest, x) <==> Has(t, x)) by {
          forall x | x != id ensures Has(rest, x) <==> Has(t, x) {
            HasTail(t, x);
          }
        }
        assert !Has(t, id) ==> rest == t by {
          assert Has(t, id) by { assert t[0].id == id; }
        }
        rest
      else
        var r := [t[0]] + rest;
        assert !Has(r, id) by {
          assert r[1..] == rest;
          HasTail(r, id);
        }
        assert forall x :: x != id ==> (Has(r, x) <==> Has(t, x)) by {
          forall x | x != id ensures Has(r, x) <==> Has(t, x) {
            HasTail(t, x);
            HasTail(r, x);
          }
        }
        assert DistinctIds(t) ==> DistinctIds(r) by {
          if DistinctIds(t) {
            assert DistinctIds(t[1..]);
            forall j | 0 < j < |r| ensures r[0].id != r[j].id {
              assert Has(rest, r[j].id) by { assert rest[j - 1] == r[j]; }
              assert Has(t[1..], r[j].id);
              var k :| 0 <= k < |t[1..]| && t[1..][k].id == r[j].id;
              assert t[k + 1].id == r[j].id;
            }
          }
        }
        assert DistinctIds(t) ==> forall x :: x != id ==> Get(r, x) == Get(t, x) by {
          if DistinctIds(t) {
            assert DistinctIds(t[1..]);
          }
        }
        assert !Has(t, id) ==> r == t by {
          HasTail(t, id);
        }
        r
  }

  lemma HasTail<S>(t: Table<S>, x: string)
    requires t != []
    ensures Has(t, x) <==> t[0].id == x || Has(t[1..], x)
  {
    if Has(t, x) && t[0].id != x {
      var i :| 0 <= i < |t| && t[i].id == x;
      assert t[1..][i - 1].id == x;
    }
    if Has(t[1..], x) {
      var i :| 0 <= i < |t[1..]| && t[1..][i].id == x;
      assert t[i + 1].id == x;
    }
  }

  /** The dedup scan: the first entry, in insertion order, that belongs to
      `serverId` and whose status `live` accepts. */
  function FirstLive<S>(t: Table<S>, serverId: string, live: S -> bool): (r: Option<string>)
    ensures r.Some? ==> exists i :: 0 <= i < |t| && t[i].id == r.value
                                    && t[i].session.serverId == serverId && live(t[i].session.status)
                                    && forall j :: 0 <= j < i ==> !(t[j].session.serverId == serverId && live(t[j].session.status))
    ensures r.None? <==> forall i :: 0 <= i < |t| ==> !(t[i].session.serverId == serverId && live(t[i].session.status))
  {
    if t == [] then None
    else if t[0].session.serverId == serverId && live(t[0].session.status) then Some(t[0].id)
    else
      var r := FirstLive(t[1..], serverId, live);
      assert r.Some? ==> exists i :: 0 <= i < |t| && t[i].id == r.value
                                    && t[i].session.serverId == serverId && live(t[i].session.status)
                                    && forall j :: 0 <= j < i ==> !(t[j].session.serverId == serverId && live(t[j].session.status)) by {
        if r.Some? {
          var i :| 0 <= i < |t[1..]| && t[1..][i].id == r.value
                   && t[1..][i].session.serverId == serverId && live(t[1..][i].session.status)
                   && forall j :: 0 <= j < i ==> !(t[1..][j].session.serverId == serverId && live(t[1..][j].session.status));
          assert t[i + 1] == t[1..][i];
          forall j | 0 <= j < i + 1 ensures !(t[j].session.serverId == serverId && live(t[j].session.status)) {
            if j > 0 { assert t[j] == t[1..][j - 1]; }
          }
        }
      }
      assert r.None? ==> forall i :: 0 <= i < |t| ==> !(t[i].session.serverId == serverId && live(t[i].session.status)) by {
        if r.None? {
          forall i | 0 <= i < |t| ensures !(t[i].session.serverId == serverId && live(t[i].session.status)) {
            if i > 0 { assert t[i] == t[1..][i - 1]; }
          }
        }
      }
      r
  }

  /** `Modify` seen through `Get`: only the session under `id` changes. */
  lemma {:induction false} ModifyGet<S>(t: Table<S>, id: string, f: Session<S> -> Session<S>, x: string)
    ensures Get(Modify(t, id, f), x) == if x == id && Get(t, id).Some? then Some(f(Get(t, id).value)) else Get(t, x)
  {
    if t != [] {
      assert Modify(t, id, f)[1..] == Modify(t[1..], id, f);
      ModifyGet(t[1..], id, f, x);
    }
  }
}

=== FILE: seqs.dfy ===
/** Order-preserving selection from a sequence. */
module Seqs {

  /** `a` can be obtained from `b` by deleting elements, without reordering. */
  predicate IsSubsequence<T(==)>(a: seq<T>, b: seq<T>)
    decreases |b|
  {
    if a == [] then true
    else if b == [] then false
    else (a[0] == b[0] && IsSubsequence(a[1..], b[1..])) || IsSubsequence(a, b[1..])
  }

  /** `b.filter(keep)`: the elements `keep` accepts, in their original order. */
  function Filter<T(!new)>(b: seq<T>, keep: T -> bool): (r: seq<T>)
    ensures |r| <= |b|
    ensures |r| == |b| <==> forall k :: 0 <= k < |b| ==> keep(b[k])
    ensures forall k :: 0 <= k < |r| ==> keep(r[k]) && r[k] in b
    ensures forall k :: 0 <= k < |b| && keep(b[k]) ==> b[k] in r
  {
    if b == [] then []
    else if keep(b[0]) then [b[0]] + Filter(b[1..], keep)
    else Filter(b[1..], keep)
  }

  /** Filtering keeps every accepted value as often as `b` holds it, and no
      rejected value at all. */
  lemma {:induction false} FilterMultiset<T(!new)>(b: seq<T>, keep: T -> bool)
    ensures forall x :: multiset(Filter(b, keep))[x] == if keep(x) then multiset(b)[x] else 0
  {
    if b != [] {
      FilterMultiset(b[1..], keep);
      var rest := Filter(b[1..], keep);
      assert b == [b[0]] + b[1..];
      assert multiset(b) == multiset{b[0]} + multiset(b[1..]);
      if keep(b[0]) {
        assert multiset(Filter(b, keep)) == multiset{b[0]} + multiset(rest);
      } else {
        assert Filter(b, keep) == rest;
      }
    }
  }

  /** Filtering keeps the relative order of what it keeps. */
  lemma {:induction false} FilterIsSubsequence<T(!new)>(b: seq<T>, keep: T -> bool)
    ensures IsSubsequence(Filter(b, keep), b)
  {
    if b != [] {
      FilterIsSubsequence(b[1..], keep);
      var rest := Filter(b[1..], keep);
      if keep(b[0]) {
        assert ([b[0]] + rest)[1..] == rest;
      } else {
        SubsequenceDropFront(rest, b);
      }
    }
  }

  /** Every sequence is a subsequence of itself. */
  lemma {:induction false} IsSubsequenceRefl<T>(a: seq<T>)
    ensures IsSubsequence(a, a)
  {
    if a != [] {
      IsSubsequenceRefl(a[1..]);
    }
  }

  /** A subsequence of `b[1..]` is a subsequence of `b`. */
  lemma {:induction false} SubsequenceDropFront<T>(a: seq<T>, b: seq<T>)
    requires b != []
    requires IsSubsequence(a, b[1..])
    ensures IsSubsequence(a, b)
  {
  }

  /** Filtering drops exactly the rejected elements: nothing is lost when all are kept. */
  lemma {:induction false} FilterAll<T(!new)>(b: seq<T>, keep: T -> bool)
    requires forall k :: 0 <= k < |b| ==> keep(b[k])
    ensures Filter(b, keep) == b
  {
    if b != [] {
      FilterAll(b[1..], keep);
    }
  }

  /** Filtering with a predicate that rejects everything gives nothing. */
  lemma {:induction false} FilterNone<T(!new)>(b: seq<T>, keep: T -> bool)
    requires forall k :: 0 <= k < |b| ==> !keep(b[k])
    ensures Filter(b, keep) == []
  {
    if b != [] {
      FilterNone(b[1..], keep);
    }
  }
}

=== FILE: server_form.dfy ===
/** The server form: how its fields are validated and turned into the input
    sent to the main process, and how an existing server fills the form for
    editing. The stored secrets are never shown: editing starts with empty
    password and passphrase fields, and an empty (or blank) secret field is
    left out of what is submitted, so that the store keeps the secret it has. */
module ServerForm {
  import opened Wrappers
  import opened Text
  import opened Servers
  import opened SessionAuth
  import ServerStore
  import Encryption

  /** The form's fields; every text field is a (possibly empty) string. */
  datatype FormData = FormData(
    name: string,
    host: string,
    port: int,
    username: string,
    authType: AuthType,
    password: string,
    privateKeyPath: string,
    passphrase: string,
    notes: string)

  const REQUIRED_FIELDS := "Please fill in all required fields"
  const PASSWORD_REQUIRED_FOR_AUTH := "Password is required for password authentication"
  const KEY_PATH_REQUIRED_FOR_AUTH := "Private key path is required for key authentication"

  /** A secret field that is submitted: non-empty and not blank. It is then
      sent as typed, surrounding white space included. */
  function SecretField(v: string): (r: Option<string>)
    ensures r.Some? <==> !IsBlank(v)
    ensures r.Some? ==> r.value == v
  {
    if v != "" && Trim(v) != "" then Some(v) else None
  }

  /** `handleSubmit`: the validation, then the input passed to `onSubmit`;
      `editing` tells whether the form edits an existing server. */
  function SubmitForm(form: FormData, editing: bool): (r: Result<ServerInput, string>)
    ensures r == Failure(REQUIRED_FIELDS) <==> IsBlank(form.name) || IsBlank(form.host) || IsBlank(form.username)
    ensures r == Failure(PASSWORD_REQUIRED_FOR_AUTH) <==>
              !IsBlank(form.name) && !IsBlank(form.host) && !IsBlank(form.username)
              && form.authType == Password && !editing && form.password == ""
    ensures r == Failure(KEY_PATH_REQUIRED_FOR_AUTH) <==>
              !IsBlank(form.name) && !IsBlank(form.host) && !IsBlank(form.username)
              && form.authType == PrivateKey && form.privateKeyPath == ""
    ensures r.Failure? ==> r.error in {REQUIRED_FIELDS, PASSWORD_REQUIRED_FOR_AUTH, KEY_PATH_REQUIRED_FOR_AUTH}
    // what is sent: trimmed identity fields, the port and mode as entered
    ensures r.Success? ==>
              && r.value.name == Trim(form.name) && r.value.name != ""
              && r.value.host == Trim(form.host) && r.value.host != ""
              && r.value.username == Trim(form.username) && r.value.username != ""
              && r.value.port == form.port && r.value.authType == form.authType
              && r.value.notes == Some(Trim(form.notes))
    // only the credentials of the chosen mode, and only secrets actually typed
    ensures r.Success? && form.authType == Password ==>
              r.value.password == SecretField(form.password) && r.value.privateKeyPath.None? && r.value.passphrase.None?
    ensures r.Success? && form.authType == PrivateKey ==>
              && r.value.password.None?
              && r.value.privateKeyPath == Some(Trim(form.privateKeyPath))
              && r.value.passphrase == SecretField(form.passphrase)
  {
    if IsBlank(form.name) || IsBlank(form.host) || IsBlank(form.username) then Failure(REQUIRED_FIELDS)
    else if form.authType == Password && !editing && form.password == "" then Failure(PASSWORD_REQUIRED_FOR_AUTH)
    else if form.authType == PrivateKey && form.privateKeyPath == "" then Failure(KEY_PATH_REQUIRED_FOR_AUTH)
    else
      var base := ServerInput(Trim(form.name), Trim(form.host), form.port, Trim(form.username), form.authType,
                              None, None, None, Some(Trim(form.notes)));
      if form.authType == Password then Success(base.(password := SecretField(form.password)))
      else Success(base.(privateKeyPath := Some(Trim(form.privateKeyPath)), passphrase := SecretField(form.passphrase)))
  }

  /** The form filled from an existing server: secrets are not shown. */
  function FormFor(s: Server): (f: FormData)
    ensures f.password == "" && f.passphrase == ""
    ensures f.name == s.name && f.host == s.host && f.port == s.port && f.username == s.username
    ensures f.authType == s.authType
    ensures s.privateKeyPath.Some? ==> f.privateKeyPath == s.privateKeyPath.value
    ensures s.privateKeyPath.None? ==> f.privateKeyPath == ""
    ensures f.notes == s.notes.GetOr("")
  {
    FormData(s.name, s.host, s.port, s.username, s.authType, "", s.privateKeyPath.GetOr(""), "", s.notes.GetOr(""))
  }

  predicate Trimmed(s: string) {
    Trim(s) == s
  }

  /** A server whose fields the form would submit unchanged. */
  predicate FormShaped(s: Server) {
    && Trimmed(s.name) && s.name != ""
    && Trimmed(s.host) && s.host != ""
    && Trimmed(s.username) && s.username != ""
    && s.notes.Some? && Trimmed(s.notes.value)
    && (s.authType == Password ==> s.privateKeyPath.None?)
    && (s.authType == PrivateKey ==> s.privateKeyPath.Some? && Trimmed(s.privateKeyPath.value) && s.privateKeyPath.value != "")
  }

  /** Opening a server for editing and saving without touching anything
      submits the server's own fields back, without its secrets. */
  lemma EditUnchangedRoundTrip(s: Server)
    requires FormShaped(s)
    ensures SubmitForm(FormFor(s), true) == Success(AsInput(s).(password := None, passphrase := None))
  {
    var f := FormFor(s);
    assert f.privateKeyPath == s.privateKeyPath.GetOr("");
    assert f.notes == s.notes.value;
    assert !IsBlank(s.name) && !IsBlank(s.host) && !IsBlank(s.username);
    assert IsBlank("");
    if s.authType == PrivateKey {
      assert !IsBlank(s.privateKeyPath.value);
    }
  }

  /** Saving an unchanged edit of a password server keeps its stored password
      envelope: the form leaves the password out, and the store keeps what it
      has when the request carries none. */
  lemma EditUnchangedKeepsStoredPassword(c: Encryption.Cipher, key: Encryption.Key, ivs: ServerStore.IvSource,
                                         stored: seq<Server>, id: string, shown: Server, now: string)
    requires FormShaped(shown) && shown.authType == Password
    requires ServerStore.FindIndex(stored, id).Some?
    requires var existing := stored[ServerStore.FindIndex(stored, id).value];
             existing.password.Some? && existing.password.value != "" && Count(existing.password.value, ':') == 1
    ensures SubmitForm(FormFor(shown), true).Success?
    ensures var index := ServerStore.FindIndex(stored, id).value;
            var partial := AsPartial(SubmitForm(FormFor(shown), true).value);
            ServerStore.UpdateServer(c, key, ivs, stored, id, partial, now).stored[index].password == stored[index].password
  {
    EditUnchangedRoundTrip(shown);
    var index := ServerStore.FindIndex(stored, id).value;
    var partial := AsPartial(SubmitForm(FormFor(shown), true).value);
    assert partial.authType == Some(Password) && partial.password.None?;
    ServerStore.UpdateKeepsPasswordEnvelope(c, key, ivs, stored, id, partial, now);
  }

  /** A new password server whose password field holds only white space
      passes the form's check (which tests for the empty string), yet the
      blank password is not sent, so every connection to the saved server is
      refused for want of a password. */
  lemma BlankPasswordPassesButIsDropped(form: FormData, id: string, now: string, keyFile: KeyFile)
    requires !IsBlank(form.name) && !IsBlank(form.host) && !IsBlank(form.username)
    requires form.authType == Password && form.password != "" && IsBlank(form.password)
    ensures SubmitForm(form, false).Success?
    ensures SubmitForm(form, false).value.password.None?
    ensures CheckAuth(NewServer(id, SubmitForm(form, false).value, now), keyFile) == Some(AuthFailure(PASSWORD_REQUIRED, PASSWORD_REQUIRED))
  {
  }
}

=== FILE: server_list.dfy ===
/** The search box of the server list: a blank query shows every server;
    otherwise a server is shown when its name, host or username contains the
    query, both lower-cased. The query itself is not trimmed. */
module ServerList {
  import opened Text
  import opened Servers
  import opened Seqs

  /** The query matches one of the three searched fields (`query` is lower-cased). */
  predicate Matches(s: Server, query: string) {
    || Includes(ToLower(s.name), query)
    || Includes(ToLower(s.host), query)
    || Includes(ToLower(s.username), query)
  }

  function MatchesQuery(query: string): Server -> bool {
    (s: Server) => Matches(s, query)
  }

  /** The servers the list shows for `searchQuery`, in the list's order. */
  function FilterServers(servers: seq<Server>, searchQuery: string): (r: seq<Server>)
    ensures IsBlank(searchQuery) ==> r == servers
    ensures !IsBlank(searchQuery) ==>
              forall s :: s in r <==> s in servers && Matches(s, ToLower(searchQuery))
    ensures IsSubsequence(r, servers)
  {
    if Trim(searchQuery) == "" then
      IsSubsequenceRefl(servers);
      servers
    else
      FilterIsSubsequence(servers, MatchesQuery(ToLower(searchQuery)));
      Filter(servers, MatchesQuery(ToLower(searchQuery)))
  }

  /** Lower-casing is idempotent. */
  lemma ToLowerIdempotent(s: string)
    ensures ToLower(ToLower(s)) == ToLower(s)
  {
  }

  /** White space is not a letter, so lower-casing keeps a query blank or not. */
  lemma ToLowerKeepsBlank(s: string)
    ensures IsBlank(ToLower(s)) <==> IsBlank(s)
  {
    assert forall i :: 0 <= i < |s| ==> (IsWhiteSpace(ToLower(s)[i]) <==> IsWhiteSpace(s[i]));
  }

  /** The search ignores the case of the query: typing it in capitals shows
      the same servers. */
  lemma QueryCaseIgnored(servers: seq<Server>, q: string)
    ensures FilterServers(servers, ToLower(q)) == FilterServers(servers, q)
  {
    ToLowerKeepsBlank(q);
    ToLowerIdempotent(q);
  }

  /** A lower-cased character is white space only if the original was. */
  lemma LowerCharSpace(c: char)
    ensures LowerChar(c) == ' ' <==> c == ' '
  {
  }

  /** A field that contains a lower-cased query with a space has a space itself. */
  lemma SpaceCarriesOver(field: string, query: string, k: nat)
    requires k < |query| && query[k] == ' '
    ensures Includes(ToLower(field), ToLower(query)) ==> ' ' in field
  {
    var q := ToLower(query);
    if Includes(ToLower(field), q) {
      var i :| 0 <= i <= |ToLower(field)| - |q| && OccursAt(ToLower(field), q, i);
      assert ToLower(field)[i + k] == q[k];
      LowerCharSpace(field[i + k]);
    }
  }

  /** The query is not trimmed: a query with a space never matches a server
      none of whose searched fields contains a space. */
  lemma SpacedQueryMissesUnspacedServer(s: Server, query: string)
    requires ' ' in query
    requires ' ' !in s.name && ' ' !in s.host && ' ' !in s.username
    ensures !Matches(s, ToLower(query))
  {
    var k :| 0 <= k < |query| && query[k] == ' ';
    SpaceCarriesOver(s.name, query, k);
    SpaceCarriesOver(s.host, query, k);
    SpaceCarriesOver(s.username, query, k);
  }
}

=== FILE: server_store.dfy ===
/** The server registry persisted in `servers.json`. The file is the sequence
    of raw records (`stored`), secrets in envelope form; every mutation reads it,
    changes it and rewrites it whole. Reading decrypts the secrets; writing
    encrypts any secret that does not already look like an envelope. */
module ServerStore {
  import opened Wrappers
  import opened Text
  import opened Hex
  import opened Encryption
  import opened Servers
  import opened Seqs

  datatype SecretField = PasswordField | PassphraseField

  /** The IV `randomBytes` yields for the encryption of `field` of the record
      at `index` during one write: each encryption draws its own. */
  type IvSource = (nat, SecretField) -> Iv

  datatype StoreError =
    | NotFound(message: string)
    | Undecryptable(cause: DecryptError)

  /** What a mutation leaves in the file, and what it returns or throws. */
  datatype Outcome<T> = Outcome(stored: seq<Server>, result: Result<T, StoreError>)

  function NotFoundMessage(id: string): string {
    "Server with id " + id + " not found"
  }

  /** `writeServers`' test: contains ':' and splits into exactly two pieces. */
  predicate LooksEncrypted(v: string) {
    ':' in v && |Split(v, ':')| == 2
  }

  /** A stored secret in the shape `writeServers` leaves it: absent, or with exactly one ':'. */
  predicate SecretAtRest(v: Option<string>) {
    v.None? || Count(v.value, ':') == 1
  }

  predicate AtRest(s: Server) {
    SecretAtRest(s.password) && SecretAtRest(s.passphrase)
  }

  /** `writeServers` for one secret: falsy becomes undefined, an apparent
      envelope is kept, anything else is encrypted. */
  function SealOnWrite(c: Cipher, key: Key, iv: Iv, v: Option<string>): (r: Option<string>)
    ensures !Truthy(v) ==> r == None
    ensures Truthy(v) && Count(v.value, ':') == 1 ==> r == v
    ensures Truthy(v) && Count(v.value, ':') != 1 ==>
              r.Some? && (InversePair(c) ==> Decrypt(c, key, r.value) == Success(v.value))
    ensures SecretAtRest(r)
  {
    if Truthy(v) then
      CountAbsent(v.value, ':');
      if LooksEncrypted(v.value) then v
      else
        assert InversePair(c) ==> Decrypt(c, key, Encrypt(c, key, iv, v.value)) == Success(v.value) by {
          if InversePair(c) { DecryptEncrypt(c, key, iv, v.value); }
        }
        Some(Encrypt(c, key, iv, v.value))
    else None
  }

  function SealRecord(c: Cipher, key: Key, ivs: IvSource, index: nat, s: Server): (r: Server)
    ensures SameExceptSecrets(r, s) && AtRest(r)
    ensures AtRest(s) ==> r == s
  {
    s.(password := SealOnWrite(c, key, ivs(index, PasswordField), s.password),
       passphrase := SealOnWrite(c, key, ivs(index, PassphraseField), s.passphrase))
  }

  /** `writeServers(servers)`: the records as written to the file. */
  function WriteServers(c: Cipher, key: Key, ivs: IvSource, servers: seq<Server>): (written: seq<Server>)
    ensures |written| == |servers|
    ensures forall i :: 0 <= i < |servers| ==> SameExceptSecrets(written[i], servers[i])
    ensures forall i :: 0 <= i < |servers| ==> AtRest(written[i])
    ensures forall i :: 0 <= i < |servers| && AtRest(servers[i]) ==> written[i] == servers[i]
  {
    seq(|servers|, i requires 0 <= i < |servers| => SealRecord(c, key, ivs, i, servers[i]))
  }

  /** Re-saving a file `writeServers` produced changes nothing, whatever IVs are drawn. */
  lemma WriteServersIdempotent(c: Cipher, key: Key, ivs: IvSource, ivs': IvSource, servers: seq<Server>)
    ensures WriteServers(c, key, ivs', WriteServers(c, key, ivs, servers)) == WriteServers(c, key, ivs, servers)
  {
  }

  /** `readServers`' decryption of one secret: only truthy values are decrypted. */
  function OpenSecret(c: Cipher, key: Key, v: Option<string>): (r: Result<Option<string>, DecryptError>)
    ensures !Truthy(v) ==> r == Success(None)
    ensures Truthy(v) ==> (r.Success? <==> Decrypt(c, key, v.value).Success?)
    ensures Truthy(v) && r.Success? ==> r.value == Some(Decrypt(c, key, v.value).value)
  {
    if Truthy(v) then
      match Decrypt(c, key, v.value)
      case Success(t) => Success(Some(t))
      case Failure(e) => Failure(e)
    else Success(None)
  }

  /** One record as `readServers` returns it: password, then passphrase. */
  function OpenRecord(c: Cipher, key: Key, s: Server): (r: Result<Server, StoreError>)
    ensures r.Success? <==> OpenSecret(c, key, s.password).Success? && OpenSecret(c, key, s.passphrase).Success?
    ensures r.Success? ==> SameExceptSecrets(r.value, s)
    ensures r.Success? ==> r.value.password == OpenSecret(c, key, s.password).value
    ensures r.Success? ==> r.value.passphrase == OpenSecret(c, key, s.passphrase).value
  {
    match OpenSecret(c, key, s.password)
    case Failure(e) => Failure(Undecryptable(e))
    case Success(password) =>
      match OpenSecret(c, key, s.passphrase)
      case Failure(e) => Failure(Undecryptable(e))
      case Success(passphrase) => Success(s.(password := password, passphrase := passphrase))
  }

  /** `readServers()`: every record decrypted, or the first decryption error. */
  function ReadServers(c: Cipher, key: Key, stored: seq<Server>): (r: Result<seq<Server>, StoreError>)
    ensures r.Success? ==> |r.value| == |stored|
    ensures r.Success? ==> forall i :: 0 <= i < |stored| ==> OpenRecord(c, key, stored[i]) == Success(r.value[i])
    ensures r.Failure? ==> exists i :: 0 <= i < |stored| && OpenRecord(c, key, stored[i]).Failure?
  {
    if stored == [] then Success([])
    else
      match OpenRecord(c, key, stored[0])
      case Failure(e) => Failure(e)
      case Success(s) =>
        match ReadServers(c, key, stored[1..])
        case Failure(e) => Failure(e)
        case Success(rest) => Success([s] + rest)
  }

  /** Reading never changes anything but the truthy secrets, which it decrypts. */
  lemma ReadServersOnlyOpensSecrets(c: Cipher, key: Key, stored: seq<Server>, i: nat)
    requires ReadServers(c, key, stored).Success? && i < |stored|
    ensures var s := ReadServers(c, key, stored).value[i];
      && SameExceptSecrets(s, stored[i])
      && (!Truthy(stored[i].password) ==> s.password == None)
      && (Truthy(stored[i].password) ==> Decrypt(c, key, stored[i].password.value) == Success(s.password.value))
      && (!Truthy(stored[i].passphrase) ==> s.passphrase == None)
      && (Truthy(stored[i].passphrase) ==> Decrypt(c, key, stored[i].passphrase.value) == Success(s.passphrase.value))
  {
  }

  /** First position of a record with this id (`findIndex`). */
  function FindIndex(servers: seq<Server>, id: string): (r: Option<nat>)
    ensures r.Some? ==> r.value < |servers| && servers[r.value].id == id
    ensures r.Some? ==> forall j :: 0 <= j < r.value ==> servers[j].id != id
    ensures r.None? <==> forall j :: 0 <= j < |servers| ==> servers[j].id != id
  {
    if servers == [] then None
    else if servers[0].id == id then Some(0)
    else
      match FindIndex(servers[1..], id)
      case None => None
      case Some(k) => Some(k + 1)
  }

  /** Records with the same ids at the same positions have the same first match. */
  lemma FindIndexSameIds(a: seq<Server>, b: seq<Server>, id: string)
    requires |a| == |b| && forall j :: 0 <= j < |a| ==> a[j].id == b[j].id
    ensures FindIndex(a, id) == FindIndex(b, id)
  {
  }

  /** `getServer(id)`: reads (and decrypts) every record, then finds the first match. */
  function GetServer(c: Cipher, key: Key, stored: seq<Server>, id: string): (r: Result<Option<Server>, StoreError>)
    ensures r.Failure? <==> ReadServers(c, key, stored).Failure?
    ensures r.Success? && r.value.Some? ==>
              && r.value.value.id == id && FindIndex(stored, id).Some?
              && OpenRecord(c, key, stored[FindIndex(stored, id).value]) == Success(r.value.value)
    ensures r.Success? && r.value.None? ==> forall j :: 0 <= j < |stored| ==> stored[j].id != id
  {
    match ReadServers(c, key, stored)
    case Failure(e) => Failure(e)
    case Success(servers) =>
      FindIndexSameIds(servers, stored, id);
      match FindIndex(servers, id)
      case None => Success(None)
      case Some(k) => Success(Some(servers[k]))
  }

  /** Where a record's plaintext secrets land after a write: falsy ones become undefined. */
  function Normalize(s: Server): Server {
    s.(password := if Truthy(s.password) then s.password else None,
       passphrase := if Truthy(s.passphrase) then s.passphrase else None)
  }

  /** A plaintext secret that `writeServers` will encrypt (not mistaken for an envelope). */
  predicate Encryptable(v: Option<string>) {
    !Truthy(v) || Count(v.value, ':') != 1
  }

  /** `createServer(input)` with the generated `id` and timestamp `now`. */
  function CreateServer(c: Cipher, key: Key, ivs: IvSource, stored: seq<Server>,
                        input: ServerInput, id: string, now: string): (out: Outcome<Server>)
    ensures out.result.Failure? <==> ReadServers(c, key, stored).Failure?
    ensures out.result.Failure? ==> out.stored == stored
    ensures out.result.Success? ==>
              && out.result.value.id == id
              && out.result.value.createdAt == out.result.value.updatedAt == now
              && AsInput(out.result.value) == input
    ensures out.result.Success? ==>
              && |out.stored| == |stored| + 1
              && SameExceptSecrets(out.stored[|stored|], out.result.value)
              && (forall i :: 0 <= i < |stored| ==> SameExceptSecrets(out.stored[i], stored[i]))
  {
    match ReadServers(c, key, stored)
    case Failure(e) => Outcome(stored, Failure(e))
    case Success(servers) =>
      var s := NewServer(id, input, now);
      var written := WriteServers(c, key, ivs, servers + [s]);
      assert forall i :: 0 <= i < |stored| ==> SameExceptSecrets(written[i], stored[i]) by {
        forall i | 0 <= i < |stored| ensures SameExceptSecrets(written[i], stored[i]) {
          assert OpenRecord(c, key, stored[i]) == Success(servers[i]);
          assert SameExceptSecrets(written[i], (servers + [s])[i]);
        }
      }
      Outcome(written, Success(s))
  }

  /** `createServer` writes back the decrypted records, so every earlier
      secret is encrypted again under the IV drawn for this write (unless its
      plaintext has exactly one ':'): the earlier envelopes in the file change
      although the secrets they hold do not. */
  lemma CreateReencryptsEarlier(c: Cipher, key: Key, ivs: IvSource, stored: seq<Server>,
                                input: ServerInput, id: string, now: string, i: nat)
    requires ReadServers(c, key, stored).Success? && i < |stored|
    ensures var plain := ReadServers(c, key, stored).value[i];
            var out := CreateServer(c, key, ivs, stored, input, id, now);
            && (Truthy(plain.password) && Count(plain.password.value, ':') != 1 ==>
                  out.stored[i].password == Some(Encrypt(c, key, ivs(i, PasswordField), plain.password.value)))
            && (Truthy(plain.passphrase) && Count(plain.passphrase.value, ':') != 1 ==>
                  out.stored[i].passphrase == Some(Encrypt(c, key, ivs(i, PassphraseField), plain.passphrase.value)))
  {
    var servers := ReadServers(c, key, stored).value;
    var all := servers + [NewServer(id, input, now)];
    assert all[i] == servers[i];
    var plain := servers[i];
    if plain.password.Some? { CountAbsent(plain.password.value, ':'); }
    if plain.passphrase.Some? { CountAbsent(plain.passphrase.value, ':'); }
    assert WriteServers(c, key, ivs, all)[i] == SealRecord(c, key, ivs, i, plain);
  }

  /** Writing plaintext records that hold no one-colon secret and reading them
      back gives the records, with falsy secrets turned into undefined. */
  lemma ReadAfterWrite(c: Cipher, key: Key, ivs: IvSource, servers: seq<Server>)
    requires InversePair(c)
    requires forall i :: 0 <= i < |servers| ==> Encryptable(servers[i].password) && Encryptable(servers[i].passphrase)
    ensures ReadServers(c, key, WriteServers(c, key, ivs, servers))
            == Success(seq(|servers|, i requires 0 <= i < |servers| => Normalize(servers[i])))
  {
    var written := WriteServers(c, key, ivs, servers);
    var expected := seq(|servers|, i requires 0 <= i < |servers| => Normalize(servers[i]));
    forall i | 0 <= i < |servers|
      ensures OpenRecord(c, key, written[i]) == Success(expected[i])
    {
      var s := servers[i];
      var w := written[i];
      assert w == SealRecord(c, key, ivs, i, s);
      assert OpenSecret(c, key, w.password) == Success(Normalize(s).password);
      assert OpenSecret(c, key, w.passphrase) == Success(Normalize(s).passphrase);
    }
    match ReadServers(c, key, written)
    case Failure(_) =>
      assert false;
    case Success(got) =>
      assert got == expected;
  }

  /** `createServer` appends one record: reading the file afterwards gives the
      earlier records, unchanged and in order, followed by the new one. */
  lemma CreateThenRead(c: Cipher, key: Key, ivs: IvSource, stored: seq<Server>,
                       input: ServerInput, id: string, now: string)
    requires InversePair(c)
    requires ReadServers(c, key, stored).Success?
    requires var servers := ReadServers(c, key, stored).value;
             forall i :: 0 <= i < |servers| ==> Encryptable(servers[i].password) && Encryptable(servers[i].passphrase)
    requires Encryptable(input.password) && Encryptable(input.passphrase)
    ensures var servers := ReadServers(c, key, stored).value;
            var out := CreateServer(c, key, ivs, stored, input, id, now);
            && out.result == Success(NewServer(id, input, now))
            && ReadServers(c, key, out.stored)
               == Success(seq(|servers|, i requires 0 <= i < |servers| => Normalize(servers[i]))
                          + [Normalize(NewServer(id, input, now))])
  {
    var servers := ReadServers(c, key, stored).value;
    var all := servers + [NewServer(id, input, now)];
    ReadAfterWrite(c, key, ivs, all);
    assert seq(|all|, i requires 0 <= i < |all| => Normalize(all[i]))
        == seq(|servers|, i requires 0 <= i < |servers| => Normalize(servers[i])) + [Normalize(NewServer(id, input, now))];
  }

  /** A plaintext secret with exactly one ':' passes `writeServers`' envelope
      test and is stored unencrypted. */
  lemma OneColonPlaintextStoredVerbatim(c: Cipher, key: Key, ivs: IvSource, stored: seq<Server>,
                                        input: ServerInput, id: string, now: string)
    requires ReadServers(c, key, stored).Success?
    requires input.password == Some("a:b")
    ensures CreateServer(c, key, ivs, stored, input, id, now).stored[|stored|].password == Some("a:b")
  {
    var servers := ReadServers(c, key, stored).value;
    var written := WriteServers(c, key, ivs, servers + [NewServer(id, input, now)]);
    assert Count("a:b", ':') == 1;
    assert written[|stored|] == SealRecord(c, key, ivs, |servers|, NewServer(id, input, now));
  }

  /** `updateServer`'s guard for the password: the stored or requested mode is password. */
  predicate PasswordModeInvolved(existing: Server, partial: PartialInput) {
    partial.authType == Some(Password) || existing.authType == Password
  }

  /** `updateServer`'s guard for the passphrase: the stored or requested mode is privateKey. */
  predicate KeyModeInvolved(existing: Server, partial: PartialInput) {
    partial.authType == Some(PrivateKey) || existing.authType == PrivateKey
  }

  /** One secret member of `{ ...existingServerRaw, ...updateData }`: `involved`
      is the guard of its mode, `switchedAway` whether the request selects the
      other mode; `stored` is the record's value and `requested` the request's. */
  function MergedSecret(involved: bool, switchedAway: bool, stored: Option<string>, requested: Option<string>): Option<string> {
    if involved then
      if !Supplied(requested) && Truthy(stored) then stored
      else OverlayOptional(stored, requested)
    else if switchedAway then None
    else OverlayOptional(stored, requested)
  }

  /** The password member of the merged record. */
  function MergedPassword(existing: Server, partial: PartialInput): Option<string> {
    MergedSecret(PasswordModeInvolved(existing, partial), partial.authType == Some(PrivateKey), existing.password, partial.password)
  }

  /** The passphrase member of the merged record. */
  function MergedPassphrase(existing: Server, partial: PartialInput): Option<string> {
    MergedSecret(KeyModeInvolved(existing, partial), partial.authType == Some(Password), existing.passphrase, partial.passphrase)
  }

  /** `updatedServerRaw`: the stored record with the request spread over it. */
  function Merge(existing: Server, partial: PartialInput, now: string): Server {
    existing.(
      name := Overlay(existing.name, partial.name),
      host := Overlay(existing.host, partial.host),
      port := Overlay(existing.port, partial.port),
      username := Overlay(existing.username, partial.username),
      authType := Overlay(existing.authType, partial.authType),
      password := MergedPassword(existing, partial),
      privateKeyPath := OverlayOptional(existing.privateKeyPath, partial.privateKeyPath),
      passphrase := MergedPassphrase(existing, partial),
      notes := OverlayOptional(existing.notes, partial.notes),
      updatedAt := now)
  }

  /** `updateServer`'s own encryption of the updated record: any value containing ':' counts as encrypted. */
  function SealOnUpdate(c: Cipher, key: Key, iv: Iv, v: Option<string>): (r: Option<string>)
    ensures !Truthy(v) ==> r == None
    ensures Truthy(v) && ':' in v.value ==> r == v
    ensures Truthy(v) && ':' !in v.value ==>
              r.Some? && Count(r.value, ':') == 1 && (InversePair(c) ==> Decrypt(c, key, r.value) == Success(v.value))
  {
    if Truthy(v) then
      if ':' in v.value then v
      else
        assert InversePair(c) ==> Decrypt(c, key, Encrypt(c, key, iv, v.value)) == Success(v.value) by {
          if InversePair(c) { DecryptEncrypt(c, key, iv, v.value); }
        }
        Some(Encrypt(c, key, iv, v.value))
    else None
  }

  /** What `updateServer` writes: the merged record at its index, the others as they were. */
  function UpdatedFile(c: Cipher, key: Key, ivs: IvSource, stored: seq<Server>, index: nat,
                       partial: PartialInput, now: string): seq<Server>
    requires index < |stored|
  {
    var merged := Merge(stored[index], partial, now);
    var sealed := merged.(password := SealOnUpdate(c, key, ivs(index, PasswordField), merged.password),
                          passphrase := SealOnUpdate(c, key, ivs(index, PassphraseField), merged.passphrase));
    WriteServers(c, key, ivs, stored[index := sealed])
  }

  /** `updateServer(id, partial)` as written: it returns `updatedServerRaw` decrypted. */
  function UpdateServer(c: Cipher, key: Key, ivs: IvSource, stored: seq<Server>, id: string,
                        partial: PartialInput, now: string): (out: Outcome<Server>)
    ensures FindIndex(stored, id).None? <==> out.result == Failure(NotFound(NotFoundMessage(id)))
    ensures FindIndex(stored, id).None? ==> out.stored == stored
    ensures FindIndex(stored, id).Some? ==> UpdateWrites(c, key, stored, FindIndex(stored, id).value, partial, now, out.stored)
  {
    match FindIndex(stored, id)
    case None => Outcome(stored, Failure(NotFound(NotFoundMessage(id))))
    case Some(index) =>
      var written := UpdatedFile(c, key, ivs, stored, index, partial, now);
      UpdateWritesHolds(c, key, ivs, stored, index, partial, now);
      match OpenRecord(c, key, Merge(stored[index], partial, now))
      case Failure(e) => Outcome(written, Failure(e))
      case Success(s) => Outcome(written, Success(s))
  }

  /** What an update writes, as the source promises it: only the record at
      `index` changes; its id and creation time stay, the request's members
      replace the stored ones, `updatedAt` is `now`. For each secret: an
      omitted or blank one keeps the stored value whenever its mode is
      involved, and an omitted one keeps it whenever no switch is requested;
      the secret is cleared exactly when the request switches a
      record that does not use it to the other mode, or sends it as `""` where
      its mode is not involved, or leaves it falsy where nothing is stored;
      otherwise the request's value is stored so that it decrypts to itself. */
  ghost predicate UpdateWrites(c: Cipher, key: Key, stored: seq<Server>, index: nat,
                               partial: PartialInput, now: string, written: seq<Server>)
    requires index < |stored|
  {
    var existing := stored[index];
    && |written| == |stored|
    && (forall j :: 0 <= j < |stored| && j != index ==> SameExceptSecrets(written[j], stored[j]))
    && (forall j :: 0 <= j < |stored| && j != index && AtRest(stored[j]) ==> written[j] == stored[j])
    && AtRest(written[index])
    && var w := written[index];
    && w.id == existing.id && w.createdAt == existing.createdAt && w.updatedAt == now
    && w.name == Overlay(existing.name, partial.name)
    && w.host == Overlay(existing.host, partial.host)
    && w.port == Overlay(existing.port, partial.port)
    && w.username == Overlay(existing.username, partial.username)
    && w.authType == Overlay(existing.authType, partial.authType)
    && w.privateKeyPath == OverlayOptional(existing.privateKeyPath, partial.privateKeyPath)
    && w.notes == OverlayOptional(existing.notes, partial.notes)
    && SecretWritten(c, key, PasswordModeInvolved(existing, partial), partial.authType == Some(PrivateKey),
                     existing.password, partial.password, w.password)
    && SecretWritten(c, key, KeyModeInvolved(existing, partial), partial.authType == Some(Password),
                     existing.passphrase, partial.passphrase, w.passphrase)
  }

  /** What an update leaves of one secret (`w`), with `involved`,
      `switchedAway`, `stored` and `requested` as for `MergedSecret`. */
  ghost predicate SecretWritten(c: Cipher, key: Key, involved: bool, switchedAway: bool,
                                stored: Option<string>, requested: Option<string>, w: Option<string>) {
    // kept: no real value where the mode is involved, or omitted where nothing switches
    var keeps := Truthy(stored) && ((involved && !Supplied(requested)) || (!involved && !switchedAway && requested.None?));
    var drops := !involved && switchedAway;
    var takes := Truthy(requested) && !drops && !keeps;
    // a kept envelope survives byte for byte; a kept legacy plaintext is encrypted
    && (keeps && Count(stored.value, ':') == 1 ==> w == stored)
    && (keeps && Count(stored.value, ':') != 1 ==>
          w.Some? && (InversePair(c) ==> Decrypt(c, key, w.value) == Success(stored.value)))
    // when the secret is cleared, in both directions
    && (Truthy(stored) ==> (w.None? <==> drops || (!involved && requested == Some(""))))
    && (!Truthy(stored) ==> (w.None? <==> drops || !Truthy(requested)))
    // the request's value, even a blank one, is stored so that it reads back as sent
    && (takes && Count(requested.value, ':') == 1 ==> w == requested)
    && (takes && Count(requested.value, ':') != 1 ==>
          w.Some? && (InversePair(c) ==> Decrypt(c, key, w.value) == Success(requested.value)))
  }

  /** Merging one secret, then sealing it as `updateServer` and `writeServers` do. */
  lemma SecretWrittenHolds(c: Cipher, key: Key, iv: Iv, involved: bool, switchedAway: bool,
                           stored: Option<string>, requested: Option<string>)
    ensures SecretWritten(c, key, involved, switchedAway, stored, requested,
                          SealOnWrite(c, key, iv, SealOnUpdate(c, key, iv, MergedSecret(involved, switchedAway, stored, requested))))
  {
    if stored.Some? { CountAbsent(stored.value, ':'); }
    if requested.Some? { CountAbsent(requested.value, ':'); }
    var m := MergedSecret(involved, switchedAway, stored, requested);
    if m.Some? { CountAbsent(m.value, ':'); }
  }

  lemma UpdateWritesHolds(c: Cipher, key: Key, ivs: IvSource, stored: seq<Server>, index: nat,
                          partial: PartialInput, now: string)
    requires index < |stored|
    ensures UpdateWrites(c, key, stored, index, partial, now, UpdatedFile(c, key, ivs, stored, index, partial, now))
  {
    var existing := stored[index];
    var merged := Merge(existing, partial, now);
    SecretWrittenHolds(c, key, ivs(index, PasswordField), PasswordModeInvolved(existing, partial),
                       partial.authType == Some(PrivateKey), existing.password, partial.password);
    SecretWrittenHolds(c, key, ivs(index, PassphraseField), KeyModeInvolved(existing, partial),
                       partial.authType == Some(Password), existing.passphrase, partial.passphrase);
    var sealed := merged.(password := SealOnUpdate(c, key, ivs(index, PasswordField), merged.password),
                          passphrase := SealOnUpdate(c, key, ivs(index, PassphraseField), merged.passphrase));
    assert UpdatedFile(c, key, ivs, stored, index, partial, now)[index] == SealRecord(c, key, ivs, index, sealed);
  }

  /** `updateServer` as evidently intended: it returns the updated record as a
      later read of the file gives it, decrypting what was written rather than
      the merged record, whose newly supplied secrets are still plaintext. */
  function UpdateServerFixed(c: Cipher, key: Key, ivs: IvSource, stored: seq<Server>, id: string,
                             partial: PartialInput, now: string): (out: Outcome<Server>)
    ensures FindIndex(stored, id).None? <==> out.result == Failure(NotFound(NotFoundMessage(id)))
    ensures FindIndex(stored, id).None? ==> out.stored == stored
    ensures FindIndex(stored, id).Some? ==> UpdateWrites(c, key, stored, FindIndex(stored, id).value, partial, now, out.stored)
    ensures FindIndex(stored, id).Some? && GetServer(c, key, out.stored, id).Success? ==>
              GetServer(c, key, out.stored, id).value.Some? && out.result == Success(GetServer(c, key, out.stored, id).value.value)
  {
    match FindIndex(stored, id)
    case None => Outcome(stored, Failure(NotFound(NotFoundMessage(id))))
    case Some(index) =>
      var written := UpdatedFile(c, key, ivs, stored, index, partial, now);
      UpdateWritesHolds(c, key, ivs, stored, index, partial, now);
      FindIndexSameIds(written, stored, id);
      match OpenRecord(c, key, written[index])
      case Failure(e) => Outcome(written, Failure(e))
      case Success(s) => Outcome(written, Success(s))
  }

  /** A secret value that reads as an envelope: falsy, or with exactly one ':'. */
  predicate ReadsAsEnvelope(v: Option<string>) {
    !Truthy(v) || Count(v.value, ':') == 1
  }

  /** The reply as written is right whenever the stored secrets and the
      request's secrets all read as envelopes (an ordinary edit: no secret
      typed, or the record's own envelopes sent back): it equals the corrected
      reply, so it is the record a later `getServer` returns. */
  lemma UpdateReplyMatchesFixed(c: Cipher, key: Key, ivs: IvSource, stored: seq<Server>, id: string,
                                partial: PartialInput, now: string)
    requires FindIndex(stored, id).Some?
    requires var existing := stored[FindIndex(stored, id).value];
             ReadsAsEnvelope(existing.password) && ReadsAsEnvelope(existing.passphrase)
    requires ReadsAsEnvelope(partial.password) && ReadsAsEnvelope(partial.passphrase)
    ensures var out := UpdateServer(c, key, ivs, stored, id, partial, now);
            && out.result == UpdateServerFixed(c, key, ivs, stored, id, partial, now).result
            && (GetServer(c, key, out.stored, id).Success? ==>
                  GetServer(c, key, out.stored, id).value.Some?
                  && out.result == Success(GetServer(c, key, out.stored, id).value.value))
  {
    var index := FindIndex(stored, id).value;
    var existing := stored[index];
    var merged := Merge(existing, partial, now);
    var written := UpdatedFile(c, key, ivs, stored, index, partial, now);
    var sealed := merged.(password := SealOnUpdate(c, key, ivs(index, PasswordField), merged.password),
                          passphrase := SealOnUpdate(c, key, ivs(index, PassphraseField), merged.passphrase));
    assert written[index] == SealRecord(c, key, ivs, index, sealed);
    assert ReadsAsEnvelope(merged.password) && ReadsAsEnvelope(merged.passphrase);
    if merged.password.Some? { CountAbsent(merged.password.value, ':'); }
    if merged.passphrase.Some? { CountAbsent(merged.passphrase.value, ':'); }
    assert OpenSecret(c, key, written[index].password) == OpenSecret(c, key, merged.password);
    assert OpenSecret(c, key, written[index].passphrase) == OpenSecret(c, key, merged.passphrase);
    assert OpenRecord(c, key, written[index]) == OpenRecord(c, key, merged);
  }

  /** As written, supplying a new password that cannot be read as an envelope
      (here: shorter than the 32 hex digits of an IV) makes `updateServer` throw
      while decrypting its reply, after the file already holds the new password. */
  lemma UpdateWithNewPasswordThrows(c: Cipher, key: Key, ivs: IvSource, stored: seq<Server>, id: string,
                                    partial: PartialInput, now: string)
    requires FindIndex(stored, id).Some?
    requires PasswordModeInvolved(stored[FindIndex(stored, id).value], partial)
    requires Supplied(partial.password) && ':' !in partial.password.value
    requires |partial.password.value| < 2 * IV_LENGTH
    ensures var out := UpdateServer(c, key, ivs, stored, id, partial, now);
            var index := FindIndex(stored, id).value;
            && out.result == Failure(Undecryptable(InvalidIv))
            && out.stored == UpdatedFile(c, key, ivs, stored, index, partial, now)
            && out.stored[index].password.Some?
            && (InversePair(c) ==> Decrypt(c, key, out.stored[index].password.value) == Success(partial.password.value))
  {
    var index := FindIndex(stored, id).value;
    var pw := partial.password.value;
    CountAbsent(pw, ':');
    UpdateWritesHolds(c, key, ivs, stored, index, partial, now);
    assert MergedPassword(stored[index], partial) == partial.password;
    assert Decrypt(c, key, pw) == Failure(InvalidIv) by {
      assert EnvelopeIv(pw) == pw;
    }
  }

  /** The corrected `updateServer` replies with the new password in plaintext. */
  lemma UpdateFixedReturnsNewPassword(c: Cipher, key: Key, ivs: IvSource, stored: seq<Server>, id: string,
                                      partial: PartialInput, now: string)
    requires InversePair(c)
    requires FindIndex(stored, id).Some?
    requires var existing := stored[FindIndex(stored, id).value];
             && PasswordModeInvolved(existing, partial)
             && SecretAtRest(existing.passphrase) && OpenSecret(c, key, existing.passphrase).Success?
    requires Supplied(partial.password) && Count(partial.password.value, ':') != 1
    requires partial.passphrase.None?
    ensures var out := UpdateServerFixed(c, key, ivs, stored, id, partial, now);
            out.result.Success? && out.result.value.password == partial.password
  {
    var index := FindIndex(stored, id).value;
    var existing := stored[index];
    UpdateWritesHolds(c, key, ivs, stored, index, partial, now);
    var written := UpdatedFile(c, key, ivs, stored, index, partial, now);
    assert MergedPassphrase(existing, partial) == existing.passphrase || MergedPassphrase(existing, partial) == None;
    if existing.passphrase.Some? {
      CountAbsent(existing.passphrase.value, ':');
    }
    assert written[index].passphrase == existing.passphrase || written[index].passphrase == None;
  }

  /** An update keeps the stored password envelope byte for byte when it
      involves the password mode but carries no real password, and also when
      it leaves the mode alone and omits the password: a key-mode record
      keeps a leftover password envelope through an unrelated edit. */
  lemma UpdateKeepsPasswordEnvelope(c: Cipher, key: Key, ivs: IvSource, stored: seq<Server>, id: string,
                                    partial: PartialInput, now: string)
    requires FindIndex(stored, id).Some?
    requires var existing := stored[FindIndex(stored, id).value];
             && Truthy(existing.password) && Count(existing.password.value, ':') == 1
             && ((PasswordModeInvolved(existing, partial) && !Supplied(partial.password))
                 || (!PasswordModeInvolved(existing, partial) && partial.authType.None? && partial.password.None?))
    ensures var index := FindIndex(stored, id).value;
            UpdateServer(c, key, ivs, stored, id, partial, now).stored[index].password == stored[index].password
  {
    var index := FindIndex(stored, id).value;
    var existing := stored[index];
    var written := UpdateServer(c, key, ivs, stored, id, partial, now).stored;
    assert SecretWritten(c, key, PasswordModeInvolved(existing, partial), partial.authType == Some(PrivateKey),
                         existing.password, partial.password, written[index].password);
  }

  /** The password guard is true whenever the stored mode is password, so a
      switch from password to key authentication keeps the old password envelope. */
  lemma SwitchToKeyKeepsPassword(c: Cipher, key: Key, ivs: IvSource, stored: seq<Server>, id: string,
                                 partial: PartialInput, now: string)
    requires FindIndex(stored, id).Some?
    requires var existing := stored[FindIndex(stored, id).value];
             existing.authType == Password && existing.password.Some? && Count(existing.password.value, ':') == 1
    requires partial.authType == Some(PrivateKey) && !Supplied(partial.password)
    ensures var index := FindIndex(stored, id).value;
            var out := UpdateServer(c, key, ivs, stored, id, partial, now);
            out.stored[index].authType == PrivateKey && out.stored[index].password == stored[index].password
  {
    var index := FindIndex(stored, id).value;
    CountAbsent(stored[index].password.value, ':');
    UpdateWritesHolds(c, key, ivs, stored, index, partial, now);
  }

  /** The records `deleteServer` keeps: those with another id. */
  function OtherId(id: string): Server -> bool {
    (s: Server) => s.id != id
  }

  /** The number of records with this id. */
  function IdCount(servers: seq<Server>, id: string): nat {
    if servers == [] then 0
    else (if servers[0].id == id then 1 else 0) + IdCount(servers[1..], id)
  }

  /** Dropping the records with an id leaves all the others. */
  lemma {:induction false} FilterOtherIdLength(servers: seq<Server>, id: string)
    ensures |Filter(servers, OtherId(id))| == |servers| - IdCount(servers, id)
  {
    if servers != [] {
      FilterOtherIdLength(servers[1..], id);
    }
  }

  /** The records without the id, in order, each as often as it is stored. */
  lemma KeptRecords(stored: seq<Server>, id: string)
    ensures var kept := Filter(stored, OtherId(id));
            && IsSubsequence(kept, stored)
            && forall x :: multiset(kept)[x] == if x.id != id then multiset(stored)[x] else 0
  {
    FilterIsSubsequence(stored, OtherId(id));
    FilterMultiset(stored, OtherId(id));
    forall x: Server ensures OtherId(id)(x) == (x.id != id) { }
  }

  /** What `deleteServer` writes when it finds the id: the records without
      it, in order, each as often as it is stored; only their secrets may
      change, and only if they were not at rest. */
  lemma DeleteWritesKept(c: Cipher, key: Key, ivs: IvSource, stored: seq<Server>, id: string)
    ensures var kept := Filter(stored, OtherId(id));
            var written := WriteServers(c, key, ivs, kept);
            && IsSubsequence(kept, stored)
            && (forall x :: multiset(kept)[x] == if x.id != id then multiset(stored)[x] else 0)
            && |written| == |kept| == |stored| - IdCount(stored, id)
            && (forall k :: 0 <= k < |written| ==> written[k].id != id)
            && (forall k :: 0 <= k < |kept| ==> SameExceptSecrets(written[k], kept[k]))
            && (forall k :: 0 <= k < |kept| && AtRest(kept[k]) ==> written[k] == kept[k])
  {
    var kept := Filter(stored, OtherId(id));
    KeptRecords(stored, id);
    FilterOtherIdLength(stored, id);
  }

  /** When every stored record is at rest, `deleteServer` writes the kept
      records back byte for byte. */
  lemma DeleteAtRestWritesKept(c: Cipher, key: Key, ivs: IvSource, stored: seq<Server>, id: string)
    requires forall j :: 0 <= j < |stored| ==> AtRest(stored[j])
    ensures WriteServers(c, key, ivs, Filter(stored, OtherId(id))) == Filter(stored, OtherId(id))
  {
    var kept := Filter(stored, OtherId(id));
    forall k | 0 <= k < |kept| ensures AtRest(kept[k]) {
      var j :| 0 <= j < |stored| && stored[j] == kept[k];
    }
  }

  /** `deleteServer(id)`: the records without the id, in their order and each
      as often as it was stored, are written back; only their secrets may
      change, and only if they were not at rest. */
  function DeleteServer(c: Cipher, key: Key, ivs: IvSource, stored: seq<Server>, id: string): (out: Outcome<()>)
    ensures out.result.Failure? <==> forall j :: 0 <= j < |stored| ==> stored[j].id != id
    ensures out.result.Failure? ==> out.stored == stored && out.result.error == NotFound(NotFoundMessage(id))
    ensures out.result.Success? ==> |out.stored| == |stored| - IdCount(stored, id) < |stored|
    ensures out.result.Success? ==> forall j :: 0 <= j < |out.stored| ==> out.stored[j].id != id
    ensures out.result.Success? ==>
              var kept := Filter(stored, OtherId(id));
              && IsSubsequence(kept, stored)
              && (forall x :: multiset(kept)[x] == if x.id != id then multiset(stored)[x] else 0)
              && |out.stored| == |kept|
              && (forall k :: 0 <= k < |kept| ==> SameExceptSecrets(out.stored[k], kept[k]))
              && (forall k :: 0 <= k < |kept| && AtRest(kept[k]) ==> out.stored[k] == kept[k])
    ensures out.result.Success? && (forall j :: 0 <= j < |stored| ==> AtRest(stored[j])) ==>
              IsSubsequence(out.stored, stored)
              && forall j :: 0 <= j < |stored| && stored[j].id != id ==> stored[j] in out.stored
  {
    var filtered := Filter(stored, OtherId(id));
    FilterOtherIdLength(stored, id);
    if |filtered| == |stored| then Outcome(stored, Failure(NotFound(NotFoundMessage(id))))
    else
      DeleteWritesKept(c, key, ivs, stored, id);
      assert (forall j :: 0 <= j < |stored| ==> AtRest(stored[j])) ==> WriteServers(c, key, ivs, filtered) == filtered by {
        if forall j :: 0 <= j < |stored| ==> AtRest(stored[j]) {
          DeleteAtRestWritesKept(c, key, ivs, stored, id);
        }
      }
      Outcome(WriteServers(c, key, ivs, filtered), Success(()))
  }

  /** The end-to-end scenario: create a password server, read it back, then
      update it with an empty password; the stored envelope is unchanged. */
  lemma CreateReadBlankUpdate(c: Cipher, key: Key, ivs: IvSource, ivs': IvSource,
                              input: ServerInput, id: string, now: string, later: string)
    requires InversePair(c)
    requires input.authType == Password && input.password == Some("p") && input.passphrase.None?
    ensures var created := CreateServer(c, key, ivs, [], input, id, now);
            var partial := PartialInput(None, None, None, None, None, Some(""), None, None, None);
            var updated := UpdateServer(c, key, ivs', created.stored, id, partial, later);
            && created.result.Success?
            && ReadServers(c, key, created.stored) == Success([NewServer(id, input, now)])
            && updated.result.Success?
            && updated.stored[0].password == created.stored[0].password
  {
    var created := CreateServer(c, key, ivs, [], input, id, now);
    var partial := PartialInput(None, None, None, None, None, Some(""), None, None, None);
    assert Count("p", ':') == 0;
    CreateThenRead(c, key, ivs, [], input, id, now);
    var r := ReadServers(c, key, created.stored);
    assert |r.value| == 1 && r.value[0] == Normalize(NewServer(id, input, now)) == NewServer(id, input, now);
    assert r.value == [NewServer(id, input, now)];
    var s := created.stored[0];
    assert FindIndex(created.stored, id) == Some(0);
    UpdateWritesHolds(c, key, ivs', created.stored, 0, partial, later);
    assert OpenRecord(c, key, s).Success? by {
      assert ReadServers(c, key, created.stored).Success?;
    }
    assert Merge(s, partial, later).password == s.password;
    assert Merge(s, partial, later).passphrase == None;
  }
}

=== FILE: servers.dfy ===
/** The server record as stored and as exchanged with the renderer. Optional
    members of the TypeScript interfaces are `Option`s; `None` is a missing
    (or `undefined`) member. */
module Servers {
  import opened Wrappers
  import opened Text

  datatype AuthType = Password | PrivateKey

  datatype Server = Server(
    id: string,
    name: string,
    host: string,
    port: int,
    username: string,
    authType: AuthType,
    password: Option<string>,
    privateKeyPath: Option<string>,
    passphrase: Option<string>,
    notes: Option<string>,
    createdAt: string,
    updatedAt: string)

  /** What the form submits when a server is created. */
  datatype ServerInput = ServerInput(
    name: string,
    host: string,
    port: int,
    username: string,
    authType: AuthType,
    password: Option<string>,
    privateKeyPath: Option<string>,
    passphrase: Option<string>,
    notes: Option<string>)

  /** `Partial<ServerInput>`: what an update may carry; a missing member is `None`. */
  datatype PartialInput = PartialInput(
    name: Option<string>,
    host: Option<string>,
    port: Option<int>,
    username: Option<string>,
    authType: Option<AuthType>,
    password: Option<string>,
    privateKeyPath: Option<string>,
    passphrase: Option<string>,
    notes: Option<string>)

  /** JavaScript truthiness of an optional string: present and non-empty. */
  predicate Truthy(v: Option<string>) {
    v.Some? && v.value != ""
  }

  /** A secret the request really supplies: present and not blank after trim. */
  predicate Supplied(v: Option<string>) {
    v.Some? && !IsBlank(v.value)
  }

  /** `{ ...a, ...b }` for one member: `b`'s value when `b` has the member. */
  function Overlay<T>(a: T, b: Option<T>): T {
    b.GetOr(a)
  }

  /** The same for an optional member: `b`'s value when `b` has the member. */
  function OverlayOptional<T>(a: Option<T>, b: Option<T>): Option<T> {
    if b.Some? then b else a
  }

  /** Two records that differ at most in their secret fields. */
  predicate SameExceptSecrets(a: Server, b: Server) {
    a.(password := b.password, passphrase := b.passphrase) == b
  }

  /** `{ id, ...input, createdAt: now, updatedAt: now }` */
  function NewServer(id: string, input: ServerInput, now: string): (s: Server)
    ensures s.id == id && s.createdAt == now && s.updatedAt == now
    ensures AsInput(s) == input
  {
    Server(id, input.name, input.host, input.port, input.username, input.authType,
           input.password, input.privateKeyPath, input.passphrase, input.notes, now, now)
  }

  /** The input members of a record. */
  function AsInput(s: Server): ServerInput {
    ServerInput(s.name, s.host, s.port, s.username, s.authType,
                s.password, s.privateKeyPath, s.passphrase, s.notes)
  }

  /** A full input sent as an update: every member it has is present. */
  function AsPartial(input: ServerInput): (p: PartialInput)
    ensures p.name == Some(input.name) && p.host == Some(input.host)
    ensures p.port == Some(input.port) && p.username == Some(input.username)
    ensures p.authType == Some(input.authType)
    ensures p.password == input.password && p.passphrase == input.passphrase
    ensures p.privateKeyPath == input.privateKeyPath && p.notes == input.notes
  {
    PartialInput(Some(input.name), Some(input.host), Some(input.port), Some(input.username),
                 Some(input.authType), input.password, input.privateKeyPath, input.passphrase, input.notes)
  }
}

=== FILE: session_auth.dfy ===
/** The authentication check both connection managers run on a decrypted
    server record before they dial (the shell and the SFTP manager carry
    identical copies of it). Resolving the key path against the working
    directory is not modelled: the path is taken as given. */
module SessionAuth {
  import opened Wrappers
  import opened Servers

  /** What the file system reports about the private key file. */
  datatype KeyFile =
    | KeyMissing                     // `existsSync` is false
    | KeyUnreadable(message: string) // `readFileSync` threw an error with this message
    | KeyReadable

  /** A refused configuration: the message of the error thrown to the caller,
      and the message recorded on the session. */
  datatype AuthFailure = AuthFailure(thrown: string, recorded: string)

  const PASSWORD_REQUIRED := "Password is required"
  const KEY_PATH_REQUIRED := "Private key path is required"
  const KEY_NOT_FOUND := "Private key file not found: "
  const KEY_READ_FAILED := "Failed to read private key"

  /** `message || fallback` */
  function MessageOr(message: string, fallback: string): (r: string)
    ensures message != "" ==> r == message
    ensures message == "" ==> r == fallback
    ensures fallback != "" ==> r != ""
  {
    if message != "" then message else fallback
  }

  /** The configuration is accepted exactly when the credential its mode needs
      is present: a non-empty password, or a non-empty key path naming a file
      that can be read. A refusal always leaves a non-empty message on the
      session; only an unreadable key can throw an error whose own message
      differs from the recorded one. */
  function CheckAuth(server: Server, keyFile: KeyFile): (r: Option<AuthFailure>)
    ensures r.None? <==>
              || (server.authType == Password && Truthy(server.password))
              || (server.authType == PrivateKey && Truthy(server.privateKeyPath) && keyFile == KeyReadable)
    ensures r.Some? ==> r.value.recorded != ""
    ensures r.Some? && !keyFile.KeyUnreadable? ==> r.value.thrown == r.value.recorded
    ensures r.Some? && server.authType == PrivateKey && Truthy(server.privateKeyPath) && keyFile == KeyMissing ==>
              r.value.recorded == KEY_NOT_FOUND + server.privateKeyPath.value
  {
    match server.authType
    case Password =>
      if !Truthy(server.password) then Some(AuthFailure(PASSWORD_REQUIRED, PASSWORD_REQUIRED))
      else None
    case PrivateKey =>
      if !Truthy(server.privateKeyPath) then Some(AuthFailure(KEY_PATH_REQUIRED, KEY_PATH_REQUIRED))
      else
        match keyFile
        case KeyMissing =>
          var m := KEY_NOT_FOUND + server.privateKeyPath.value;
          Some(AuthFailure(m, m))
        case KeyUnreadable(m) => Some(AuthFailure(m, MessageOr(m, KEY_READ_FAILED)))
        case KeyReadable => None
  }
}

=== FILE: sftp_ops.dfy ===
/** The file operations on an open SFTP session: listing a directory,
    download, upload, creating a folder, renaming and deleting. Each checks
    that the session is ready before it issues any request; the replies of
    the SFTP server (and whether a local file exists) are parameters, and the
    requests issued are returned so that their order can be stated. */
module SftpOps {
  import opened Wrappers
  import opened Text
  import opened Registry
  import opened RemotePaths
  import opened SftpSessions

  /** The `attrs` of a directory item; a field the server leaves out is `None`. */
  datatype Attrs = Attrs(size: Option<nat>, mtime: Option<nat>)

  /** One item as `readdir` reports it. */
  datatype RemoteItem = RemoteItem(filename: string, longname: Option<string>, attrs: Option<Attrs>)

  /** `RemoteFileEntry`: `modified` is in milliseconds. */
  datatype RemoteEntry = RemoteEntry(name: string, path: string, isDirectory: bool, size: nat, modified: Option<nat>)

  /** A request sent to the SFTP server. */
  datatype RemoteCall =
    | FastGet(remotePath: string, localPath: string)
    | FastPut(localPath: string, remotePath: string)
    | Mkdir(path: string)
    | Rename(oldPath: string, newPath: string)
    | Stat(path: string)
    | Rmdir(path: string)
    | Unlink(path: string)

  /** The requests an operation issued, in order, and how it ended. */
  datatype OpResult = OpResult(calls: seq<RemoteCall>, result: Result<(), SftpError>)

  /** A session that can serve requests: registered, `ready`, with a channel. */
  predicate IsReady(t: SftpTable, sid: string) {
    Get(t, sid).Some? && Get(t, sid).value.status == Ready && Get(t, sid).value.hasChannel
  }

  function NotReadyMessage(sid: string): string {
    "SFTP session " + sid + " is not ready"
  }

  /** Present and non-zero, as JavaScript's `||` and `?:` test a number. */
  function NumberOr(n: Option<nat>, fallback: nat): nat {
    if n.Some? && n.value != 0 then n.value else fallback
  }

  /** The entry the listing builds from one item of directory `dir`. */
  function ToEntry(dir: string, item: RemoteItem): (e: RemoteEntry)
    ensures e.name == item.filename
    ensures e.path == ChildPath(dir, item.filename)
    ensures e.isDirectory <==> item.longname.Some? && StartsWith(item.longname.value, "d")
    ensures item.attrs.None? ==> e.size == 0 && e.modified.None?
    ensures item.attrs.Some? ==> e.size == NumberOr(item.attrs.value.size, 0)
    ensures e.modified.Some? <==> item.attrs.Some? && NumberOr(item.attrs.value.mtime, 0) != 0
    ensures e.modified.Some? ==> e.modified.value == item.attrs.value.mtime.value * 1000
  {
    var size := if item.attrs.Some? then NumberOr(item.attrs.value.size, 0) else 0;
    var mtime := if item.attrs.Some? then NumberOr(item.attrs.value.mtime, 0) else 0;
    RemoteEntry(item.filename, ChildPath(dir, item.filename),
                item.longname.Some? && StartsWith(item.longname.value, "d"),
                size, if mtime != 0 then Some(mtime * 1000) else None)
  }

  function MapEntries(dir: string, items: seq<RemoteItem>): (r: seq<RemoteEntry>)
    ensures |r| == |items|
    ensures forall i :: 0 <= i < |items| ==> r[i] == ToEntry(dir, items[i])
  {
    seq(|items|, i requires 0 <= i < |items| => ToEntry(dir, items[i]))
  }

  /** `listRemote(sid, remotePath)`; `readdir` is the server's reply. */
  function ListRemote(t: SftpTable, sid: string, remotePath: string, readdir: Result<seq<RemoteItem>, string>): (r: Result<seq<RemoteEntry>, SftpError>)
    ensures Get(t, sid).None? ==> r == Failure(SessionNotFound("SFTP session " + sid + " not found"))
    ensures Get(t, sid).Some? && !IsReady(t, sid) ==>
              r == Failure(NotReady("SFTP session " + sid + " is not ready (status: " + StatusName(Get(t, sid).value.status) + ")"))
    ensures IsReady(t, sid) && readdir.Failure? ==> r == Failure(RemoteFailed("Failed to list directory: " + readdir.error))
    ensures r.Success? <==> IsReady(t, sid) && readdir.Success?
    // one entry per item, in the server's order
    ensures r.Success? ==> |r.value| == |readdir.value|
    ensures r.Success? ==> forall i :: 0 <= i < |r.value| ==> r.value[i] == ToEntry(remotePath, readdir.value[i])
  {
    match Get(t, sid)
    case None => Failure(SessionNotFound("SFTP session " + sid + " not found"))
    case Some(s) =>
      if s.status != Ready || !s.hasChannel then
        Failure(NotReady("SFTP session " + sid + " is not ready (status: " + StatusName(s.status) + ")"))
      else
        match readdir
        case Failure(m) => Failure(RemoteFailed("Failed to list directory: " + m))
        case Success(items) => Success(MapEntries(remotePath, items))
  }

  /** A single SFTP request after the ready check; `err` is the server's error. */
  function Single(t: SftpTable, sid: string, call: RemoteCall, prefix: string, err: Option<string>): (o: OpResult)
    ensures !IsReady(t, sid) ==> o == OpResult([], Failure(NotReady(NotReadyMessage(sid))))
    ensures IsReady(t, sid) ==> o.calls == [call]
    ensures o.result.Success? <==> IsReady(t, sid) && err.None?
    ensures IsReady(t, sid) && err.Some? ==> o.result == Failure(RemoteFailed(prefix + err.value))
  {
    if !IsReady(t, sid) then OpResult([], Failure(NotReady(NotReadyMessage(sid))))
    else if err.Some? then OpResult([call], Failure(RemoteFailed(prefix + err.value)))
    else OpResult([call], Success(()))
  }

  /** `downloadFile(sid, remotePath, localPath)` */
  function DownloadFile(t: SftpTable, sid: string, remotePath: string, localPath: string, err: Option<string>): (o: OpResult)
    ensures !IsReady(t, sid) ==> o.calls == [] && o.result == Failure(NotReady(NotReadyMessage(sid)))
    ensures IsReady(t, sid) ==> o.calls == [FastGet(remotePath, localPath)]
    ensures o.result.Success? <==> IsReady(t, sid) && err.None?
    ensures IsReady(t, sid) && err.Some? ==> o.result == Failure(RemoteFailed("Download failed: " + err.value))
  {
    Single(t, sid, FastGet(remotePath, localPath), "Download failed: ", err)
  }

  /** `uploadFile(sid, localPath, remotePath)`: a missing local file is
      refused before anything is sent. */
  function UploadFile(t: SftpTable, sid: string, localPath: string, remotePath: string, localExists: bool, err: Option<string>): (o: OpResult)
    ensures !IsReady(t, sid) ==> o.calls == [] && o.result == Failure(NotReady(NotReadyMessage(sid)))
    ensures IsReady(t, sid) && !localExists ==> o.calls == [] && o.result == Failure(LocalFileNotFound("Local file not found: " + localPath))
    ensures IsReady(t, sid) && localExists ==> o.calls == [FastPut(localPath, remotePath)]
    ensures o.result.Success? <==> IsReady(t, sid) && localExists && err.None?
    ensures IsReady(t, sid) && localExists && err.Some? ==> o.result == Failure(RemoteFailed("Upload failed: " + err.value))
  {
    if IsReady(t, sid) && !localExists then OpResult([], Failure(LocalFileNotFound("Local file not found: " + localPath)))
    else Single(t, sid, FastPut(localPath, remotePath), "Upload failed: ", err)
  }

  /** `mkdirRemote(sid, path)` */
  function MkdirRemote(t: SftpTable, sid: string, path: string, err: Option<string>): (o: OpResult)
    ensures !IsReady(t, sid) ==> o.calls == [] && o.result == Failure(NotReady(NotReadyMessage(sid)))
    ensures IsReady(t, sid) ==> o.calls == [Mkdir(path)]
    ensures o.result.Success? <==> IsReady(t, sid) && err.None?
    ensures IsReady(t, sid) && err.Some? ==> o.result == Failure(RemoteFailed("Failed to create directory: " + err.value))
  {
    Single(t, sid, Mkdir(path), "Failed to create directory: ", err)
  }

  /** `renameRemote(sid, oldPath, newPath)` */
  function RenameRemote(t: SftpTable, sid: string, oldPath: string, newPath: string, err: Option<string>): (o: OpResult)
    ensures !IsReady(t, sid) ==> o.calls == [] && o.result == Failure(NotReady(NotReadyMessage(sid)))
    ensures IsReady(t, sid) ==> o.calls == [Rename(oldPath, newPath)]
    ensures o.result.Success? <==> IsReady(t, sid) && err.None?
    ensures IsReady(t, sid) && err.Some? ==> o.result == Failure(RemoteFailed("Failed to rename: " + err.value))
  {
    Single(t, sid, Rename(oldPath, newPath), "Failed to rename: ", err)
  }

  /** `deleteRemote(sid, path)`: `stat` answers whether the path is a
      directory; a directory is removed with `rmdir`, anything else with
      `unlink`. `err` is the reply to that second request. */
  function DeleteRemote(t: SftpTable, sid: string, path: string, stat: Result<bool, string>, err: Option<string>): (o: OpResult)
    ensures !IsReady(t, sid) ==> o.calls == [] && o.result == Failure(NotReady(NotReadyMessage(sid)))
    ensures IsReady(t, sid) ==> |o.calls| >= 1 && o.calls[0] == Stat(path)
    ensures IsReady(t, sid) && stat.Failure? ==> o.calls == [Stat(path)] && o.result == Failure(RemoteFailed("Failed to check path: " + stat.error))
    ensures IsReady(t, sid) && stat.Success? && stat.value ==> o.calls == [Stat(path), Rmdir(path)]
    ensures IsReady(t, sid) && stat.Success? && !stat.value ==> o.calls == [Stat(path), Unlink(path)]
    ensures o.result.Success? <==> IsReady(t, sid) && stat.Success? && err.None?
    ensures IsReady(t, sid) && stat.Success? && err.Some? ==>
              o.result == Failure(RemoteFailed((if stat.value then "Failed to delete directory: " else "Failed to delete file: ") + err.value))
  {
    if !IsReady(t, sid) then OpResult([], Failure(NotReady(NotReadyMessage(sid))))
    else
      match stat
      case Failure(m) => OpResult([Stat(path)], Failure(RemoteFailed("Failed to check path: " + m)))
      case Success(isDirectory) =>
        var second := if isDirectory then Rmdir(path) else Unlink(path);
        var prefix := if isDirectory then "Failed to delete directory: " else "Failed to delete file: ";
        OpResult([Stat(path)] + Single(t, sid, second, prefix, err).calls, Single(t, sid, second, prefix, err).result)
  }

  /** Every operation checks readiness first: a session that is not ready
      is never sent a request, whatever the other inputs are. */
  lemma NotReadySendsNothing(t: SftpTable, sid: string, a: string, b: string, exists_: bool,
                             stat: Result<bool, string>, err: Option<string>, readdir: Result<seq<RemoteItem>, string>)
    requires !IsReady(t, sid)
    ensures ListRemote(t, sid, a, readdir).Failure?
    ensures DownloadFile(t, sid, a, b, err).calls == []
    ensures UploadFile(t, sid, a, b, exists_, err).calls == []
    ensures MkdirRemote(t, sid, a, err).calls == []
    ensures RenameRemote(t, sid, a, b, err).calls == []
    ensures DeleteRemote(t, sid, a, stat, err).calls == []
  {
  }

  /** Every listed path lies directly inside the listed directory: its
      parent, as the file browser computes it, is that directory again. */
  lemma ListedPathsAreChildren(t: SftpTable, sid: string, dir: string, items: seq<RemoteItem>)
    requires Canonical(dir)
    requires forall i :: 0 <= i < |items| ==> items[i].filename != "" && '/' !in items[i].filename
    requires IsReady(t, sid)
    ensures ListRemote(t, sid, dir, Success(items)).Success?
    ensures forall e :: e in ListRemote(t, sid, dir, Success(items)).value ==> RemoteParent(e.path) == dir
  {
    var es := ListRemote(t, sid, dir, Success(items)).value;
    assert |es| == |items|;
    forall i | 0 <= i < |es| ensures RemoteParent(es[i].path) == dir {
      assert es[i].path == ChildPath(dir, items[i].filename);
      ParentOfChild(dir, items[i].filename);
    }
  }

  /** `modified` keeps the server's seconds: dividing by 1000 gives them back. */
  lemma ModifiedKeepsSeconds(dir: string, item: RemoteItem)
    requires ToEntry(dir, item).modified.Some?
    ensures ToEntry(dir, item).modified.value / 1000 == item.attrs.value.mtime.value
    ensures ToEntry(dir, item).modified.value % 1000 == 0
  {
  }

  /** A session whose timer fired before the server answered is reported to
      its caller as failed, yet once its channel arrives it serves listings. */
  lemma TimedOutSessionServes(w: World, sid: string, dir: string, items: seq<RemoteItem>)
    requires Valid(w) && sid in w.attempts && w.attempts[sid] == Attempt(true, false, false, Pending)
    requires Get(w.sessions, sid).Some?
    ensures var w3 := OnChannel(OnReady(OnTimer(w, sid), sid), sid, None);
            && w3.attempts[sid].outcome == Rejected(ConnectionLost(CONNECTION_TIMEOUT))
            && ListRemote(w3.sessions, sid, dir, Success(items)).Success?
  {
    ErrorThenReady(w, sid, None, None);
  }

  /** A session handed out while still connecting (path `~`) cannot list. */
  lemma ConnectingSessionCannotList(t: SftpTable, sid: string, dir: string, readdir: Result<seq<RemoteItem>, string>)
    requires Get(t, sid).Some? && Get(t, sid).value.status == Connecting
    ensures ListRemote(t, sid, dir, readdir) == Failure(NotReady("SFTP session " + sid + " is not ready (status: " + "connecting" + ")"))
  {
  }
}

=== FILE: sftp_paths.dfy ===
/** The path arithmetic of the file-transfer page: the parent of a local
    directory (`getParentPath`, which accepts both `/` and `\`), the parent of
    a remote directory (the ".." row), and the remote child paths built for
    uploads, new folders and renames. */
module RemotePaths {
  import opened Wrappers
  import opened Text

  /** `p.split('/').filter(p => p)`: the non-empty segments. */
  function Segments(p: string): (r: seq<string>)
    ensures forall k :: 0 <= k < |r| ==> r[k] != "" && '/' !in r[k]
  {
    var parts := Split(p, '/');
    var r := NonEmpty(parts);
    assert forall k :: 0 <= k < |r| ==> '/' !in r[k] by {
      forall k | 0 <= k < |r| ensures '/' !in r[k] {
        var j :| 0 <= j < |parts| && parts[j] == r[k];
      }
    }
    r
  }

  /** A remote directory as the page writes it: `/`, or `/` followed by
      non-empty segments joined with `/`. */
  predicate Canonical(p: string) {
    p == "/" + Join(Segments(p), '/')
  }

  /** All but the last element (`pop`, which leaves an empty list empty). */
  function DropLast<T>(xs: seq<T>): (r: seq<T>)
    ensures |xs| > 0 ==> |r| == |xs| - 1 && xs == r + [xs[|xs| - 1]]
    ensures |xs| == 0 ==> r == []
  {
    if |xs| == 0 then [] else xs[..|xs| - 1]
  }

  /** The ".." row's target: the remote parent of `remotePath`. */
  function RemoteParent(remotePath: string): (r: string)
    ensures StartsWith(r, "/")
    ensures |Segments(remotePath)| <= 1 ==> r == "/"
  {
    var kept := DropLast(Segments(remotePath));
    if |kept| > 0 then "/" + Join(kept, '/') else "/"
  }

  /** The ".." row is shown for every remote path except `''` and `'/'`. */
  predicate ShowsParentRow(remotePath: string) {
    remotePath != "" && remotePath != "/"
  }

  /** The remote path of `name` inside `dir`: no doubled `/` under the root. */
  function ChildPath(dir: string, name: string): (r: string)
    ensures dir == "/" ==> r == "/" + name
    ensures dir != "/" ==> r == dir + "/" + name
    ensures |r| > |name| && r[|r| - |name|..] == name && r[|r| - |name| - 1] == '/'
  {
    if dir == "/" then "/" + name else dir + "/" + name
  }

  /** The new folder's path, from the text the prompt returned (`None` when
      it was cancelled); nothing is created for a blank name. */
  function NewFolderPath(remotePath: string, input: Option<string>): (r: Option<string>)
    ensures r.None? <==> input.None? || IsBlank(input.value)
    ensures r.Some? ==> r.value == ChildPath(remotePath, Trim(input.value)) && Trim(input.value) != ""
  {
    if input.None? || Trim(input.value) == "" then None
    else Some(ChildPath(remotePath, Trim(input.value)))
  }

  /** The rename target: the prompt's text, trimmed, inside the current
      directory. Nothing happens for a cancelled or blank prompt or for the
      unchanged name, which is compared before trimming. */
  function RenamePath(remotePath: string, oldName: string, input: Option<string>): (r: Option<string>)
    ensures r.None? <==> input.None? || IsBlank(input.value) || input.value == oldName
    ensures r.Some? ==> r.value == ChildPath(remotePath, Trim(input.value)) && Trim(input.value) != ""
  {
    if input.None? || Trim(input.value) == "" || input.value == oldName then None
    else Some(ChildPath(remotePath, Trim(input.value)))
  }

  /** `/^[A-Z]:/i`: a drive letter and a colon. */
  predicate IsDrivePath(p: string) {
    |p| >= 2 && IsAsciiLetter(p[0]) && p[1] == ':'
  }

  /** The segments `getParentPath` sees: `\` read as `/`, empty ones dropped. */
  function LocalSegments(p: string): (r: seq<string>)
    ensures forall k :: 0 <= k < |r| ==> r[k] != "" && '/' !in r[k] && '\\' !in r[k]
  {
    var normalized := ReplaceAll(p, '\\', '/');
    var parts := Split(normalized, '/');
    var r := NonEmpty(parts);
    forall k | 0 <= k < |r| ensures '\\' !in r[k] {
      var j :| 0 <= j < |parts| && parts[j] == r[k];
      JoinContains(parts, '/', j);
    }
    assert Segments(normalized) == r;
    r
  }

  /** `getParentPath(currentPath, homeDir)`. */
  function ParentPath(current: string, home: string): (r: string)
    ensures |LocalSegments(current)| == 0 ==> r == home
    ensures |LocalSegments(current)| == 1 && IsDrivePath(current) ==> r == current[..2] + "\\"
    ensures |LocalSegments(current)| == 1 && !IsDrivePath(current) && StartsWith(current, "/") ==> r == "/"
    ensures |LocalSegments(current)| >= 2 && IsDrivePath(current) ==>
              r == current[..2] + "\\" + Join(DropLast(LocalSegments(current)), '\\')
  {
    var parts := LocalSegments(current);
    if |parts| == 0 then home
    else
      var kept := DropLast(parts);
      if |kept| == 0 then
        if IsDrivePath(current) then current[..2] + "\\"
        else if StartsWith(current, "/") then "/"
        else HomeParent(home, current)
      else if IsDrivePath(current) then current[..2] + "\\" + Join(kept, '\\')
      else "/" + Join(kept, '/')
  }

  /** The last branch of `getParentPath`, for a one-segment relative path:
      the home directory without its last segment, joined with `\` when the
      current path contains one, else `/`; or `/` when that is empty. (The
      source's drive-letter alternative there cannot apply: drive paths were
      handled before.) */
  function HomeParent(home: string, current: string): (r: string)
    ensures r != ""
  {
    var pieces := Split(ReplaceAll(home, '\\', '/'), '/');
    var joined := Join(DropLast(pieces), if '\\' in current then '\\' else '/');
    if joined != "" then joined else "/"
  }

  /** A character of a piece is a character of the joined text. */
  lemma {:induction false} JoinContains(parts: seq<string>, sep: char, j: nat)
    requires j < |parts|
    ensures forall c :: c in parts[j] ==> c in Join(parts, sep)
  {
    if |parts| > 1 {
      if j > 0 {
        JoinContains(parts[1..], sep, j - 1);
        assert parts[1..][j - 1] == parts[j];
      }
    }
  }

  /** Dropping the empty pieces of pieces that are all non-empty keeps them all. */
  lemma {:induction false} NonEmptyAll(xs: seq<string>)
    requires forall k :: 0 <= k < |xs| ==> xs[k] != ""
    ensures NonEmpty(xs) == xs
  {
    if xs != [] {
      NonEmptyAll(xs[1..]);
    }
  }

  /** Segments written back with a leading `/` read back as the same segments. */
  lemma {:induction false} SegmentsOfRooted(xs: seq<string>)
    requires forall k :: 0 <= k < |xs| ==> xs[k] != "" && '/' !in xs[k]
    ensures Segments("/" + Join(xs, '/')) == xs
    ensures Canonical("/" + Join(xs, '/'))
  {
    var parts := [""] + xs;
    if xs == [] {
      assert "/" + Join(xs, '/') == Join(["", ""], '/');
      SplitJoin(["", ""], '/');
      assert NonEmpty(["", ""]) == NonEmpty([""]) == NonEmpty([]);
    } else {
      assert "/" + Join(xs, '/') == Join(parts, '/');
      assert parts[1..] == xs;
      SplitJoin(parts, '/');
      NonEmptyAll(xs);
      assert NonEmpty(parts) == NonEmpty(xs);
    }
  }

  lemma {:induction false} JoinAppend(xs: seq<string>, last: string, sep: char)
    requires xs != []
    ensures Join(xs + [last], sep) == Join(xs, sep) + [sep] + last
  {
    if |xs| > 1 {
      assert (xs + [last])[1..] == xs[1..] + [last];
      JoinAppend(xs[1..], last, sep);
    } else {
      assert xs + [last] == [xs[0], last];
    }
  }

  /** The remote parent drops exactly the last segment. */
  lemma RemoteParentDropsLast(p: string)
    ensures Segments(RemoteParent(p)) == DropLast(Segments(p))
    ensures Canonical(RemoteParent(p))
  {
    SegmentsOfRooted(DropLast(Segments(p)));
    if |DropLast(Segments(p))| == 0 {
      assert RemoteParent(p) == "/" + Join([], '/');
    }
  }

  /** On a canonical path the ".." row is shown exactly when it leads
      somewhere else, and then it leads one segment up. */
  lemma ParentRowGoesUp(p: string)
    requires Canonical(p)
    ensures ShowsParentRow(p) <==> RemoteParent(p) != p
    ensures ShowsParentRow(p) ==> |Segments(RemoteParent(p))| == |Segments(p)| - 1
  {
    var xs := Segments(p);
    RemoteParentDropsLast(p);
    if xs == [] {
      RootHasNoSegments(p);
    } else {
      JoinNonEmpty(xs, '/');
      assert |p| > 1;
    }
  }

  lemma RootHasNoSegments(p: string)
    requires Canonical(p) && Segments(p) == []
    ensures p == "/" && RemoteParent(p) == p
  {
    assert Join(Segments(p), '/') == "";
  }

  /** A join whose first piece is non-empty is non-empty. */
  lemma JoinNonEmpty(xs: seq<string>, sep: char)
    requires xs != [] && xs[0] != ""
    ensures |Join(xs, sep)| > 0
  {
    assert |Join(xs, sep)| >= |xs[0]|;
  }

  /** A child of a canonical directory has one segment more, and its remote
      parent is the directory again. */
  lemma ParentOfChild(dir: string, name: string)
    requires Canonical(dir)
    requires name != "" && '/' !in name
    ensures Segments(ChildPath(dir, name)) == Segments(dir) + [name]
    ensures RemoteParent(ChildPath(dir, name)) == dir
  {
    var xs := Segments(dir);
    var ys := xs + [name];
    assert forall k :: 0 <= k < |ys| ==> ys[k] != "" && '/' !in ys[k];
    if xs == [] {
      assert dir == "/";
      assert ChildPath(dir, name) == "/" + Join(ys, '/');
    } else {
      JoinAppend(xs, name, '/');
      assert ChildPath(dir, name) == "/" + Join(ys, '/');
    }
    SegmentsOfRooted(ys);
    assert DropLast(ys) == xs;
  }

  /** On a path without a drive letter, the local parent drops exactly the
      last segment once there are two or more. */
  lemma ParentPathDropsLast(current: string, home: string)
    requires |LocalSegments(current)| >= 2 && !IsDrivePath(current)
    ensures ParentPath(current, home) == "/" + Join(DropLast(LocalSegments(current)), '/')
    ensures LocalSegments(ParentPath(current, home)) == DropLast(LocalSegments(current))
  {
    var kept := DropLast(LocalSegments(current));
    var r := "/" + Join(kept, '/');
    SegmentsOfRooted(kept);
    forall k | 0 <= k < |kept| ensures '\\' !in kept[k] {
      assert kept[k] == LocalSegments(current)[k];
    }
    assert '\\' !in r by {
      forall j | 0 <= j < |kept| ensures forall c :: c in kept[j] ==> c in Join(kept, '/') {
        JoinContains(kept, '/', j);
      }
      JoinChars(kept, '/');
    }
    assert ReplaceAll(r, '\\', '/') == r;
  }

  /** The characters of a join are separators or characters of its pieces. */
  lemma {:induction false} JoinChars(parts: seq<string>, sep: char)
    ensures forall c :: c in Join(parts, sep) ==> c == sep || exists k :: 0 <= k < |parts| && c in parts[k]
  {
    if |parts| > 1 {
      JoinChars(parts[1..], sep);
      forall c | c in Join(parts, sep) ensures c == sep || exists k :: 0 <= k < |parts| && c in parts[k] {
        if c in Join(parts[1..], sep) && c != sep {
          var k :| 0 <= k < |parts[1..]| && c in parts[1..][k];
          assert parts[k + 1] == parts[1..][k];
        }
      }
    } else if |parts| == 1 {
      assert forall c :: c in Join(parts, sep) ==> c in parts[0];
    }
  }

  /** Neither separator occurs in `s`. */
  predicate NoSeparator(s: string) {
    '/' !in s && '\\' !in s
  }

  /** On a drive path the drive is itself a segment, so it is repeated: the
      parent of `C:\a\b` is `C:\C:\a`. */
  lemma {:induction false} DriveSegmentRepeated(drive: char, a: string, b: string, home: string)
    requires IsAsciiLetter(drive)
    requires a != "" && b != "" && NoSeparator(a) && NoSeparator(b)
    ensures ParentPath([drive, ':', '\\'] + a + "\\" + b, home) == [drive, ':', '\\', drive, ':', '\\'] + a
  {
    var current := [drive, ':', '\\'] + a + "\\" + b;
    var segs := [[drive, ':'], a, b];
    DriveSegments(drive, a, b);
    var kept := DropLast(segs);
    assert kept == [[drive, ':'], a];
    assert Join(kept, '\\') == [drive, ':'] + ['\\'] + a by {
      assert kept[1..] == [a];
    }
    assert IsDrivePath(current);
    assert current[..2] == [drive, ':'];
  }

  lemma {:induction false} DriveSegments(drive: char, a: string, b: string)
    requires IsAsciiLetter(drive)
    requires a != "" && b != "" && NoSeparator(a) && NoSeparator(b)
    ensures LocalSegments([drive, ':', '\\'] + a + "\\" + b) == [[drive, ':'], a, b]
  {
    DriveNormalized(drive, a, b);
    DriveSplit(drive, a, b);
  }

  /** Reading `\` as `/` in a drive path with two segments. */
  lemma {:induction false} DriveNormalized(drive: char, a: string, b: string)
    requires IsAsciiLetter(drive)
    requires NoSeparator(a) && NoSeparator(b)
    ensures ReplaceAll([drive, ':', '\\'] + a + "\\" + b, '\\', '/') == [drive, ':', '/'] + a + "/" + b
  {
    var current := [drive, ':', '\\'] + a + "\\" + b;
    var normalized := ReplaceAll(current, '\\', '/');
    var expected := [drive, ':', '/'] + a + "/" + b;
    assert |normalized| == |expected|;
    forall i | 0 <= i < |current| ensures normalized[i] == expected[i] {
      if i < 3 {
      } else if i < 3 + |a| {
        assert current[i] == a[i - 3] && expected[i] == a[i - 3];
      } else if i == 3 + |a| {
      } else {
        assert current[i] == b[i - 4 - |a|] && expected[i] == b[i - 4 - |a|];
      }
    }
  }

  /** The non-empty `/`-pieces of the normalized drive path. */
  lemma {:induction false} DriveSplit(drive: char, a: string, b: string)
    requires IsAsciiLetter(drive)
    requires a != "" && b != "" && NoSeparator(a) && NoSeparator(b)
    ensures NonEmpty(Split([drive, ':', '/'] + a + "/" + b, '/')) == [[drive, ':'], a, b]
  {
    var pieces := [[drive, ':'], a, b];
    assert pieces[1..][1..] == [b];
    assert Join(pieces[1..], '/') == a + "/" + b;
    assert Join(pieces, '/') == [drive, ':'] + "/" + (a + "/" + b);
    assert [drive, ':', '/'] + a + "/" + b == [drive, ':'] + "/" + (a + "/" + b);
    SplitJoin(pieces, '/');
    assert pieces[1..] == [a, b];
    NonEmptyAll(pieces);
  }

  /** A rename whose answer differs from the old name only by surrounding
      blanks passes the unchanged-name test, yet targets the same path. */
  lemma RenameOntoItself(remotePath: string, oldName: string)
    requires oldName != "" && !IsWhiteSpace(oldName[0]) && !IsWhiteSpace(oldName[|oldName| - 1])
    ensures RenamePath(remotePath, oldName, Some(" " + oldName)) == Some(ChildPath(remotePath, oldName))
  {
    var input := " " + oldName;
    assert input[1..] == oldName;
    assert TrimStart(input) == oldName;
    assert input != oldName by { assert |input| != |oldName|; }
  }
}

=== FILE: sftp_sessions.dfy ===
/** The SFTP session manager: the session table, creation with per-server
    reuse, and the events that settle a new session's promise. Unlike the
    shell handler there is no settled flag: the 30-second timer, the client's
    `error` listener and the SFTP channel callback each act whenever they
    run, and only the promise itself ignores a second settlement. So a
    session the timer marked `error` can still become `ready` afterwards. */
module SftpSessions {
  import opened Wrappers
  import opened Servers
  import ServerStore
  import opened Registry
  import opened SessionAuth

  datatype SftpStatus = Connecting | Ready | Error | Closed

  type SftpSession = Session<SftpStatus>
  type SftpTable = Table<SftpStatus>

  /** The statuses the reuse scan accepts. */
  predicate Live(st: SftpStatus) {
    st == Ready || st == Connecting
  }

  /** The status as the source spells it in messages. */
  function StatusName(st: SftpStatus): string {
    match st
    case Connecting => "connecting"
    case Ready => "ready"
    case Error => "error"
    case Closed => "closed"
  }

  const READY_TIMEOUT_MS := 30000
  const CONNECTION_TIMEOUT := "Connection timeout"
  const CONNECT_FAILED := "Failed to connect"

  function NewSftpId(suffix: string): string {
    "sftp-" + suffix
  }

  datatype SftpError =
    | LookupFailed(cause: ServerStore.StoreError)
    | ServerNotFound(message: string)
    | AuthRefused(message: string)
    | ConnectFailed(message: string)      // `client.connect` threw
    | ConnectionLost(message: string)     // the timer, a client error or the channel request
    | SessionNotFound(message: string)
    | NotReady(message: string)
    | LocalFileNotFound(message: string)
    | RemoteFailed(message: string)       // an SFTP request reported an error

  /** `{ sessionId, initialRemotePath }` */
  datatype Opening = Opening(sessionId: string, initialRemotePath: string)

  datatype Outcome = Pending | Resolved(opening: Opening) | Rejected(error: SftpError)

  /** A promise settles once. */
  function Settle(o: Outcome, v: Outcome): (r: Outcome)
    ensures o.Pending? ==> r == v
    ensures !o.Pending? ==> r == o
  {
    if o.Pending? then v else o
  }

  /** The promise of the call that created session `sid`, and the callbacks
      it still waits for: the timer, the channel and the initial path. */
  datatype Attempt = Attempt(timerArmed: bool, channelPending: bool, pathPending: bool, outcome: Outcome)

  /** `ended`: the sessions whose client `closeSftpSession` ended. */
  datatype World = World(sessions: SftpTable, attempts: map<string, Attempt>, ended: seq<string>)

  /** The first of `realpath('~')` and `realpath('.')` that gives a non-empty
      path (`None` is an error), else `/`. */
  function InitialPath(home: Option<string>, cwd: Option<string>): (r: string)
    ensures Truthy(home) ==> r == home.value
    ensures !Truthy(home) && Truthy(cwd) ==> r == cwd.value
    ensures !Truthy(home) && !Truthy(cwd) ==> r == "/"
    ensures r != ""
  {
    if Truthy(home) then home.value
    else if Truthy(cwd) then cwd.value
    else "/"
  }

  /** The path a reused session reports: a ready one asks `realpath('~')`
      (`/` when that fails), a connecting one answers `~` at once. */
  function ReusedPath(s: SftpSession, home: Option<string>): (r: string)
    ensures s.status == Ready && s.hasChannel ==> r == InitialPath(home, None)
    ensures !(s.status == Ready && s.hasChannel) ==> r == "~"
  {
    if s.status == Ready && s.hasChannel then (if Truthy(home) then home.value else "/")
    else "~"
  }

  /** `session.status = 'error'; session.errorMessage = message` */
  function MarkError(t: SftpTable, id: string, message: string): (r: SftpTable)
    ensures Get(t, id).Some? ==> Get(r, id) == Some(Get(t, id).value.(status := Error, errorMessage := Some(message)))
    ensures forall x :: x != id ==> Get(r, x) == Get(t, x)
    ensures DistinctIds(t) ==> DistinctIds(r)
    ensures forall x :: Has(r, x) <==> Has(t, x)
  {
    var f := (s: SftpSession) => s.(status := Error, errorMessage := Some(message));
    var r := Modify(t, id, f);
    forall x ensures Get(r, x) == if x == id && Get(t, id).Some? then Some(f(Get(t, id).value)) else Get(t, x) {
      ModifyGet(t, id, f, x);
    }
    r
  }

  /** `session.sftp = sftp; session.status = 'ready'` */
  function MarkReady(t: SftpTable, id: string): (r: SftpTable)
    ensures Get(t, id).Some? ==> Get(r, id) == Some(Get(t, id).value.(status := Ready, hasChannel := true))
    ensures forall x :: x != id ==> Get(r, x) == Get(t, x)
    ensures DistinctIds(t) ==> DistinctIds(r)
  {
    var f := (s: SftpSession) => s.(status := Ready, hasChannel := true);
    var r := Modify(t, id, f);
    forall x ensures Get(r, x) == if x == id && Get(t, id).Some? then Some(f(Get(t, id).value)) else Get(t, x) {
      ModifyGet(t, id, f, x);
    }
    r
  }

  /** What `createSftpSession` answers at once: the reply of a reused
      session or a synchronous failure, or `Pending` when the caller waits
      on the new session's attempt. */
  datatype Created = Created(world: World, reply: Outcome)

  /** `createSftpSession(serverId)`. `lookup` is `getServer(serverId)`,
      `home` what `realpath('~')` gives a reused ready session. */
  function CreateSftpSession(w: World, serverId: string, lookup: Result<Option<Server>, ServerStore.StoreError>,
                             keyFile: KeyFile, connectThrows: Option<string>, home: Option<string>, suffix: string): (c: Created)
    requires DistinctIds(w.sessions) && !Has(w.sessions, NewSftpId(suffix)) && NewSftpId(suffix) !in w.attempts
    // reuse: the existing session answers, nothing is registered or dialled
    ensures FirstLive(w.sessions, serverId, Live).Some? ==>
              var id := FirstLive(w.sessions, serverId, Live).value;
              && c.world == w
              && c.reply == Resolved(Opening(id, ReusedPath(Get(w.sessions, id).value, home)))
    ensures DistinctIds(c.world.sessions)
    ensures forall x :: x != NewSftpId(suffix) ==> Get(c.world.sessions, x) == Get(w.sessions, x)
    ensures c.world.ended == w.ended
    ensures c.world.sessions != w.sessions ==> lookup.Success? && lookup.value.Some?
    // a new session is always registered before the credential check
    ensures FirstLive(w.sessions, serverId, Live).None? && lookup.Success? && lookup.value.Some? ==>
              && Get(c.world.sessions, NewSftpId(suffix)).Some?
              && Get(c.world.sessions, NewSftpId(suffix)).value.serverId == serverId
    // a dialled session waits on its timer; a refused one is left in error
    ensures c.reply.Pending? ==>
              && lookup.Success? && lookup.value.Some?
              && CheckAuth(lookup.value.value, keyFile).None? && connectThrows.None?
              && Get(c.world.sessions, NewSftpId(suffix)) == Some(Session(serverId, Connecting, false, None))
              && c.world.attempts == w.attempts[NewSftpId(suffix) := Attempt(true, false, false, Pending)]
    ensures c.reply.Rejected? && c.world.sessions != w.sessions ==>
              Get(c.world.sessions, NewSftpId(suffix)).value.status == Error
  {
    var t := w.sessions;
    match FirstLive(t, serverId, Live)
    case Some(id) =>
      var i :| 0 <= i < |t| && t[i].id == id && t[i].session.serverId == serverId && Live(t[i].session.status);
      assert Get(t, id) == Some(t[i].session);
      Created(w, Resolved(Opening(id, ReusedPath(Get(t, id).value, home))))
    case None =>
      match lookup
      case Failure(e) => Created(w, Rejected(LookupFailed(e)))
      case Success(None) => Created(w, Rejected(ServerNotFound(ServerStore.NotFoundMessage(serverId))))
      case Success(Some(server)) => Dial(w, serverId, server, keyFile, connectThrows, NewSftpId(suffix))
  }

  /** Registering the new session, checking the credentials, arming the timer
      and calling `client.connect`. */
  function Dial(w: World, serverId: string, server: Server, keyFile: KeyFile,
                connectThrows: Option<string>, id: string): (c: Created)
    requires DistinctIds(w.sessions) && !Has(w.sessions, id) && id !in w.attempts
    ensures DistinctIds(c.world.sessions)
    ensures forall x :: x != id ==> Get(c.world.sessions, x) == Get(w.sessions, x)
    ensures c.world.ended == w.ended
    ensures Get(c.world.sessions, id).Some? && Get(c.world.sessions, id).value.serverId == serverId
    ensures c.reply.Pending? <==> CheckAuth(server, keyFile).None? && connectThrows.None?
    ensures c.reply.Pending? ==>
              && Get(c.world.sessions, id) == Some(Session(serverId, Connecting, false, None))
              && c.world.attempts == w.attempts[id := Attempt(true, false, false, Pending)]
    ensures !c.reply.Pending? ==> c.reply.Rejected? && Get(c.world.sessions, id).value.status == Error
    ensures CheckAuth(server, keyFile).Some? ==> c.reply == Rejected(AuthRefused(CheckAuth(server, keyFile).value.thrown))
    ensures CheckAuth(server, keyFile).None? && connectThrows.Some? ==>
              && c.reply == Rejected(ConnectFailed(connectThrows.value))
              && Get(c.world.sessions, id).value.errorMessage == Some(MessageOr(connectThrows.value, CONNECT_FAILED))
              && c.world.attempts == w.attempts[id := Attempt(false, false, false, Rejected(ConnectFailed(connectThrows.value)))]
  {
    var t1 := Add(w.sessions, id, Session(serverId, Connecting, false, None));
    match CheckAuth(server, keyFile)
    case Some(failure) =>
      Created(w.(sessions := MarkError(t1, id, failure.recorded)), Rejected(AuthRefused(failure.thrown)))
    case None =>
      match connectThrows
      case Some(m) =>
        var rejected := Rejected(ConnectFailed(m));
        Created(w.(sessions := MarkError(t1, id, MessageOr(m, CONNECT_FAILED)),
                   attempts := w.attempts[id := Attempt(false, false, false, rejected)]), rejected)
      case None =>
        Created(w.(sessions := t1, attempts := w.attempts[id := Attempt(true, false, false, Pending)]), Pending)
  }

  /** The 30-second timer of session `sid`: it fires once, unless cleared. */
  function OnTimer(w: World, sid: string): (r: World)
    requires sid in w.attempts
    ensures !w.attempts[sid].timerArmed ==> r == w
    ensures w.attempts[sid].timerArmed ==>
              && r.sessions == MarkError(w.sessions, sid, CONNECTION_TIMEOUT)
              && r.attempts == w.attempts[sid := w.attempts[sid].(timerArmed := false,
                                 outcome := Settle(w.attempts[sid].outcome, Rejected(ConnectionLost(CONNECTION_TIMEOUT))))]
              && r.ended == w.ended
  {
    var a := w.attempts[sid];
    if !a.timerArmed then w
    else
      w.(sessions := MarkError(w.sessions, sid, CONNECTION_TIMEOUT),
         attempts := w.attempts[sid := a.(timerArmed := false, outcome := Settle(a.outcome, Rejected(ConnectionLost(CONNECTION_TIMEOUT))))])
  }

  /** The client of `sid` is ready: the SFTP channel is requested. Nothing
      checks whether the timer already fired. */
  function OnReady(w: World, sid: string): (r: World)
    ensures r.sessions == w.sessions && r.ended == w.ended
    ensures sid in w.attempts ==> r.attempts == w.attempts[sid := w.attempts[sid].(channelPending := true)]
    ensures sid !in w.attempts ==> r == w
  {
    if sid in w.attempts then w.(attempts := w.attempts[sid := w.attempts[sid].(channelPending := true)])
    else w
  }

  /** The channel callback of `sid`, with the error it reports: the timer is
      cleared either way; on success the session becomes ready and the
      initial path is looked up next. */
  function OnChannel(w: World, sid: string, err: Option<string>): (r: World)
    requires sid in w.attempts && w.attempts[sid].channelPending
    ensures sid in r.attempts && !r.attempts[sid].timerArmed && !r.attempts[sid].channelPending
    ensures r.ended == w.ended
    ensures forall x :: x in w.attempts && x != sid ==> x in r.attempts && r.attempts[x] == w.attempts[x]
    ensures err.None? ==>
              && r.sessions == MarkReady(w.sessions, sid)
              && r.attempts[sid].pathPending
              && r.attempts[sid].outcome == w.attempts[sid].outcome
    ensures err.Some? ==>
              && r.sessions == MarkError(w.sessions, sid, err.value)
              && r.attempts[sid].outcome == Settle(w.attempts[sid].outcome, Rejected(ConnectionLost(err.value)))
  {
    var a := w.attempts[sid].(timerArmed := false, channelPending := false);
    match err
    case Some(m) =>
      w.(sessions := MarkError(w.sessions, sid, m),
         attempts := w.attempts[sid := a.(outcome := Settle(a.outcome, Rejected(ConnectionLost(m))))])
    case None =>
      w.(sessions := MarkReady(w.sessions, sid), attempts := w.attempts[sid := a.(pathPending := true)])
  }

  /** The initial-path lookup of `sid` finished with what `realpath('~')` and
      (when that failed) `realpath('.')` gave: the promise resolves. */
  function OnInitialPath(w: World, sid: string, home: Option<string>, cwd: Option<string>): (r: World)
    requires sid in w.attempts && w.attempts[sid].pathPending
    ensures r.sessions == w.sessions && r.ended == w.ended
    ensures r.attempts == w.attempts[sid := w.attempts[sid].(pathPending := false,
                             outcome := Settle(w.attempts[sid].outcome, Resolved(Opening(sid, InitialPath(home, cwd)))))]
  {
    var a := w.attempts[sid];
    w.(attempts := w.attempts[sid := a.(pathPending := false, outcome := Settle(a.outcome, Resolved(Opening(sid, InitialPath(home, cwd)))))])
  }

  /** The client of `sid` reports an error: the timer is cleared, the raw
      message recorded, and the promise rejected if still pending. */
  function OnClientError(w: World, sid: string, message: string): (r: World)
    ensures r.sessions == MarkError(w.sessions, sid, message) && r.ended == w.ended
    ensures sid in w.attempts ==>
              r.attempts == w.attempts[sid := w.attempts[sid].(timerArmed := false,
                               outcome := Settle(w.attempts[sid].outcome, Rejected(ConnectionLost(message))))]
    ensures sid !in w.attempts ==> r.attempts == w.attempts
  {
    var t := MarkError(w.sessions, sid, message);
    if sid in w.attempts then
      var a := w.attempts[sid];
      w.(sessions := t, attempts := w.attempts[sid := a.(timerArmed := false, outcome := Settle(a.outcome, Rejected(ConnectionLost(message))))])
    else w.(sessions := t)
  }

  /** The client closed: the session is forgotten. */
  function OnClientClose(w: World, sid: string): (r: World)
    ensures !Has(r.sessions, sid)
    ensures DistinctIds(w.sessions) ==> DistinctIds(r.sessions) && forall x :: x != sid ==> Get(r.sessions, x) == Get(w.sessions, x)
    ensures r.attempts == w.attempts && r.ended == w.ended
  {
    w.(sessions := Remove(w.sessions, sid))
  }

  /** `closeSftpSession(sid)`: ends and forgets a registered session; an
      unknown id is a no-op. */
  function CloseSftpSession(w: World, sid: string): (r: World)
    ensures !Has(r.sessions, sid)
    ensures !Has(w.sessions, sid) ==> r == w
    ensures Has(w.sessions, sid) ==> r.ended == w.ended + [sid]
    ensures DistinctIds(w.sessions) ==> DistinctIds(r.sessions) && forall x :: x != sid ==> Get(r.sessions, x) == Get(w.sessions, x)
    ensures r.attempts == w.attempts
  {
    if Has(w.sessions, sid) then w.(sessions := Remove(w.sessions, sid), ended := w.ended + [sid])
    else w
  }

  datatype Event =
    | Open(serverId: string, lookup: Result<Option<Server>, ServerStore.StoreError>, keyFile: KeyFile,
           connectThrows: Option<string>, home: Option<string>, suffix: string)
    | Timer(sessionId: string)
    | ClientReady(sessionId: string)
    | Channel(sessionId: string, error: Option<string>)
    | PathFound(sessionId: string, home: Option<string>, cwd: Option<string>)
    | ClientError(sessionId: string, message: string)
    | ClientClose(sessionId: string)
    | CloseRequest(sessionId: string)

  /** The callbacks that can run in `w`. */
  predicate Enabled(w: World, e: Event) {
    match e
    case Open(_, _, _, _, _, suffix) => !Has(w.sessions, NewSftpId(suffix)) && NewSftpId(suffix) !in w.attempts
    case Timer(sid) => sid in w.attempts
    case Channel(sid, _) => sid in w.attempts && w.attempts[sid].channelPending
    case PathFound(sid, _, _) => sid in w.attempts && w.attempts[sid].pathPending
    case _ => true
  }

  function Step(w: World, e: Event): World
    requires DistinctIds(w.sessions) && Enabled(w, e)
  {
    match e
    case Open(serverId, lookup, keyFile, connectThrows, home, suffix) =>
      CreateSftpSession(w, serverId, lookup, keyFile, connectThrows, home, suffix).world
    case Timer(sid) => OnTimer(w, sid)
    case ClientReady(sid) => OnReady(w, sid)
    case Channel(sid, err) => OnChannel(w, sid, err)
    case PathFound(sid, home, cwd) => OnInitialPath(w, sid, home, cwd)
    case ClientError(sid, m) => OnClientError(w, sid, m)
    case ClientClose(sid) => OnClientClose(w, sid)
    case CloseRequest(sid) => CloseSftpSession(w, sid)
  }

  /** Every attempt resolves, if at all, to its own session. */
  predicate Valid(w: World) {
    && DistinctIds(w.sessions)
    && forall sid :: sid in w.attempts && w.attempts[sid].outcome.Resolved? ==>
         w.attempts[sid].outcome.opening.sessionId == sid
  }

  lemma {:induction false} StepKeepsValid(w: World, e: Event)
    requires Valid(w) && Enabled(w, e)
    ensures Valid(Step(w, e))
  {
    match e
    case Open(serverId, lookup, keyFile, connectThrows, home, suffix) =>
    case Timer(sid) =>
    case ClientReady(sid) =>
    case Channel(sid, err) =>
    case PathFound(sid, home, cwd) =>
    case ClientError(sid, m) =>
    case ClientClose(sid) =>
    case CloseRequest(sid) =>
  }

  /** Whatever happens, a settled promise keeps its outcome. */
  lemma {:induction false} OutcomeIsFinal(w: World, e: Event, sid: string)
    requires Valid(w) && Enabled(w, e)
    requires sid in w.attempts && !w.attempts[sid].outcome.Pending?
    ensures sid in Step(w, e).attempts
    ensures Step(w, e).attempts[sid].outcome == w.attempts[sid].outcome
  {
    match e
    case Open(serverId, lookup, keyFile, connectThrows, home, suffix) =>
      var c := CreateSftpSession(w, serverId, lookup, keyFile, connectThrows, home, suffix);
      if FirstLive(w.sessions, serverId, Live).None? && lookup.Success? && lookup.value.Some? {
        assert NewSftpId(suffix) != sid;
      }
    case Timer(x) =>
    case ClientReady(x) =>
    case Channel(x, err) =>
    case PathFound(x, home, cwd) =>
    case ClientError(x, m) =>
    case ClientClose(x) =>
    case CloseRequest(x) =>
  }

  /** The status is not monotone: when the timer fires before the server
      answers, the session is marked `error` and the caller is told
      "Connection timeout", yet the late `ready` and channel still make the
      session `ready`, while the caller's answer stays the timeout. */
  lemma ErrorThenReady(w: World, sid: string, home: Option<string>, cwd: Option<string>)
    requires Valid(w) && sid in w.attempts && w.attempts[sid] == Attempt(true, false, false, Pending)
    requires Get(w.sessions, sid).Some?
    ensures var w1 := OnTimer(w, sid);
            && Get(w1.sessions, sid).value.status == Error
            && w1.attempts[sid].outcome == Rejected(ConnectionLost(CONNECTION_TIMEOUT))
            && var w3 := OnChannel(OnReady(w1, sid), sid, None);
               && Get(w3.sessions, sid).value.status == Ready
               && Get(w3.sessions, sid).value.hasChannel
               && OnInitialPath(w3, sid, home, cwd).attempts[sid].outcome == Rejected(ConnectionLost(CONNECTION_TIMEOUT))
  {
  }

  /** A second call for a server whose session is still connecting is told
      the path `~` at once, before the session can serve any request. */
  lemma ReuseWhileConnecting(w: World, serverId: string, lookup: Result<Option<Server>, ServerStore.StoreError>,
                             keyFile: KeyFile, connectThrows: Option<string>, home: Option<string>, suffix: string, sid: string)
    requires DistinctIds(w.sessions) && !Has(w.sessions, NewSftpId(suffix)) && NewSftpId(suffix) !in w.attempts
    requires FirstLive(w.sessions, serverId, Live) == Some(sid)
    requires Get(w.sessions, sid).value.status == Connecting
    ensures CreateSftpSession(w, serverId, lookup, keyFile, connectThrows, home, suffix).reply == Resolved(Opening(sid, "~"))
  {
  }
}

=== FILE: shell_connect.dfy ===
/** The `ssh:createSession` handler of the main process and the events that
    settle it. Each call arms an attempt: a 45-second timer, a one-shot
    `ready` listener and a one-shot `error` listener that share one
    `timeoutCleared` flag, so whichever fires first settles the attempt and
    the others return at once. `ready` then asks the client for a shell, and
    the shell callback resolves or rejects the call. Status and data notices
    go to every window (see `Broadcast`); `ended` records the `client.end()`
    calls. Timers, the SSH client and the renderer are the environment: each
    of their callbacks is one `Event`. */
module ShellConnect {
  import opened Wrappers
  import opened Servers
  import ServerStore
  import opened Registry
  import opened SessionAuth
  import opened Seqs
  import opened ShellSessions

  const CONNECTION_TIMEOUT_MS := 45000
  /** The message the timer records; `45` is `CONNECTION_TIMEOUT_MS / 1000`. */
  const TIMEOUT_MESSAGE := "Connection timeout after 45 seconds. Please check:\n- Server is reachable\n- Port is correct\n- Firewall settings\n- Network connection"
  const CONNECTION_FAILED := "Connection failed"
  const SHELL_FAILED := "Failed to create shell: "

  /** The state of the promise the handler returns. */
  datatype Outcome = Pending | Resolved(sessionId: string) | Rejected(message: string)

  /** One `ssh:createSession` call waiting on its session. `shellPending`: the
      `client.shell` callback has been requested and has not run yet. */
  datatype Attempt = Attempt(sessionId: string, timeoutCleared: bool, shellPending: bool, outcome: Outcome)

  /** `ssh:status` and `ssh:data` messages, in the order they were sent. */
  datatype Notice =
    | StatusNotice(sessionId: string, status: ShellStatus, errorMessage: Option<string>)
    | DataNotice(sessionId: string, data: string)

  /** `readied`: the sessions whose client has emitted `ready`. An SSH client
      emits it once, after authentication, so it never reaches a listener
      registered later. */
  datatype World = World(sessions: ShellTable, attempts: seq<Attempt>, notices: seq<Notice>, ended: seq<string>,
                         readied: set<string>)

  /** A promise settles once: later resolutions and rejections are ignored. */
  function Settle(o: Outcome, v: Outcome): (r: Outcome)
    ensures o.Pending? ==> r == v
    ensures !o.Pending? ==> r == o
  {
    if o.Pending? then v else o
  }

  /** What holds of every attempt between events: it is settled only once the
      flag is set, a shell is requested only after `ready` set the flag and
      before anything settled it, and it resolves to its own session. */
  predicate AttemptOk(a: Attempt) {
    && (a.shellPending ==> a.timeoutCleared && a.outcome.Pending?)
    && (!a.timeoutCleared ==> a.outcome.Pending?)
    && (a.outcome.Resolved? ==> a.outcome.sessionId == a.sessionId)
  }

  /** Only `ready` and the shell that follows it make a session connected,
      and only `ready` asks for a shell. */
  predicate ReadyRecorded(w: World) {
    && (forall i :: 0 <= i < |w.sessions| && w.sessions[i].session.status == Connected ==> w.sessions[i].id in w.readied)
    && (forall k :: 0 <= k < |w.attempts| && w.attempts[k].shellPending ==> w.attempts[k].sessionId in w.readied)
  }

  predicate Valid(w: World) {
    && DistinctIds(w.sessions)
    && (forall k :: 0 <= k < |w.attempts| ==> AttemptOk(w.attempts[k]))
    && ReadyRecorded(w)
  }

  datatype OpenError = CreateRejected(cause: ShellError)

  datatype Opened = Opened(world: World, reply: Result<nat, OpenError>)

  /** The handler up to the promise: `createSession`, then `getSession`, then
      one new attempt. A synchronous failure is the reply; otherwise the reply
      is the index of the attempt whose outcome the caller awaits. */
  function OnOpen(w: World, serverId: string, lookup: Result<Option<Server>, ServerStore.StoreError>,
                  keyFile: KeyFile, connectThrows: Option<string>, suffix: string): (o: Opened)
    requires DistinctIds(w.sessions) && !Has(w.sessions, NewSessionId(suffix))
    ensures o.world.sessions == CreateSession(w.sessions, serverId, lookup, keyFile, connectThrows, suffix).table
    ensures o.world.notices == w.notices && o.world.ended == w.ended && o.world.readied == w.readied
    ensures o.reply.Failure? <==> CreateSession(w.sessions, serverId, lookup, keyFile, connectThrows, suffix).result.Failure?
    ensures o.reply.Failure? ==>
              && o.world.attempts == w.attempts
              && o.reply.error == CreateRejected(CreateSession(w.sessions, serverId, lookup, keyFile, connectThrows, suffix).result.error)
    ensures o.reply.Success? ==>
              && o.reply.value == |w.attempts|
              && CreateSession(w.sessions, serverId, lookup, keyFile, connectThrows, suffix).result.Success?
              && o.world.attempts == w.attempts + [Attempt(CreateSession(w.sessions, serverId, lookup, keyFile, connectThrows, suffix).result.value, false, false, Pending)]
    // the session the new attempt awaits is registered, so the `!session` check never fires
    ensures o.reply.Success? ==> Get(o.world.sessions, o.world.attempts[o.reply.value].sessionId).Some?
  {
    var c := CreateSession(w.sessions, serverId, lookup, keyFile, connectThrows, suffix);
    match c.result
    case Failure(e) => Opened(w.(sessions := c.table), Failure(CreateRejected(e)))
    case Success(id) =>
      Opened(w.(sessions := c.table, attempts := w.attempts + [Attempt(id, false, false, Pending)]), Success(|w.attempts|))
  }

  /** The 45-second timer of attempt `k`. */
  function OnTimeout(w: World, k: nat): (r: World)
    requires k < |w.attempts|
    ensures w.attempts[k].timeoutCleared ==> r == w
    ensures !w.attempts[k].timeoutCleared ==>
              && |r.attempts| == |w.attempts|
              && r.attempts[k].timeoutCleared && !r.attempts[k].shellPending
              && (AttemptOk(w.attempts[k]) ==> r.attempts[k].outcome == Rejected(TIMEOUT_MESSAGE))
              && (forall j :: 0 <= j < |w.attempts| && j != k ==> r.attempts[j] == w.attempts[j])
              && r.notices == w.notices + [StatusNotice(w.attempts[k].sessionId, Error, Some(TIMEOUT_MESSAGE))]
              && r.ended == w.ended + [w.attempts[k].sessionId]
              && r.sessions == MarkError(w.sessions, w.attempts[k].sessionId, TIMEOUT_MESSAGE)
  {
    var a := w.attempts[k];
    if a.timeoutCleared then w
    else
      w.(sessions := MarkError(w.sessions, a.sessionId, TIMEOUT_MESSAGE),
         attempts := w.attempts[k := a.(timeoutCleared := true, shellPending := false,
                                        outcome := Settle(a.outcome, Rejected(TIMEOUT_MESSAGE)))],
         notices := w.notices + [StatusNotice(a.sessionId, Error, Some(TIMEOUT_MESSAGE))],
         ended := w.ended + [a.sessionId])
  }

  /** The attempts a `ready` or `error` of the client of `sid` still reaches. */
  predicate Waiting(a: Attempt, sid: string) {
    a.sessionId == sid && !a.timeoutCleared
  }

  /** The client of `sid` is ready: the manager marks the session connected,
      then every attempt still waiting on it clears its timer and asks for a
      shell. */
  function OnReady(w: World, sid: string): (r: World)
    ensures r.sessions == OnClientReady(w.sessions, sid)
    ensures r.notices == w.notices && r.ended == w.ended
    ensures r.readied == w.readied + {sid}
    ensures |r.attempts| == |w.attempts|
    ensures forall j :: 0 <= j < |w.attempts| ==>
              r.attempts[j] == if Waiting(w.attempts[j], sid)
                               then w.attempts[j].(timeoutCleared := true, shellPending := true)
                               else w.attempts[j]
  {
    w.(sessions := OnClientReady(w.sessions, sid),
       readied := w.readied + {sid},
       attempts := seq(|w.attempts|, j requires 0 <= j < |w.attempts| =>
                         if Waiting(w.attempts[j], sid)
                         then w.attempts[j].(timeoutCleared := true, shellPending := true)
                         else w.attempts[j]))
  }

  /** The client of `sid` reports an error: the manager records the raw
      message, then every attempt still waiting on it clears its timer,
      records `message || 'Connection failed'`, sends one error notice and
      rejects. Nothing ends the client. */
  function OnError(w: World, sid: string, message: string): (r: World)
    ensures r.ended == w.ended
    ensures |r.attempts| == |w.attempts|
    ensures forall j :: 0 <= j < |w.attempts| ==>
              r.attempts[j] == if Waiting(w.attempts[j], sid)
                               then w.attempts[j].(timeoutCleared := true,
                                                   outcome := Settle(w.attempts[j].outcome, Rejected(MessageOr(message, CONNECTION_FAILED))))
                               else w.attempts[j]
    ensures |r.notices| == |w.notices| + |Filter(w.attempts, (a: Attempt) => Waiting(a, sid))|
    ensures r.notices[..|w.notices|] == w.notices
    ensures forall j :: |w.notices| <= j < |r.notices| ==>
              r.notices[j] == StatusNotice(sid, Error, Some(MessageOr(message, CONNECTION_FAILED)))
  {
    var msg := MessageOr(message, CONNECTION_FAILED);
    var t1 := OnClientError(w.sessions, sid, message);
    var reached := |Filter(w.attempts, (a: Attempt) => Waiting(a, sid))|;
    w.(sessions := if reached > 0 then MarkError(t1, sid, msg) else t1,
       attempts := seq(|w.attempts|, j requires 0 <= j < |w.attempts| =>
                         if Waiting(w.attempts[j], sid)
                         then w.attempts[j].(timeoutCleared := true, outcome := Settle(w.attempts[j].outcome, Rejected(msg)))
                         else w.attempts[j]),
       notices := w.notices + seq(reached, _ => StatusNotice(sid, Error, Some(msg))))
  }

  /** `session.stream = stream; session.status = 'connected'` */
  function Attach(t: ShellTable, sid: string): (r: ShellTable)
    ensures Get(t, sid).Some? ==> Get(r, sid) == Some(Get(t, sid).value.(status := Connected, hasChannel := true))
    ensures forall x :: x != sid ==> Get(r, x) == Get(t, x)
    ensures DistinctIds(t) ==> DistinctIds(r)
  {
    var f := (s: ShellSession) => s.(status := Connected, hasChannel := true);
    var r := Modify(t, sid, f);
    forall x ensures Get(r, x) == if x == sid && Get(t, sid).Some? then Some(f(Get(t, sid).value)) else Get(t, x) {
      ModifyGet(t, sid, f, x);
    }
    r
  }

  /** The `client.shell` callback of attempt `k`, with the error it reports. */
  function OnShell(w: World, k: nat, err: Option<string>): (r: World)
    requires k < |w.attempts|
    ensures !w.attempts[k].shellPending ==> r == w
    ensures w.attempts[k].shellPending ==>
              && |r.attempts| == |w.attempts|
              && !r.attempts[k].shellPending
              && (forall j :: 0 <= j < |w.attempts| && j != k ==> r.attempts[j] == w.attempts[j])
    ensures w.attempts[k].shellPending && AttemptOk(w.attempts[k]) && err.None? ==>
              && r.attempts[k].outcome == Resolved(w.attempts[k].sessionId)
              && r.notices == w.notices + [StatusNotice(w.attempts[k].sessionId, Connected, None)]
              && r.ended == w.ended
              && r.sessions == Attach(w.sessions, w.attempts[k].sessionId)
    ensures w.attempts[k].shellPending && AttemptOk(w.attempts[k]) && err.Some? ==>
              && r.attempts[k].outcome == Rejected(SHELL_FAILED + err.value)
              && r.notices == w.notices + [StatusNotice(w.attempts[k].sessionId, Error, Some(SHELL_FAILED + err.value))]
              && r.ended == w.ended + [w.attempts[k].sessionId]
              && r.sessions == MarkError(w.sessions, w.attempts[k].sessionId, SHELL_FAILED + err.value)
  {
    var a := w.attempts[k];
    if !a.shellPending then w
    else
      var sid := a.sessionId;
      match err
      case Some(e) =>
        var msg := SHELL_FAILED + e;
        w.(sessions := MarkError(w.sessions, sid, msg),
           attempts := w.attempts[k := a.(shellPending := false, outcome := Settle(a.outcome, Rejected(msg)))],
           notices := w.notices + [StatusNotice(sid, Error, Some(msg))],
           ended := w.ended + [sid])
      case None =>
        w.(sessions := Attach(w.sessions, sid),
           attempts := w.attempts[k := a.(shellPending := false, outcome := Settle(a.outcome, Resolved(sid)))],
           notices := w.notices + [StatusNotice(sid, Connected, None)])
  }

  /** A chunk on the shell stream's stdout or stderr is forwarded as is. */
  function OnData(w: World, sid: string, chunk: string): (r: World)
    ensures r.notices == w.notices + [DataNotice(sid, chunk)]
    ensures r.sessions == w.sessions && r.attempts == w.attempts && r.ended == w.ended
  {
    w.(notices := w.notices + [DataNotice(sid, chunk)])
  }

  /** The shell stream closed: the `closed` notice is sent even when the
      session is already gone, then `closeSession` ends and forgets it. */
  function OnStreamClose(w: World, sid: string): (r: World)
    ensures r.notices == w.notices + [StatusNotice(sid, Closed, None)]
    ensures !Has(r.sessions, sid)
    ensures DistinctIds(w.sessions) ==> DistinctIds(r.sessions) && forall x :: x != sid ==> Get(r.sessions, x) == Get(w.sessions, x)
    ensures r.ended == if Has(w.sessions, sid) then w.ended + [sid] else w.ended
    ensures r.attempts == w.attempts
  {
    var t1 := Modify(w.sessions, sid, (s: ShellSession) => s.(status := Closed));
    forall x ensures Get(t1, x) == if x == sid && Get(w.sessions, sid).Some? then Some(Get(w.sessions, sid).value.(status := Closed)) else Get(w.sessions, x) {
      ModifyGet(w.sessions, sid, (s: ShellSession) => s.(status := Closed), x);
    }
    var closed := CloseSession(t1, sid);
    w.(sessions := closed.0,
       notices := w.notices + [StatusNotice(sid, Closed, None)],
       ended := if closed.1 then w.ended + [sid] else w.ended)
  }

  /** The client closed: the manager forgets the session. */
  function OnClose(w: World, sid: string): (r: World)
    ensures r == w.(sessions := OnClientClose(w.sessions, sid))
    ensures !Has(r.sessions, sid)
  {
    w.(sessions := OnClientClose(w.sessions, sid))
  }

  /** `ssh:write`: the manager's error is passed on to the caller. */
  function HandleWrite(w: World, sid: string, data: string): (r: Result<string, ShellError>)
    ensures r.Success? <==> Get(w.sessions, sid).Some? && Get(w.sessions, sid).value.status == Connected
                            && Get(w.sessions, sid).value.hasChannel
    ensures r.Success? ==> r.value == data
  {
    WriteToSession(w.sessions, sid, data)
  }

  /** `ssh:resize`: a missing session is logged, never reported. */
  function HandleResize(w: World, sid: string, cols: int, rows: int): (r: Option<Window>)
    ensures r.Some? <==> HandleWrite(w, sid, "").Success?
    ensures r.Some? ==> r.value == Window(rows, cols)
  {
    match ResizeSession(w.sessions, sid, cols, rows)
    case Success(win) => win
    case Failure(_) => None
  }

  /** `ssh:close`: always succeeds. */
  function HandleClose(w: World, sid: string): (r: World)
    ensures !Has(r.sessions, sid)
    ensures r.ended == if Has(w.sessions, sid) then w.ended + [sid] else w.ended
    ensures r.notices == w.notices && r.attempts == w.attempts
  {
    var closed := CloseSession(w.sessions, sid);
    w.(sessions := closed.0, ended := if closed.1 then w.ended + [sid] else w.ended)
  }

  datatype Event =
    | Open(serverId: string, lookup: Result<Option<Server>, ServerStore.StoreError>,
           keyFile: KeyFile, connectThrows: Option<string>, suffix: string)
    | Timeout(attempt: nat)
    | Ready(sessionId: string)
    | ClientError(sessionId: string, message: string)
    | ShellOpened(attempt: nat, error: Option<string>)
    | Data(sessionId: string, chunk: string)
    | StreamClose(sessionId: string)
    | ClientClose(sessionId: string)
    | CloseRequest(sessionId: string)

  /** The events that can happen in `w`: a new session id is fresh, a
      client emits `ready` at most once, and a timer or shell callback
      belongs to an existing attempt. */
  predicate Enabled(w: World, e: Event) {
    match e
    case Open(_, _, _, _, suffix) => !Has(w.sessions, NewSessionId(suffix)) && NewSessionId(suffix) !in w.readied
    case Ready(sid) => sid !in w.readied
    case Timeout(k) => k < |w.attempts|
    case ShellOpened(k, _) => k < |w.attempts|
    case _ => true
  }

  function Step(w: World, e: Event): World
    requires DistinctIds(w.sessions) && Enabled(w, e)
  {
    match e
    case Open(serverId, lookup, keyFile, connectThrows, suffix) => OnOpen(w, serverId, lookup, keyFile, connectThrows, suffix).world
    case Timeout(k) => OnTimeout(w, k)
    case Ready(sid) => OnReady(w, sid)
    case ClientError(sid, m) => OnError(w, sid, m)
    case ShellOpened(k, err) => OnShell(w, k, err)
    case Data(sid, chunk) => OnData(w, sid, chunk)
    case StreamClose(sid) => OnStreamClose(w, sid)
    case ClientClose(sid) => OnClose(w, sid)
    case CloseRequest(sid) => HandleClose(w, sid)
  }

  /** `ReadyRecorded` read through lookups instead of table positions. */
  ghost predicate ConnectedRecorded(w: World) {
    forall x :: Get(w.sessions, x).Some? && Get(w.sessions, x).value.status == Connected ==> x in w.readied
  }

  lemma {:induction false} RecordedByPosition(w: World)
    requires DistinctIds(w.sessions) && ReadyRecorded(w)
    ensures ConnectedRecorded(w)
  {
    forall x | Get(w.sessions, x).Some? && Get(w.sessions, x).value.status == Connected
      ensures x in w.readied
    {
      var i :| 0 <= i < |w.sessions| && w.sessions[i] == Entry(x, Get(w.sessions, x).value);
    }
  }

  lemma {:induction false} RecordedByLookup(w: World)
    requires DistinctIds(w.sessions) && ConnectedRecorded(w)
    ensures forall i :: 0 <= i < |w.sessions| && w.sessions[i].session.status == Connected ==> w.sessions[i].id in w.readied
  {
    forall i | 0 <= i < |w.sessions| && w.sessions[i].session.status == Connected
      ensures w.sessions[i].id in w.readied
    {
      assert Get(w.sessions, w.sessions[i].id) == Some(w.sessions[i].session);
    }
  }

  /** An event that changes at most the session `changed`, and leaves it
      connected only once its `ready` is recorded, keeps `ConnectedRecorded`. */
  lemma {:induction false} RecordedAfter(w: World, r: World, changed: string)
    requires ConnectedRecorded(w) && w.readied <= r.readied
    requires forall x :: x != changed ==> Get(r.sessions, x) == Get(w.sessions, x)
    requires Get(r.sessions, changed).Some? && Get(r.sessions, changed).value.status == Connected ==> changed in r.readied
    ensures ConnectedRecorded(r)
  {
    forall x | Get(r.sessions, x).Some? && Get(r.sessions, x).value.status == Connected
      ensures x in r.readied
    {
      if x != changed {
        assert Get(r.sessions, x) == Get(w.sessions, x);
      }
    }
  }

  /** Only `ready` (and the shell it asks for) makes a session connected. */
  lemma {:induction false} StepKeepsConnectedRecorded(w: World, e: Event)
    requires Valid(w) && Enabled(w, e)
    ensures ConnectedRecorded(Step(w, e))
  {
    RecordedByPosition(w);
    var r := Step(w, e);
    match e
    case Open(serverId, lookup, keyFile, connectThrows, suffix) =>
      var c := CreateSession(w.sessions, serverId, lookup, keyFile, connectThrows, suffix);
      var id := NewSessionId(suffix);
      assert r.sessions == c.table && r.readied == w.readied;
      assert Get(c.table, id).Some? ==> Get(c.table, id).value.status != Connected by {
        if c.table == w.sessions {
          assert Get(w.sessions, id).None?;
        }
      }
      RecordedAfter(w, r, id);
    case Timeout(k) =>
      RecordedAfter(w, r, w.attempts[k].sessionId);
    case Ready(sid) =>
      RecordedAfter(w, r, sid);
    case ClientError(sid, m) =>
      var t1 := OnClientError(w.sessions, sid, m);
      assert r.sessions == t1 || r.sessions == MarkError(t1, sid, MessageOr(m, CONNECTION_FAILED));
      RecordedAfter(w, r, sid);
    case ShellOpened(k, err) =>
      var sid := w.attempts[k].sessionId;
      if w.attempts[k].shellPending {
        assert sid in w.readied;
      }
      RecordedAfter(w, r, sid);
    case Data(sid, chunk) =>
      RecordedAfter(w, r, sid);
    case StreamClose(sid) =>
      RecordedAfter(w, r, sid);
    case ClientClose(sid) =>
      RecordedAfter(w, r, sid);
    case CloseRequest(sid) =>
      RecordedAfter(w, r, sid);
  }

  /** Every event keeps the session table and every attempt well formed. */
  lemma {:induction false} StepKeepsValid(w: World, e: Event)
    requires Valid(w) && Enabled(w, e)
    ensures Valid(Step(w, e))
  {
    var r := Step(w, e);
    StepKeepsConnectedRecorded(w, e);
    match e {
    case Open(serverId, lookup, keyFile, connectThrows, suffix) =>
      var c := CreateSession(w.sessions, serverId, lookup, keyFile, connectThrows, suffix);
      assert forall k :: 0 <= k < |r.attempts| ==> AttemptOk(r.attempts[k]) && (r.attempts[k].shellPending ==> r.attempts[k].sessionId in r.readied) by {
        forall k | 0 <= k < |r.attempts| ensures AttemptOk(r.attempts[k]) && (r.attempts[k].shellPending ==> r.attempts[k].sessionId in r.readied) {
          if k >= |w.attempts| {
            assert r.attempts[k] == Attempt(c.result.value, false, false, Pending);
          } else {
            assert r.attempts[k] == w.attempts[k];
          }
        }
      }
    case Timeout(k) =>
    case Ready(sid) =>
    case ClientError(sid, m) =>
      assert DistinctIds(OnClientError(w.sessions, sid, m));
    case ShellOpened(k, err) =>
      if w.attempts[k].shellPending && err.None? {
        assert DistinctIds(Attach(w.sessions, w.attempts[k].sessionId));
      }
    case Data(sid, chunk) =>
    case StreamClose(sid) =>
    case ClientClose(sid) =>
    case CloseRequest(sid) =>
    }
    RecordedByLookup(r);
  }

  /** A settled attempt stays settled with the same outcome, whatever happens
      next: the call's reply is decided once. */
  lemma {:induction false} OutcomeIsFinal(w: World, e: Event, k: nat)
    requires Valid(w) && Enabled(w, e)
    requires k < |w.attempts| && !w.attempts[k].outcome.Pending?
    ensures k < |Step(w, e).attempts|
    ensures Step(w, e).attempts[k].outcome == w.attempts[k].outcome
    ensures Step(w, e).attempts[k].sessionId == w.attempts[k].sessionId
    ensures Step(w, e).attempts[k].timeoutCleared
  {
    assert AttemptOk(w.attempts[k]);
    match e
    case Open(serverId, lookup, keyFile, connectThrows, suffix) =>
      var o := OnOpen(w, serverId, lookup, keyFile, connectThrows, suffix);
      if o.reply.Success? {
        assert o.world.attempts[k] == w.attempts[k];
      }
    case Timeout(j) =>
    case Ready(sid) =>
    case ClientError(sid, m) =>
    case ShellOpened(j, err) =>
    case Data(sid, chunk) =>
    case StreamClose(sid) =>
    case ClientClose(sid) =>
    case CloseRequest(sid) =>
  }

  /** Once the shared flag is set, the timer, `ready` and `error` find it set
      and return: the attempt is untouched and the timer sends nothing and
      ends nothing. */
  lemma LateEventsIgnored(w: World, k: nat, sid: string, message: string)
    requires k < |w.attempts| && w.attempts[k].timeoutCleared
    ensures OnTimeout(w, k) == w
    ensures OnReady(w, sid).attempts[k] == w.attempts[k]
    ensures OnError(w, sid, message).attempts[k] == w.attempts[k]
  {
  }

  /** The first of timer, `ready` and `error` wins: after the timer fired, a
      late `ready` asks for no shell and a late `error` sends no notice. */
  lemma TimeoutThenLateReadyOrError(w: World, k: nat, message: string)
    requires Valid(w) && k < |w.attempts| && !w.attempts[k].timeoutCleared
    requires forall j :: 0 <= j < |w.attempts| && j != k ==> w.attempts[j].sessionId != w.attempts[k].sessionId
    ensures OnTimeout(w, k).attempts[k].outcome == Rejected(TIMEOUT_MESSAGE)
    ensures !OnReady(OnTimeout(w, k), w.attempts[k].sessionId).attempts[k].shellPending
    ensures OnError(OnTimeout(w, k), w.attempts[k].sessionId, message).notices == OnTimeout(w, k).notices
  {
    var sid := w.attempts[k].sessionId;
    var w1 := OnTimeout(w, k);
    assert AttemptOk(w.attempts[k]);
    assert forall j :: 0 <= j < |w1.attempts| ==> !Waiting(w1.attempts[j], sid);
    FilterNone(w1.attempts, (a: Attempt) => Waiting(a, sid));
  }

  /** A connection that succeeds: open, `ready`, then a shell. The call
      resolves to the new session, one `connected` notice is sent, writes
      reach the stream, and the timer firing afterwards changes nothing. */
  lemma ConnectThenShell(w: World, serverId: string, server: Server, keyFile: KeyFile, suffix: string, data: string)
    requires Valid(w) && !Has(w.sessions, NewSessionId(suffix))
    requires FirstLive(w.sessions, serverId, Live).None?
    requires CheckAuth(server, keyFile).None?
    ensures var o := OnOpen(w, serverId, Success(Some(server)), keyFile, None, suffix);
            var sid := NewSessionId(suffix);
            var k := |w.attempts|;
            && o.reply == Success(k)
            && var w3 := OnShell(OnReady(o.world, sid), k, None);
               && w3.attempts[k].outcome == Resolved(sid)
               && w3.notices == w.notices + [StatusNotice(sid, Connected, None)]
               && HandleWrite(w3, sid, data) == Success(data)
               && OnTimeout(w3, k) == w3
  {
    var o := OnOpen(w, serverId, Success(Some(server)), keyFile, None, suffix);
    var sid := NewSessionId(suffix);
    var k := |w.attempts|;
    var c := CreateSession(w.sessions, serverId, Success(Some(server)), keyFile, None, suffix);
    assert c.table != w.sessions by {
      assert |c.table| == |w.sessions| + 1;
    }
    assert o.world.attempts[k] == Attempt(sid, false, false, Pending);
    var w2 := OnReady(o.world, sid);
    assert w2.attempts[k] == Attempt(sid, true, true, Pending);
    assert Get(w2.sessions, sid) == Some(Session(serverId, Connected, false, None));
    var w3 := OnShell(w2, k, None);
    assert Get(w3.sessions, sid) == Some(Session(serverId, Connected, true, None));
  }

  /** A client's `ready` is emitted once: once recorded, no later event lets
      it fire again. */
  lemma ReadyFiresOnce(w: World, e: Event, sid: string)
    requires DistinctIds(w.sessions) && Enabled(w, e)
    requires sid in w.readied
    ensures sid in Step(w, e).readied
    ensures !Enabled(Step(w, e), Ready(sid))
  {
  }

  /** Reopening a server whose shell is working hands back the same session
      but arms a new timer whose `ready` will never come: the client already
      emitted it, so no enabled `ready` reaches the new attempt (and by
      `ReadyFiresOnce` none ever will). 45 seconds later the timer marks the
      working session failed, sends an error notice, ends its client and
      rejects the second call. */
  lemma ReopenTimesOutWorkingSession(w: World, serverId: string, lookup: Result<Option<Server>, ServerStore.StoreError>,
                                     keyFile: KeyFile, connectThrows: Option<string>, suffix: string, sid: string)
    requires Valid(w) && !Has(w.sessions, NewSessionId(suffix))
    requires FirstLive(w.sessions, serverId, Live) == Some(sid)
    requires Get(w.sessions, sid).Some? && Get(w.sessions, sid).value.status == Connected && Get(w.sessions, sid).value.hasChannel
    ensures var o := OnOpen(w, serverId, lookup, keyFile, connectThrows, suffix);
            && o.reply == Success(|w.attempts|)
            && o.world.sessions == w.sessions
            && Waiting(o.world.attempts[|w.attempts|], sid)
            && !Enabled(o.world, Ready(sid))
            && (forall x :: Enabled(o.world, Ready(x)) ==>
                  Waiting(Step(o.world, Ready(x)).attempts[|w.attempts|], sid))
            && var w2 := OnTimeout(o.world, |w.attempts|);
               && Get(w2.sessions, sid).value.status == Error
               && w2.ended == w.ended + [sid]
               && w2.attempts[|w.attempts|].outcome == Rejected(TIMEOUT_MESSAGE)
               && HandleWrite(w2, sid, "") == Failure(NotConnected("Session " + sid + " is not connected"))
  {
    var o := OnOpen(w, serverId, lookup, keyFile, connectThrows, suffix);
    assert o.world.attempts[|w.attempts|] == Attempt(sid, false, false, Pending);
  }

  /** The stream of a session that was already forgotten still reports
      `closed` to every window; nothing else changes. */
  lemma StreamCloseAfterRemovalStillNotifies(w: World, sid: string)
    requires !Has(w.sessions, sid)
    ensures OnStreamClose(w, sid) == w.(notices := w.notices + [StatusNotice(sid, Closed, None)])
  {
    var t1 := Modify(w.sessions, sid, (s: ShellSession) => s.(status := Closed));
    assert t1 == w.sessions by {
      assert forall i :: 0 <= i < |t1| ==> t1[i] == w.sessions[i];
    }
  }
}

=== FILE: shell_sessions.dfy ===
/** The shell session manager: a table of SSH sessions keyed by session id,
    creation with per-server reuse, and the write, resize and close
    operations. The SSH client is not modelled; its outcomes (the server
    lookup, the key file, a throwing `connect`) are parameters, and its
    events are the `On…` functions. */
module ShellSessions {
  import opened Wrappers
  import opened Servers
  import ServerStore
  import opened Registry
  import opened SessionAuth

  datatype ShellStatus = Connecting | Connected | Error | Closed

  type ShellSession = Session<ShellStatus>
  type ShellTable = Table<ShellStatus>

  /** The statuses the reuse scan accepts. */
  predicate Live(st: ShellStatus) {
    st == Connecting || st == Connected
  }

  const CONNECT_FAILED := "Failed to connect"

  /** Fresh ids are `session-<time>-<random>`; the suffix after the prefix is
      a parameter. */
  function NewSessionId(suffix: string): string {
    "session-" + suffix
  }

  datatype ShellError =
    | LookupFailed(cause: ServerStore.StoreError)  // reading the store threw
    | ServerNotFound(message: string)
    | AuthRefused(message: string)
    | ConnectFailed(message: string)              // `client.connect` threw
    | SessionNotFound(message: string)
    | NotConnected(message: string)

  /** The table after `createSession`, and its result or error. */
  datatype Created = Created(table: ShellTable, result: Result<string, ShellError>)

  /** The new session is registered, in the error state, with a message. */
  predicate FailedEntry(t: ShellTable, id: string, serverId: string) {
    && Get(t, id).Some?
    && Get(t, id).value.serverId == serverId
    && Get(t, id).value.status == Error
    && !Get(t, id).value.hasChannel
    && Get(t, id).value.errorMessage.Some?
    && Get(t, id).value.errorMessage.value != ""
  }

  /** `createSession(serverId)`. `lookup` is what `getServer(serverId)` gives
      (`ServerStore.GetServer`), `keyFile` what the file system says about the
      key file, `connectThrows` the message of an error `client.connect`
      throws, and `suffix` the fresh part of the new id. */
  function CreateSession(t: ShellTable, serverId: string, lookup: Result<Option<Server>, ServerStore.StoreError>,
                         keyFile: KeyFile, connectThrows: Option<string>, suffix: string): (c: Created)
    requires DistinctIds(t) && !Has(t, NewSessionId(suffix))
    // a live session for the server is reused: nothing is registered or dialled
    ensures FirstLive(t, serverId, Live).Some? ==> c == Created(t, Success(FirstLive(t, serverId, Live).value))
    // at most the new id changes
    ensures forall x :: x != NewSessionId(suffix) ==> Get(c.table, x) == Get(t, x)
    ensures DistinctIds(c.table)
    // success names a live session of this server
    ensures c.result.Success? ==>
              && Get(c.table, c.result.value).Some?
              && Get(c.table, c.result.value).value.serverId == serverId
              && Live(Get(c.table, c.result.value).value.status)
    // a session is registered only for a server the store has
    ensures c.table != t ==> lookup.Success? && lookup.value.Some? && FirstLive(t, serverId, Live).None?
    // a new session that is returned passed the credential check and was dialled
    ensures c.table != t && c.result.Success? ==>
              && CheckAuth(lookup.value.value, keyFile).None? && connectThrows.None?
              && c.result.value == NewSessionId(suffix)
              && Get(c.table, c.result.value) == Some(Session(serverId, Connecting, false, None))
    // a refused or failed dial leaves the new session behind in the error state
    ensures c.table != t && c.result.Failure? ==> FailedEntry(c.table, NewSessionId(suffix), serverId)
    ensures c.table == t && c.result.Failure? ==>
              || (lookup.Failure? && c.result.error == LookupFailed(lookup.error))
              || (lookup == Success(None) && c.result.error == ServerNotFound(ServerStore.NotFoundMessage(serverId)))
  {
    match FirstLive(t, serverId, Live)
    case Some(id) =>
      var i :| 0 <= i < |t| && t[i].id == id && t[i].session.serverId == serverId && Live(t[i].session.status);
      assert Get(t, id) == Some(t[i].session);
      Created(t, Success(id))
    case None =>
      match lookup
      case Failure(e) => Created(t, Failure(LookupFailed(e)))
      case Success(None) => Created(t, Failure(ServerNotFound(ServerStore.NotFoundMessage(serverId))))
      case Success(Some(server)) => Dial(t, serverId, server, keyFile, connectThrows, NewSessionId(suffix))
  }

  /** Registering a new session under the fresh `id`, checking the
      credentials and calling `client.connect`. */
  function Dial(t: ShellTable, serverId: string, server: Server, keyFile: KeyFile,
                connectThrows: Option<string>, id: string): (c: Created)
    requires !Has(t, id)
    ensures c.table != t
    ensures forall x :: x != id ==> Get(c.table, x) == Get(t, x)
    ensures DistinctIds(t) ==> DistinctIds(c.table)
    ensures c.result.Success? <==> CheckAuth(server, keyFile).None? && connectThrows.None?
    ensures c.result.Success? ==>
              c.result.value == id && Get(c.table, id) == Some(Session(serverId, Connecting, false, None))
    ensures c.result.Failure? ==> FailedEntry(c.table, id, serverId)
    ensures c.result.Failure? && CheckAuth(server, keyFile).Some? ==>
              c.result.error == AuthRefused(CheckAuth(server, keyFile).value.thrown)
    ensures c.result.Failure? && CheckAuth(server, keyFile).None? ==>
              c.result.error == ConnectFailed(connectThrows.value)
  {
    var t1 := Add(t, id, Session(serverId, Connecting, false, None));
    assert t1 != t by { assert |t1| == |t| + 1; }
    match CheckAuth(server, keyFile)
    case Some(failure) =>
      Created(MarkError(t1, id, failure.recorded), Failure(AuthRefused(failure.thrown)))
    case None =>
      match connectThrows
      case Some(m) =>
        Created(MarkError(t1, id, MessageOr(m, CONNECT_FAILED)), Failure(ConnectFailed(m)))
      case None => Created(t1, Success(id))
  }

  /** `session.status = 'error'; session.errorMessage = message` */
  function MarkError(t: ShellTable, id: string, message: string): (r: ShellTable)
    ensures |r| == |t|
    ensures Get(t, id).Some? ==> Get(r, id) == Some(Get(t, id).value.(status := Error, errorMessage := Some(message)))
    ensures forall x :: x != id ==> Get(r, x) == Get(t, x)
    ensures DistinctIds(t) ==> DistinctIds(r)
    ensures !Has(t, id) ==> r == t
    ensures forall x :: Has(r, x) <==> Has(t, x)
  {
    var f := (s: ShellSession) => s.(status := Error, errorMessage := Some(message));
    var r := Modify(t, id, f);
    forall x ensures Get(r, x) == if x == id && Get(t, id).Some? then Some(f(Get(t, id).value)) else Get(t, x) {
      ModifyGet(t, id, f, x);
    }
    assert !Has(t, id) ==> r == t by {
      if !Has(t, id) {
        assert forall i :: 0 <= i < |t| ==> r[i] == t[i];
      }
    }
    r
  }

  /** `writeToSession(id, data)`: the text handed to the shell stream. */
  function WriteToSession(t: ShellTable, id: string, data: string): (r: Result<string, ShellError>)
    ensures r.Success? <==> Get(t, id).Some? && Get(t, id).value.status == Connected && Get(t, id).value.hasChannel
    ensures r.Success? ==> r.value == data
    ensures Get(t, id).None? ==> r == Failure(SessionNotFound("Session " + id + " not found"))
    ensures Get(t, id).Some? && r.Failure? ==> r == Failure(NotConnected("Session " + id + " is not connected"))
  {
    match Get(t, id)
    case None => Failure(SessionNotFound("Session " + id + " not found"))
    case Some(s) =>
      if s.status != Connected || !s.hasChannel then Failure(NotConnected("Session " + id + " is not connected"))
      else Success(data)
  }

  /** The `setWindow(rows, cols)` call on the stream. */
  datatype Window = Window(rows: int, cols: int)

  /** `resizeSession(id, cols, rows)`: a session that is not connected is
      silently left alone. */
  function ResizeSession(t: ShellTable, id: string, cols: int, rows: int): (r: Result<Option<Window>, ShellError>)
    ensures r.Failure? <==> Get(t, id).None?
    ensures r.Success? && r.value.Some? <==> WriteToSession(t, id, "").Success?
    ensures r.Success? && r.value.Some? ==> r.value.value.rows == rows && r.value.value.cols == cols
  {
    match Get(t, id)
    case None => Failure(SessionNotFound("Session " + id + " not found"))
    case Some(s) =>
      if s.status != Connected || !s.hasChannel then Success(None)
      else Success(Some(Window(rows, cols)))
  }

  /** `closeSession(id)`: ends the client of a registered session and forgets
      it; an unknown id is a no-op. `ended` says whether `client.end()` ran. */
  function CloseSession(t: ShellTable, id: string): (r: (ShellTable, bool))
    ensures r.1 <==> Has(t, id)
    ensures !Has(r.0, id)
    ensures !Has(t, id) ==> r.0 == t
    ensures DistinctIds(t) ==> DistinctIds(r.0) && forall x :: x != id ==> Get(r.0, x) == Get(t, x)
  {
    (Remove(t, id), Has(t, id))
  }

  /** The manager's `ready` listener: the session counts as connected as soon
      as the client is ready, before any shell stream exists. */
  function OnClientReady(t: ShellTable, id: string): (r: ShellTable)
    ensures Get(t, id).Some? ==> Get(r, id) == Some(Get(t, id).value.(status := Connected))
    ensures forall x :: x != id ==> Get(r, x) == Get(t, x)
    ensures DistinctIds(t) ==> DistinctIds(r)
    ensures forall x :: Has(r, x) <==> Has(t, x)
  {
    var f := (s: ShellSession) => s.(status := Connected);
    var r := Modify(t, id, f);
    forall x ensures Get(r, x) == if x == id && Get(t, id).Some? then Some(f(Get(t, id).value)) else Get(t, x) {
      ModifyGet(t, id, f, x);
    }
    r
  }

  /** The manager's `error` listener: the raw error message is recorded. */
  function OnClientError(t: ShellTable, id: string, message: string): (r: ShellTable)
    ensures Get(t, id).Some? ==> Get(r, id) == Some(Get(t, id).value.(status := Error, errorMessage := Some(message)))
    ensures forall x :: x != id ==> Get(r, x) == Get(t, x)
    ensures DistinctIds(t) ==> DistinctIds(r)
  {
    MarkError(t, id, message)
  }

  /** The manager's `close` listener: the session is forgotten. */
  function OnClientClose(t: ShellTable, id: string): (r: ShellTable)
    ensures !Has(r, id)
    ensures DistinctIds(t) ==> DistinctIds(r) && forall x :: x != id ==> Get(r, x) == Get(t, x)
  {
    Remove(t, id)
  }

  /** Reuse: opening a shell for a server that already has a connecting or
      connected session returns that session and dials nothing, whatever the
      store, the key file or the network would have said. */
  lemma ReuseIgnoresEverythingElse(t: ShellTable, serverId: string, lookup: Result<Option<Server>, ServerStore.StoreError>,
                                   keyFile: KeyFile, connectThrows: Option<string>, suffix: string, id: string)
    requires DistinctIds(t) && !Has(t, NewSessionId(suffix))
    requires Get(t, id).Some? && Get(t, id).value.serverId == serverId && Live(Get(t, id).value.status)
    ensures CreateSession(t, serverId, lookup, keyFile, connectThrows, suffix).table == t
    ensures CreateSession(t, serverId, lookup, keyFile, connectThrows, suffix).result.Success?
  {
    var i :| 0 <= i < |t| && t[i] == Entry(id, Get(t, id).value);
    assert FirstLive(t, serverId, Live).Some?;
  }

  /** The manager's `ready` listener makes a session `connected` while it has
      no stream yet: the reuse scan then hands it out, yet writes to it fail. */
  lemma ReadyBeforeShellRefusesWrites(t: ShellTable, id: string, data: string)
    requires Get(t, id).Some? && !Get(t, id).value.hasChannel
    ensures Get(OnClientReady(t, id), id).value.status == Connected
    ensures Live(Get(OnClientReady(t, id), id).value.status)
    ensures WriteToSession(OnClientReady(t, id), id, data) == Failure(NotConnected("Session " + id + " is not connected"))
  {
  }
}

=== FILE: text.dfy ===
/** The handful of JavaScript string operations the application relies on,
    written over `string` (a sequence of code points): `split` and `join` on a
    one-character separator, `trim`, `includes`, `startsWith`, an ASCII
    `toLowerCase` and the `filter(p => p)` idiom that drops empty segments. */
module Text {

  /** The code points `String.prototype.trim` removes: ECMAScript WhiteSpace
      and LineTerminator. */
  predicate IsWhiteSpace(c: char) {
    || c == '\t' || c == '\n' || c == '\U{000B}' || c == '\U{000C}' || c == '\r' || c == ' '
    || c == '\U{00A0}' || c == '\U{1680}' || ('\U{2000}' <= c <= '\U{200A}')
    || c == '\U{2028}' || c == '\U{2029}' || c == '\U{202F}' || c == '\U{205F}'
    || c == '\U{3000}' || c == '\U{FEFF}'
  }

  /** `s.trim() === ''` */
  predicate IsBlank(s: string) {
    forall i :: 0 <= i < |s| ==> IsWhiteSpace(s[i])
  }

  /** JavaScript truthiness of a string: only the empty string is falsy. */
  predicate NonEmptyText(s: string) {
    s != ""
  }

  /** Drops the leading white space. */
  function TrimStart(s: string): (r: string)
    ensures |r| <= |s| && r == s[|s| - |r|..]
    ensures forall i :: 0 <= i < |s| - |r| ==> IsWhiteSpace(s[i])
    ensures r == [] || !IsWhiteSpace(r[0])
  {
    if |s| > 0 && IsWhiteSpace(s[0]) then TrimStart(s[1..]) else s
  }

  /** Drops the trailing white space. */
  function TrimEnd(s: string): (r: string)
    ensures |r| <= |s| && r == s[..|r|]
    ensures forall i :: |r| <= i < |s| ==> IsWhiteSpace(s[i])
    ensures r == [] || !IsWhiteSpace(r[|r| - 1])
  {
    if |s| > 0 && IsWhiteSpace(s[|s| - 1]) then TrimEnd(s[..|s| - 1]) else s
  }

  /** `s.trim()`: the infix `s[i..j]` left once white space is removed from both ends. */
  function Trim(s: string): (r: string)
    ensures |r| <= |s|
    ensures r == "" <==> IsBlank(s)
    ensures r != "" ==> !IsWhiteSpace(r[0]) && !IsWhiteSpace(r[|r| - 1])
    ensures (s == "" || (!IsWhiteSpace(s[0]) && !IsWhiteSpace(s[|s| - 1]))) ==> r == s
  {
    TrimEnd(TrimStart(s))
  }

  /** Trimming twice is trimming once. */
  lemma TrimIdempotent(s: string)
    ensures Trim(Trim(s)) == Trim(s)
  {
  }

  /** Number of occurrences of `c` in `s`. */
  function Count(s: string, c: char): nat {
    if s == [] then 0 else (if s[0] == c then 1 else 0) + Count(s[1..], c)
  }

  lemma CountConcat(a: string, b: string, c: char)
    ensures Count(a + b, c) == Count(a, c) + Count(b, c)
  {
    if a == [] {
      assert a + b == b;
    } else {
      assert (a + b)[0] == a[0];
      assert (a + b)[1..] == a[1..] + b;
      CountConcat(a[1..], b, c);
    }
  }

  lemma CountAbsent(s: string, c: char)
    ensures Count(s, c) == 0 <==> c !in s
  {
    if s != [] {
      assert s == [s[0]] + s[1..];
      CountAbsent(s[1..], c);
    }
  }

  /** Position of the first `c` in `s` (`s.indexOf(c)` when it is found). */
  function IndexOf(s: string, c: char): (i: nat)
    requires c in s
    ensures i < |s| && s[i] == c && c !in s[..i]
  {
    if s[0] == c then 0
    else
      assert c in s[1..] by { assert s == [s[0]] + s[1..]; }
      var j := IndexOf(s[1..], c);
      assert s[..j + 1] == [s[0]] + s[1..][..j];
      j + 1
  }

  /** `parts.join(sep)` */
  function Join(parts: seq<string>, sep: char): string {
    if |parts| == 0 then ""
    else if |parts| == 1 then parts[0]
    else parts[0] + [sep] + Join(parts[1..], sep)
  }

  /** `s.split(sep)` for a one-character separator: the pieces between
      consecutive separators, always at least one. */
  function Split(s: string, sep: char): (parts: seq<string>)
    ensures |parts| == Count(s, sep) + 1
    ensures forall k :: 0 <= k < |parts| ==> sep !in parts[k]
    ensures Join(parts, sep) == s
    decreases |s|
  {
    if sep !in s then
      CountAbsent(s, sep);
      [s]
    else
      var i := IndexOf(s, sep);
      assert s == s[..i] + ([sep] + s[i + 1..]);
      CountConcat(s[..i], [sep] + s[i + 1..], sep);
      assert ([sep] + s[i + 1..])[1..] == s[i + 1..];
      CountAbsent(s[..i], sep);
      [s[..i]] + Split(s[i + 1..], sep)
  }

  /** Splitting a separator-free piece list's join gives the pieces back. */
  lemma {:induction false} SplitJoin(parts: seq<string>, sep: char)
    requires |parts| >= 1
    requires forall k :: 0 <= k < |parts| ==> sep !in parts[k]
    ensures Split(Join(parts, sep), sep) == parts
  {
    if |parts| > 1 {
      var rest := Join(parts[1..], sep);
      var s := parts[0] + [sep] + rest;
      assert sep in s by { assert s[|parts[0]|] == sep; }
      var i := IndexOf(s, sep);
      assert s[..|parts[0]|] == parts[0];
      assert s[|parts[0]|] == sep;
      assert i == |parts[0]|;
      assert s[i + 1..] == rest;
      SplitJoin(parts[1..], sep);
    }
  }

  /** The text after the first `c`, or "" when `s` has none. */
  function AfterFirst(s: string, c: char): (r: string)
    ensures c in s ==> s == s[..IndexOf(s, c)] + [c] + r
    ensures c !in s ==> r == ""
  {
    if c in s then s[IndexOf(s, c) + 1..] else ""
  }

  /** `s.split(c)`: the first piece is everything before the first `c`, and
      joining the remaining pieces with `c` restores everything after it. */
  lemma SplitAtFirst(s: string, c: char)
    ensures c in s ==> Split(s, c)[0] == s[..IndexOf(s, c)]
    ensures c !in s ==> Split(s, c)[0] == s
    ensures Join(Split(s, c)[1..], c) == AfterFirst(s, c)
  {
  }

  /** `parts.filter(p => p)`: the non-empty pieces, in order. */
  function NonEmpty(parts: seq<string>): (r: seq<string>)
    ensures |r| <= |parts|
    ensures forall k :: 0 <= k < |r| ==> r[k] != "" && r[k] in parts
    ensures forall k :: 0 <= k < |parts| && parts[k] != "" ==> parts[k] in r
  {
    if parts == [] then []
    else if parts[0] == "" then NonEmpty(parts[1..])
    else [parts[0]] + NonEmpty(parts[1..])
  }

  /** `s.replace(/a/g, b)` for single characters. */
  function ReplaceAll(s: string, a: char, b: char): (r: string)
    ensures |r| == |s|
    ensures a != b ==> a !in r
    ensures forall i :: 0 <= i < |s| ==> r[i] == (if s[i] == a then b else s[i])
  {
    seq(|s|, i requires 0 <= i < |s| => if s[i] == a then b else s[i])
  }

  predicate IsAsciiLetter(c: char) {
    ('a' <= c <= 'z') || ('A' <= c <= 'Z')
  }

  function LowerChar(c: char): char {
    if 'A' <= c <= 'Z' then (c as int + 32) as char else c
  }

  /** `s.toLowerCase()`, for the ASCII letters. */
  function ToLower(s: string): (r: string)
    ensures |r| == |s|
    ensures forall i :: 0 <= i < |s| ==> !('A' <= r[i] <= 'Z')
    ensures forall i :: 0 <= i < |s| ==> (IsAsciiLetter(s[i]) <==> IsAsciiLetter(r[i]))
  {
    seq(|s|, i requires 0 <= i < |s| => LowerChar(s[i]))
  }

  /** `needle` occurs in `hay` starting at position `i`. */
  predicate OccursAt(hay: string, needle: string, i: int) {
    0 <= i && i + |needle| <= |hay| && hay[i..i + |needle|] == needle
  }

  /** `hay.includes(needle)` */
  predicate Includes(hay: string, needle: string) {
    exists i :: 0 <= i <= |hay| - |needle| && OccursAt(hay, needle, i)
  }

  /** `s.startsWith(p)` */
  predicate StartsWith(s: string, p: string) {
    p <= s
  }
}

=== FILE: wrappers.dfy ===
/** Failure-compatible wrappers used throughout the model: `Option` stands for a
    JavaScript value that may be `undefined`, `Result` for a call that either
    returns or throws. */
module Wrappers {

  datatype Option<+T> = None | Some(value: T) {

    /** The wrapped value, or `default` when there is none (`x ?? default`). */
    function GetOr(default: T): T {
      match this
      case Some(v) => v
      case None => default
    }
  }

  datatype Result<+T, +E> = Success(value: T) | Failure(error: E) {

    predicate IsFailure() {
      Failure?
    }

    function PropagateFailure<U>(): Result<U, E>
      requires Failure?
    {
      Failure(error)
    }

    function Extract(): T
      requires Success?
    {
      value
    }
  }
}
